=== FILE: README.md ===
# Automation-Auditor scoring and orchestration core, in Dafny

Automation-Auditor audits a LangGraph project in three stages.

1. Three **detectives** run in parallel and gather evidence: one reads the requirements PDF, one clones and analyses the repository, and one inspects the PDF's diagrams.
2. A **fan-in aggregator** checks that all three filed.
3. Three **judges** score each rubric dimension with a language model. They are the Prosecutor, the Defense and the TechLead. A deterministic **Chief Justice** then turns their opinions into a report:
   - It checks citations against an evidence catalog and discounts opinions with no valid citation.
   - It averages the judges, weighted for a few criteria and plain for the rest.
   - It caps security-flagged criteria at 3, detects dissent, and rounds half to even.
   - It computes the overall mean and a grade band.

The project models that core as pure functions over immutable datatypes. Scores are `real`. Python dictionaries are insertion-ordered association lists (`OrderedDict`), because their iteration order decides outcomes: the 18-string evidence limit, and the last-wins lowered-source map in citation resolution. The filesystem, git, the PDF converter, the AST scanner and every model call are inputs:
- an abstract `FileSystem` (existence, kind and a per-pattern glob oracle);
- outcome datatypes for each detective (`DocOutcome`, `RepoOutcome`, `VisionOutcome`);
- a model oracle `(call number, prompt kind) -> CallOutcome` and a JSON parse oracle for the judges;
- a `SummaryResponse` for the Chief Justice's summary call;
- per-file `ScanResult`s for the AST analysis;
- a heading-search oracle for `_extract_section`.

Modules follow the source files. Two shared modules hold Python's string builtins and dict semantics.

| module | Dafny file | source file | models |
|---|---|---|---|
| `Common` | common.dfy | (shared) | `Option`, `Result` |
| `Strings` | strings.dfy | (shared) | `str.isspace`, `strip`/`rstrip`, ASCII `lower`/`upper`, `find`/`in`/`count`, lexicographic order |
| `OrderedDict` | odict.dfy | (shared) | Python `dict`: lookup, `d[k] = v`, `d \|= u` |
| `State` | state.dfy | src/state.py | the records, their range validators, and the reducers of `AgentState` |
| `Graph` | graph.dfy | src/graph.py | the aggregator, the declared topology, one run of the graph |
| `Detectives` | detectives.dfy | src/nodes/detectives.py | PDF path resolution, the image message, the three detective nodes |
| `Judges` | judges.dfy | src/nodes/judges.py | evidence extraction, citation resolution, JSON salvage, context truncation, the retry machine, `_run_judge` |
| `Justice` | justice.dfy | src/nodes/justice.py | the whole scoring engine and `chief_justice_node` |
| `DocTools` | doc_tools.dfy | src/tools/doc_tools.py | snippet truncation, sentence splitting, section extraction, `query_requirements` |
| `RepoTools` | repo_tools.dfy | src/tools/repo_tools.py | URL guards, the file tree, graph-structure summary, repository summary text |

Where the code and its comments or docstrings disagree, the model follows the code:

- **The evidence merge.** `evidences` is merged with `operator.ior`, a right-biased union. On a colliding key the later update wins and nothing is raised, whatever the comment "without overwriting" suggests. `State.MergeEvidencesSemantics` states the union; `State.MergeEvidencesDisjoint` gives the no-overwrite promise for disjoint keys only.
- **The graph.** As compiled, the graph is START → the three detectives in parallel → aggregator → END. No judge or Chief Justice stage is wired in.
  - All three detectives read the initial state in the same superstep.
  - So the document analyst and the vision inspector resolve the PDF with the initial `repo_path`, not with the freshly cloned repository (`Graph.Superstep`).
  - Each detective always files under its own key, so the aggregator always reports synchronisation (`Graph.RunAlwaysSynchronizes`).
- **Rounding.** `int(round(x))` is Python's round-half-to-even, so 2.5 rounds to 2 and 3.5 to 4.
- **A judge's restart.** A rate-limit restart of `_run_judge` discards the opinions gathered before it.
- **Citation fallback.** When neither exact nor fuzzy matching finds anything, the resolver returns `evidence_strings[0]`.
- **Model replies.** A structured-output answer and an opinion salvaged from a failed generation are pydantic-validated `JudicialOpinion`s, so the model's oracle yields `ValidJudicialOpinion`s (score in [1, 5]). An `invoke` that returns nothing is its own outcome, `NoAnswer`: it ends the attempts, and the judge then raises the last error or the RuntimeError.
- **Placeholder evidence.** When no evidence string exists, `_run_judge` substitutes the placeholder string before resolving. So the resolver's own empty-evidence branch is not reached from there; it is modelled anyway.

## Model

| member | source | states |
|---|---|---|
| State.ParseJudgeLabel | src/state.py:31 | the judge field accepts exactly the three labels Prosecutor, Defense and TechLead, and parsing a judge's label gives back that judge |
| State.MakeEvidence | src/state.py:9-22 | an Evidence can be built exactly when its confidence lies in [0, 1], and the built record carries the given fields |
| State.MakeOpinion | src/state.py:26-35 | a JudicialOpinion can be built exactly when the judge label is one of the three and the score is an integer in [1, 5] |
| State.MakeCriterionResult | src/state.py:39-49 | a CriterionResult can be built exactly when its final score is in [1, 5] |
| State.MergeEvidencesSemantics | src/state.py:71-74 | merging evidences keeps every key of both sides, and on a collision the update's value is the one looked up |
| State.MergeEvidencesDisjoint | src/state.py:71-74 | with disjoint keys the merge appends the update and every existing entry keeps its value |
| State.MergeListAppends | src/state.py:76-80 | merging opinions or messages gives the old list followed by the update: length is the sum, order is kept |
| State.ApplyCommutesOnEvidences | src/state.py:71-74 | two sibling updates with disjoint evidence keys give the same lookups whichever is applied first |
| State.ApplyScalars | src/state.py:66-69 | a scalar channel changes only when the update writes it, and then takes the written value |
| OrderedDict.UpdateGet | src/state.py:72-74 | a lookup after `d \|= u` finds `u`'s value when `u` has the key, else `d`'s |
| Graph.MissingKeys | src/graph.py:36 | the missing list holds exactly the required detective keys absent from the evidences, in the order doc, repo, vision, so it has no repeats |
| Graph.AbsentMembers | src/graph.py:36 | a key is reported exactly when it is required and not present |
| Graph.AbsentAppend | src/graph.py:36 | the filtering comprehension distributes over concatenation and keeps a single key exactly when it is not present |
| Graph.MissingInRankOrder | src/graph.py:36 | filtering the required list doc, repo, vision keeps that order strictly |
| Graph.AbsentKeepsRankOrder | src/graph.py:36 | filtering a list whose keys are in strictly increasing rank keeps the rank strictly increasing |
| Graph.Aggregator | src/graph.py:22-41 | the aggregator writes a single message: success exactly when all three keys are present, else the gaps message carrying the missing list; it writes no other channel |
| Graph.AggregatorOnlyLogs | src/graph.py:37-41 | applying the aggregator's update leaves every field but the message log unchanged, and the log grows by its one message |
| Graph.TopologyAsDeclared | src/graph.py:56-66 | START fans out to the three detectives, each detective's only successor is the aggregator, whose predecessors are exactly the detectives and whose only successor is END |
| Graph.EveryPathFromStart | src/graph.py:56-66 | every path from START has at most four nodes: START, one detective, the aggregator, END |
| Graph.DetectiveFilingsComplete | src/graph.py:36-41 | once three updates filing the doc, repo and vision keys are merged, all required keys are present and the aggregator reports synchronisation |
| Graph.SuperstepOrderIrrelevant | src/state.py:71-74 | the merged evidence of the detectives' superstep is the same whatever order their updates are applied in |
| Graph.RunAlwaysSynchronizes | src/graph.py:22-41 | whatever each detective's outcome, success or failure, the aggregator of a run reports synchronisation |
| Graph.RunPathsFromInvestigator | src/nodes/detectives.py:186-193 | after a run, repo_path and pdf_path are the investigator's results when it succeeded and the initial values otherwise |
| Detectives.FirstPdfFile | src/nodes/detectives.py:49-51 | within one pattern the first listed existing `.pdf` file is taken, and none is taken only when no listed file qualifies |
| Detectives.JoinPathBaseName | src/nodes/detectives.py:44-45 | joining a slash-free file name onto any root makes that name the final path component, whose suffix the PDF test reads |
| Detectives.GlobSearch | src/nodes/detectives.py:48-51 | the patterns are tried in order: a hit is the first PDF file listed by the first pattern that lists one, every earlier pattern listing none; no hit means no pattern lists an existing `.pdf` file |
| Detectives.FirstPatternShift | src/nodes/detectives.py:48-51 | a first hit among the later patterns, behind a first pattern without a hit, is the first hit of the whole list |
| Detectives.ResolvePdfPath | src/nodes/detectives.py:29-56 | an unusable repo root returns the requested path unchanged; an absolute existing file wins; with a usable root the result is an existing file, or root/requested path, or root/reports/final_report.pdf when nothing was requested; with no candidate and no glob hit it is exactly that fallback |
| Detectives.ResolvePriority | src/nodes/detectives.py:39-56 | after the absolute candidate, a repo-relative `.pdf` candidate beats every glob; otherwise the first glob hit is returned, and with no hit the fallback path |
| Detectives.ResolveFindsReachablePdf | src/nodes/detectives.py:39-51 | with a usable root, a PDF file listed by any search pattern guarantees an existing file as the result, and a PDF file unless the absolute request won |
| Detectives.FallbackNamesDefaultReport | src/nodes/detectives.py:56 | with nothing requested the fallback names `final_report.pdf`, a PDF suffix |
| Detectives.PdfSuffixOfName | src/nodes/detectives.py:45 | the suffix test looks only at the file name and ignores case |
| Detectives.ImageMessageParts | src/nodes/detectives.py:59-77 | the image message is the prompt followed by at most eight images, each an existing file among the first eight paths |
| Detectives.ReadableImagesAttached | src/nodes/detectives.py:62-75 | every existing image file among the considered paths is attached |
| Detectives.OrUnknown | src/nodes/detectives.py:141 | a failure location is the given path, or "unknown" when it is empty |
| Detectives.DocAnalystNode | src/nodes/detectives.py:80-161 | the document analyst files exactly one evidence item under its own key, found exactly on success; only on success does it write the requirements payload with the resolved path and the four search patterns; it never writes the paths |
| Detectives.RepoInvestigatorNode | src/nodes/detectives.py:164-206 | the investigator files one item under its own key and writes repo_path and pdf_path exactly on success, with the PDF re-resolved inside the clone; a failure has confidence 0 and the URL or "unknown" as location |
| Detectives.VisionInspectorNode | src/nodes/detectives.py:209-288 | the inspector files one item under its own key: found exactly when images exist, with confidence 0.7 or 0.4 and, without images, the fixed no-images findings; failures have confidence 0 at the requested PDF path or "unknown" |
| Detectives.DetectiveKeysDistinct | src/nodes/detectives.py:131 | the three detectives' evidence keys are pairwise distinct |
| Judges.Sanitize | src/nodes/judges.py:58-59 | a sanitised string is the stripped text cut to 200 characters, with each backslash written as "/" and each double quote as "'"; it has no backslash or double quote left |
| Judges.ReplaceThenStrip | src/nodes/judges.py:58 | replacing the two characters before stripping gives the same as stripping and then replacing, because neither replacement changes what is whitespace |
| Judges.SanitizeKeepsClean | src/nodes/judges.py:58-59 | sanitising a text that is already stripped, at most 200 characters and free of both characters returns it unchanged |
| Judges.ExtractEvidenceStrings | src/nodes/judges.py:28-61 | at most `limit` strings are extracted, each at most 200 characters with no backslash or double quote |
| Judges.ExtractIsSanitizedPrefix | src/nodes/judges.py:28-61 | the early-exit loop yields exactly the sanitised first `limit` strings of the full catalog-order list |
| Judges.ExactMatchesMembers | src/nodes/judges.py:72 | a string is an exact match exactly when it is cited and is an evidence string |
| Judges.ExactMatchesAppend | src/nodes/judges.py:72 | the comprehension distributes over concatenation and keeps one citation exactly when it is an evidence string, so matches keep cited order and repeats |
| Judges.FirstFuzzy | src/nodes/judges.py:83-86 | a fuzzy hit is the original of the first lowered source, in dictionary order, that contains or is contained in the probe; no hit means no lowered source matches |
| Judges.FuzzyMatch | src/nodes/judges.py:79-86 | a citation whose lowered, stripped probe is blank contributes nothing; otherwise it contributes the first matching source's original, or nothing when none matches |
| Judges.FuzzyMatchesAppend | src/nodes/judges.py:78-86 | the fuzzy pass distributes over concatenation of the citations, and one citation contributes exactly its own match, so matches come in cited order with repeats |
| Judges.Dedupe | src/nodes/judges.py:89-93 | deduplication keeps exactly the elements of both inputs, produces no repeats, and keeps what was already kept as a prefix |
| Judges.DedupeSnoc | src/nodes/judges.py:90-93 | a further item is appended exactly when it has not been kept already, so each item is kept at its first occurrence in the fuzzy order |
| Judges.ResolveCitations | src/nodes/judges.py:64-95 | with evidence, the resolved list is non-empty and drawn from the evidence strings; when an exact match exists it is the exact-match list; otherwise, when fuzzy matches exist, it is the fuzzy matches with repeats removed; without evidence it is the single placeholder |
| Judges.ResolveFallbacks | src/nodes/judges.py:88-95 | with no exact match the result has no repeats; it is the deduplicated fuzzy matches when there are any, and the first evidence string when there are none |
| Judges.CaseVariantResolvesFuzzily | src/nodes/judges.py:77-86 | a citation differing from an evidence string only in case or surrounding space is resolved fuzzily |
| Judges.ForceJsonExtraction | src/nodes/judges.py:121-125 | without a `{` before the last `}` the stripped input is returned; otherwise exactly the span from the first `{` to the last `}`, which begins and ends with a brace |
| Judges.BraceEndsIff | src/nodes/judges.py:121-125 | the first `{` lies before the last `}` exactly when some `{` precedes some `}` |
| Judges.ForceJsonWithoutSpan | src/nodes/judges.py:121-125 | input with no `{` followed by a `}` is only stripped |
| Judges.ForceJsonCoversEverySpan | src/nodes/judges.py:121-125 | the salvaged span encloses every brace-delimited span of the input |
| Judges.TruncateEvidenceContext | src/nodes/judges.py:137-141 | a payload of at most 2000 characters is unchanged; a longer one becomes its first 1000 characters, the truncation marker at positions 1000-1018, then its last 1000 (2019 in all) |
| Judges.TruncationIdempotent | src/nodes/judges.py:137-141 | truncating a truncated context changes nothing |
| Judges.Attempts | src/nodes/judges.py:209-239 | a criterion gets at most three attempts, the k-th with the prompt of attempt k; exhaustion uses them all; any other ending is decided by the last call: its answer or salvaged opinion, an empty reply, or an unsalvaged rate limit while a restart is allowed |
| Judges.StopResult | src/nodes/judges.py:211-239 | a call that does not move the loop on ends it with its answer or salvaged opinion, with no response exactly on an empty reply, and otherwise with a restart request for an unsalvaged rate limit |
| Judges.AttemptsTrace | src/nodes/judges.py:209-239 | every call before the last one moved the loop on: it raised, nothing was salvaged and it did not restart the node |
| Judges.ExhaustedTrace | src/nodes/judges.py:209-239 | an exhausted loop also moved on after its last call |
| Judges.FirstObtainedWins | src/nodes/judges.py:209-226 | when every earlier call moved the loop on and call j yields an opinion, the run ends at call j with that opinion |
| Judges.FirstAnswerTaken | src/nodes/judges.py:211-214 | an answer to the first call is taken after exactly one prompt |
| Judges.ExhaustedError | src/nodes/judges.py:215-216 | an exhausted run keeps the message of its last raised call as the error to re-raise |
| Judges.NoResponseError | src/nodes/judges.py:212-216 | a run ended by an empty reply keeps the message of the last raised call before it, if any |
| Judges.AttemptPromptsPrefix | src/nodes/judges.py:210 | the prompts tried are a prefix of original, original, simplified |
| Judges.PlainFailuresExhaust | src/nodes/judges.py:209-226 | failures that are neither salvageable nor rate limits use up all attempts |
| Judges.Normalize | src/nodes/judges.py:257-263 | a normalised opinion keeps the model's score and argument, takes the node's judge and the dimension's id, and cites a non-empty subset of the evidence |
| Judges.JudgeOneReflectsAttempts | src/nodes/judges.py:207-263 | a criterion is judged exactly when the loop obtained an opinion, keeping its score; otherwise the loop's last error is raised, or the RuntimeError when no call raised |
| Judges.PlainFailuresReraiseLastMessage | src/nodes/judges.py:209-244 | three plain failures re-raise the third call's own message |
| Judges.JudgeDimensions | src/nodes/judges.py:166-264 | a finished pass yields one normalised opinion per dimension, in rubric order; a restart is requested only when allowed |
| Judges.RunJudge | src/nodes/judges.py:144-283 | a judge restarts at most once; it writes one message and only valid opinions bearing its own label; on completion one opinion per dimension with non-empty citations, otherwise exactly the fallback opinion with score 1 on `judicial_runtime_error` |
| Judges.RateLimitRestartsOnce | src/nodes/judges.py:228-239 | persistent rate limits cause exactly one restart and then the fallback opinion |
| Judges.NoRestartRateLimitsExhaust | src/nodes/judges.py:233-239 | once the restart is spent, rate limits just exhaust the attempts |
| Judges.AnsweringModelCompletes | src/nodes/judges.py:166-270 | a model that always answers validly makes the judge complete every dimension with valid opinions |
| Justice.BucketEntriesMembers | src/nodes/justice.py:53-69 | a bucket contributes exactly its stripped non-empty name and the stripped non-blank goal, location and text content of its items |
| Justice.CatalogMembers | src/nodes/justice.py:49-71 | the catalog holds exactly what some bucket contributes |
| Justice.HasValidCitationIff | src/nodes/justice.py:74-91 | a citation list is valid exactly when one of its citations matches, so an empty list never is |
| Justice.CitationMatchCases | src/nodes/justice.py:78-88 | a whitespace-only citation never matches; an exact hit on a catalog entry always does |
| Justice.CaseInsensitiveHitMatches | src/nodes/justice.py:84-88 | a citation equal to a catalog entry up to case matches |
| Justice.ApplyEvidenceRule | src/nodes/justice.py:94-114 | a record is discounted exactly when no citation is valid; then its effective score is max(1, score - 1), else the score; for a valid opinion it lies in [1, score] |
| Justice.EvidenceRuleMonotone | src/nodes/justice.py:94-114 | under the same validity a higher score never yields a lower effective score |
| Justice.LastRecordOf | src/nodes/justice.py:121 | the per-judge map holds a record of that judge exactly when the judge has one |
| Justice.LastRecordOfIsLast | src/nodes/justice.py:121 | the record kept for a judge is the one at that judge's last position, with no record of that judge after it, because later records overwrite earlier ones |
| Justice.WeightedMeanBounds | src/nodes/justice.py:117-141 | the weighted mean over the judges present lies within any bounds of their effective scores |
| Justice.BaseScoreWithinEffectives | src/nodes/justice.py:117-141 | a criterion's base score lies between the least and greatest effective score |
| Justice.WeightedSingleJudge | src/nodes/justice.py:117-141 | on a weighted criterion with a single judge present, the base is that judge's last effective score |
| Justice.WeightedExample | src/nodes/justice.py:117-141 | Prosecutor 2, Defense 4, TechLead 4 on a weighted criterion give 3.5 |
| Justice.FirstRecordOf | src/nodes/justice.py:145 | the security check takes the first Prosecutor record, and finds none only when no Prosecutor record exists |
| Justice.SecurityCap | src/nodes/justice.py:144-153 | the cap never raises a score, yields the score or 3, and lowers it exactly when the score exceeds 3 and the first Prosecutor record mentions a security keyword; with no Prosecutor it does nothing |
| Justice.KeywordInArgumentCaps | src/nodes/justice.py:144-153 | a security keyword in the first Prosecutor's lowered argument caps the score at min(score, 3) |
| Justice.BuildDissent | src/nodes/justice.py:156-174 | dissent is present exactly when the effective scores are contested, and reports each judge's first effective score |
| Justice.ContestedIffSomePair | src/nodes/justice.py:157-161 | scores are contested exactly when some two of them differ by more than 2 |
| Justice.DissentExamples | src/nodes/justice.py:156-174 | effective scores 1, 5, 5 are contested and 3, 4, 5 are not |
| Justice.RoundHalfEven | src/nodes/justice.py:237 | the rounded integer is within one half of the input, and on a tie it is even |
| Justice.RoundHalfEvenUnique | src/nodes/justice.py:237 | any integer within one half of the input that is even on a tie is the rounding |
| Justice.RoundingExamples | src/nodes/justice.py:237 | 2.5 rounds to 2, 3.5 to 4 and 3.4 to 3 |
| Justice.FinalScore | src/nodes/justice.py:237 | the final criterion score is an integer in [1, 5], and it equals the rounding whenever that is already in range |
| Justice.OpinionsFor | src/nodes/justice.py:220-231 | a dimension receives exactly the opinions whose criterion id equals its id |
| Justice.OpinionsForAppend | src/nodes/justice.py:220-222 | grouping distributes over concatenation and keeps a single opinion exactly when its criterion id matches, so each group keeps arrival order and repeats |
| Justice.RecordsFor | src/nodes/justice.py:233 | each of a dimension's opinions yields its own discounted record, in order |
| Justice.AdjudicateDimension | src/nodes/justice.py:228-283 | each dimension yields one block and one payload entry with its id and name, the same final score in [1, 5], and a contested flag that is set exactly when dissent is present; the block always has at least one judge line |
| Justice.UnjudgedDimension | src/nodes/justice.py:253-254 | a dimension without opinions scores 1, is uncontested, and shows only the placeholder line |
| Justice.DimensionUsesOnlyItsOpinions | src/nodes/justice.py:220-233 | every judge entry of a dimension comes from an opinion on that dimension |
| Justice.ClampIsNoOpForValidOpinions | src/nodes/justice.py:235-237 | with valid opinions the base lies in [1, 5] and the final score is the rounding of the capped base, so the clamp never acts |
| Justice.OverallScore | src/nodes/justice.py:285 | the overall score is 1.0 with no criteria, and otherwise the mean: times the number of criteria it gives back their integer sum; it lies in [1, 5] when every criterion score does |
| Justice.OverallOfEqualScores | src/nodes/justice.py:285 | criteria that all scored c average to exactly c |
| Justice.GradeFor | src/nodes/justice.py:286-290 | Master Thinker from 4.5 up, Competent Orchestrator from 3.0 below 4.5, The Vibe Coder below 3.0 |
| Justice.SummaryAndPlan | src/nodes/justice.py:192-207 | a failed summary call gives the canned pair; a reply without both markers gives its stripped text and the default plan |
| Justice.SummarySectionsParsed | src/nodes/justice.py:195-198 | a reply with both markers is split into the stripped text between them and the stripped text after the plan marker |
| Justice.AdjudicateAll | src/nodes/justice.py:228-283 | exactly one outcome per configured dimension, in configured order |
| Justice.ChiefJustice | src/nodes/justice.py:210-323 | a report exists exactly when the rubric loads and the write succeeds, with the success message; the payload and the report's criteria are the per-dimension verdicts, the overall score is the mean of their final scores (1.0 for none), lies in [1, 5] and has the matching grade, and summary and plan come from the summary reply; a failed rubric load gives an empty payload and the failure message |
| Justice.ChiefJusticeReportsVerdicts | src/nodes/justice.py:228-285 | payload entry `i` and report criterion `i` are dimension `i`'s adjudication, in configured order, and the averaged scores are the criteria's final scores |
| Justice.TotalFailureStillReports | src/nodes/justice.py:228-283 | with no evidence and no opinions the report still lists every configured criterion, each at 1 with the placeholder line |
| DocTools.CollapseSpace | src/tools/doc_tools.py:200 | collapsing leaves no whitespace run and only plain spaces, and starts with a space exactly when the input starts with whitespace |
| DocTools.CollapseSpaceByRuns | src/tools/doc_tools.py:200 | collapsing distributes over every cut that does not split a whitespace run |
| DocTools.CollapseRun | src/tools/doc_tools.py:200 | a whole whitespace run becomes exactly one space |
| DocTools.CollapseVisible | src/tools/doc_tools.py:200 | a visible character is kept as it is |
| DocTools.CleanKeepsVisible | src/tools/doc_tools.py:200 | cleaning keeps every non-whitespace character in order |
| DocTools.TruncateSnippet | src/tools/doc_tools.py:198-203 | a snippet has no whitespace runs and no surrounding space; a short cleaned text is returned whole; a long one is a prefix of it followed by "...", and that prefix is `max_chars` characters exactly when the character at the cut is not whitespace, and `max_chars - 1` otherwise |
| DocTools.RStripDropsAtMostOne | src/tools/doc_tools.py:203 | in a run-free text, right-stripping a prefix drops at most one character, and drops none exactly when the prefix ends in a non-whitespace character |
| DocTools.SnippetKeepsVisible | src/tools/doc_tools.py:198-203 | a snippet shows either all the visible text or a prefix of it followed by "..." |
| DocTools.SnippetOfCleanText | src/tools/doc_tools.py:198-203 | an already-clean text within the limit comes back unchanged |
| DocTools.TokensCoverWordChars | src/tools/doc_tools.py:102 | the tokens found are exactly the word characters of the query, in order |
| DocTools.Keywords | src/tools/doc_tools.py:102 | keywords are exactly the word-character tokens of the lowered query longer than two characters |
| DocTools.KeywordScorePositiveIff | src/tools/doc_tools.py:112 | a text scores exactly when some keyword occurs in its lowered form |
| DocTools.SectionScore | src/tools/doc_tools.py:107-115 | an empty section scores 0; otherwise its keyword count, plus 3 when its name occurs in the query |
| DocTools.FirstChoice | src/tools/doc_tools.py:117-121 | a choice exists exactly when some score is positive, and it is the earliest index of the greatest score |
| DocTools.SelectBest | src/tools/doc_tools.py:103-121 | the strict-greater scan returns the first index of the greatest positive score, or none |
| DocTools.SplitSentencesReconstructs | src/tools/doc_tools.py:127 | the sentences joined with the dropped separators give back the text, one separator between each pair of neighbours |
| DocTools.SentenceGapShape | src/tools/doc_tools.py:127 | each dropped separator is a whole whitespace run: the sentence before it ends in `.`, `!` or `?` and the one after it does not start with whitespace |
| DocTools.SentencesHaveNoSplitPoint | src/tools/doc_tools.py:127 | no sentence still holds whitespace right after `.`, `!` or `?` |
| DocTools.ExtractSection | src/tools/doc_tools.py:205-227 | with no matching heading the section is empty; otherwise it is the snippet of the body after the heading, capped at 2000 characters plus "..." |
| DocTools.ExtractRubricDimensions | src/tools/doc_tools.py:66-77 | extraction fails exactly when nothing is loaded, and otherwise holds the three extracted sections |
| DocTools.Answer | src/tools/doc_tools.py:102-146 | the answer is `[NAME] snippet` for the chosen section, and the sentence fallback when no section scores |
| DocTools.FallbackAnswer | src/tools/doc_tools.py:126-146 | the fallback is the snippet of the first best-scoring sentence; if no sentence scores, a window around the query's first occurrence; otherwise the fixed no-match message |
| DocTools.QueryRequirements | src/tools/doc_tools.py:79-146 | a blank query and an unloaded document are refused; otherwise the sections are re-extracted when all are empty, and the answer is the one for the lowered query |
| RepoTools.CloneRepo | src/tools/repo_tools.py:110-131 | a blank URL is refused; otherwise the clone succeeds exactly when git succeeds; a git failure is an authentication failure exactly when its lowered text names one, and otherwise a clone failure carrying git's message; any other exception is an unexpected clone error carrying its message |
| RepoTools.AuthenticationIgnoresCase | src/tools/repo_tools.py:123-124 | the authentication test does not depend on case |
| RepoTools.KeptPaths | src/tools/repo_tools.py:164-173 | the tree keeps exactly the files with no `.git` or `__pycache__` component |
| RepoTools.Sort | src/tools/repo_tools.py:175 | sorting yields a sorted permutation of its input |
| RepoTools.SortedUnique | src/tools/repo_tools.py:175 | two sorted permutations of each other are equal |
| RepoTools.FileTree | src/tools/repo_tools.py:159-176 | a missing path fails; otherwise the tree is sorted and is a permutation of the kept paths |
| RepoTools.FileTreeIsTheSortedListing | src/tools/repo_tools.py:159-176 | the file tree is the one sorted arrangement of the kept paths |
| RepoTools.BaseInsideGitHidesAll | src/tools/repo_tools.py:169-171 | a base path inside a `.git` directory yields an empty tree |
| RepoTools.PythonFiles | src/tools/repo_tools.py:183-187 | the scanned files are exactly the tree entries ending in `.py` |
| RepoTools.ScanFiles | src/tools/repo_tools.py:199-239 | the scan adds one error per failing file, in file order, after the earlier errors |
| RepoTools.AnalyzeGraphStructure | src/tools/repo_tools.py:178-255 | a missing path fails with the missing-path error and only then; otherwise every `.py` file counts as scanned, each failing file gives one error, in file order, the class and function tables have exactly the parsed files as keys, and the totals are the sums of their list lengths |
| RepoTools.ScanCounts | src/tools/repo_tools.py:211-218 | the scan adds each parsed file's StateGraph and add_node counts, and a failing file adds none |
| RepoTools.DetectionFlags | src/tools/repo_tools.py:246-249 | the detection flags are set exactly when some parsed file has a StateGraph or an add_node call |
| RepoTools.ScanKeys | src/tools/repo_tools.py:199-239 | the scan adds a table entry for each parsed file and none for a failing one |
| RepoTools.FoundIsTotal | src/tools/repo_tools.py:206-244 | over distinct file names, a table's total grows by the names of the parsed files, each counted once |
| RepoTools.GraphTotals | src/tools/repo_tools.py:241-245 | over a tree of distinct paths, classes_found and functions_found are the totals over the parsed files |
| RepoTools.EffectivePatterns | src/tools/repo_tools.py:265-275 | given non-empty ignore patterns are used; none or an empty list gives the default list |
| RepoTools.FirstStringValue | src/tools/repo_tools.py:343-353 | the value found is the string under the first key, in priority order, that holds a string; none exactly when no key does |
| RepoTools.SummaryKeyWins | src/tools/repo_tools.py:342-353 | a dict holding a string under `summary` yields that string |
| RepoTools.NoKnownKeyFallsBack | src/tools/repo_tools.py:342-354 | a dict with none of the six keys yields its `str()` |
| RepoTools.GetRepoSummary | src/tools/repo_tools.py:257-295 | a blank URL and a missing ingest library are refused; an ingest call that raises is a summary failure carrying its message; a result is the non-blank extracted summary, and a blank summary is reported as a summary failure |

## Left out

- Model calls (`ChatGroq.invoke`, `with_structured_output`) and prompt texts. They appear only as outcome oracles: per call for the judges, one `SummaryResponse` for the Chief Justice, one outcome per detective.
- `time.sleep` pacing and the LLM call lock. They only schedule calls. `src/nodes/llm_locks.py` is not part of this model.
- LangGraph's parallel execution. It is modelled as applying the detectives' updates one after another to the same input state, which is how the reducers combine them.
- Git operations, commit history, and `_call_gitingest_ingest`'s signature probing. They are effects of external libraries. `extract_git_history` is not part of this model.
- AST parsing with `GraphAstVisitor`. Per-file scan results are inputs, and the component lists are reduced to their counts.
- Docling and PyMuPDF conversion, image extraction, base64 encoding and MIME guessing, and every file read and write: `rubric.json`, `audit_report.md`, the cloned tree. Their results are inputs.
- `_extract_markdown` and `_extract_json`. They probe library result objects by attribute.
- `json.dumps` output and the Markdown text of the report. Payloads are abstract strings; the report is a list of structured blocks.
- Logging, `set_debug`, `load_dotenv` and the `__main__` driver of `src/graph.py`.
- Regular-expression engines. Whitespace is Python's `str.isspace` set. Heading detection in `_extract_section` is a search oracle whose positions are clamped to the text.
- DocTools.ExtractSection: only states that the section ends somewhere after the heading, because the next-heading position comes from the oracle.
- Strings.Lower and Strings.Upper: map ASCII letters only. Python's full Unicode case mapping (which can change lengths) is not modelled.
- DocTools.QueryRequirements: models the refresh of the analyst's held sections as a returned value, not a mutation of the object.
- Detectives.JoinPath: does not normalise paths (`..`, repeated slashes) the way `pathlib` does.
- Judges.Attempts: the model's outcome is looked up by a global call counter and the prompt kind, not by prompt text.
- `_manual_parse_judicial_opinion` and `_extract_failed_generation_text`. They are the parse oracle of the retry machine.
- `_to_opinion` in justice.py. The state's opinions are taken as opinion records directly. Dropping a stored dict that fails validation is not modelled; `State.MakeOpinion` states what validation accepts.
- RepoTools.GraphTotals: assumes the file tree lists each path once, as a directory walk does; the tree is an input and its distinctness is not otherwise enforced.
- RepoTools.AnalyzeGraphStructure: reduces each file's class and function names to lists whose lengths are summed; the names themselves come from the scan oracle.
- Exception texts. Error messages, and the argument of a judge's fallback opinion, carry an abstract error label, not Python's exception text. The rubric failure is "rubric.json not found" without the file path (judges.py:22). The Chief Justice's failure message `SynthesisFailed(error)` stands for "ChiefJustice synthesis failed: {error}" (justice.py:322), and its error is a fixed description ("rubric.json could not be loaded", "report could not be written"), not the exception's own text. The `RuntimeError` prefixes of the repository tool ("Failed to clone repository: ", "Failed to generate repository summary: ") are left off the carried message.
- Judges.RunJudge: a failure while constructing the chat model (judges.py:156, for instance a missing API key) also takes the fallback path in the source; it is not a separate error of the model, whose judges are outcome oracles.
- Floating-point arithmetic. Scores are exact reals, so the weighted mean of 3.5 is exact, where Python's floats could differ in the last bits.

=== FILE: common.dfy ===
/** Failure-carrying result types shared by every module of the auditor model. */
module Common {

  /** A value that may be absent (Python's `None`). */
  datatype Option<+T> = None | Some(value: T) {
    function GetOr(default: T): T {
      match this
      case Some(v) => v
      case None => default
    }
  }

  /** Either a value or a raised exception of kind `E`. */
  datatype Result<+T, +E> = Ok(value: T) | Err(error: E)

  /** Concatenation regroups freely. */
  lemma ConcatAssoc<T>(x: seq<T>, y: seq<T>, z: seq<T>)
    ensures x + (y + z) == (x + y) + z
  {
  }
}

=== FILE: detectives.dfy ===
/**
 The three detective nodes over an abstract filesystem: the report-PDF path
 resolution policy, the evidence each node files (under its own key, with a
 fixed confidence per outcome), and the image cap of the vision request.
 Document parsing, cloning, image extraction and model calls are outcomes
 handed in by the caller.
 */
module Detectives {
  import opened Common
  import opened Strings
  import opened State

  /** The filesystem as seen by `pathlib`: existence, kind, and `root.glob(pattern)`. */
  datatype FileSystem = FileSystem(
    exists_: string -> bool,
    isDir: string -> bool,
    isFile: string -> bool,
    glob: (string, string) -> seq<string>)

  const SearchPatterns: seq<string> := ["reports/final_report.pdf", "**/final_report.pdf", "reports/*.pdf", "**/*.pdf"]

  predicate IsAbsolute(p: string) {
    |p| > 0 && p[0] == '/'
  }

  /** `Path(root) / p`: an absolute right-hand side replaces the root. */
  function JoinPath(root: string, p: string): (r: string)
    ensures IsAbsolute(p) ==> r == p
    ensures !IsAbsolute(p) ==> r == root + "/" + p
  {
    if IsAbsolute(p) then p else root + "/" + p
  }

  /** The final path component. */
  function BaseName(p: string): (r: string)
    ensures EndsWith(p, r)
    ensures forall i :: 0 <= i < |r| ==> r[i] != '/'
  {
    if |p| == 0 then ""
    else if p[|p| - 1] == '/' then ""
    else
      var rest := BaseName(p[..|p| - 1]);
      assert p == p[..|p| - 1] + [p[|p| - 1]];
      rest + [p[|p| - 1]]
  }

  /** `Path(p).suffix.lower() == ".pdf"`: the name ends in `.pdf` in any case, after at least one
      other character (a bare `.pdf` is a hidden file without a suffix). */
  predicate HasPdfSuffix(p: string) {
    var name := BaseName(p);
    |name| > 4 && Lower(name[|name| - 4..]) == ".pdf"
  }

  /** A path that passes both the suffix test and the `is_file` test. */
  predicate IsPdfFile(fs: FileSystem, p: string) {
    HasPdfSuffix(p) && fs.isFile(p)
  }

  /** The first of `files` that is a PDF file. */
  function FirstPdfFile(fs: FileSystem, files: seq<string>): (r: Option<string>)
    ensures r.Some? ==> r.value in files && IsPdfFile(fs, r.value)
    ensures r.None? ==> forall f :: f in files ==> !IsPdfFile(fs, f)
    ensures r.Some? ==> exists i :: 0 <= i < |files| && files[i] == r.value
                                    && forall k :: 0 <= k < i ==> !IsPdfFile(fs, files[k])
  {
    if |files| == 0 then None
    else if IsPdfFile(fs, files[0]) then Some(files[0])
    else
      var rest := FirstPdfFile(fs, files[1..]);
      TailMembers(files);
      if rest.Some? then
        FirstHitShift(fs, files, rest.value);
        rest
      else rest
  }

  lemma TailMembers(files: seq<string>)
    requires |files| > 0
    ensures forall f :: f in files <==> f == files[0] || f in files[1..]
  {
    assert files == [files[0]] + files[1..];
  }

  /** A first PDF hit in the tail, behind a non-PDF head, is the first hit of the whole list. */
  lemma FirstHitShift(fs: FileSystem, files: seq<string>, v: string)
    requires |files| > 0 && !IsPdfFile(fs, files[0])
    requires exists i :: 0 <= i < |files[1..]| && files[1..][i] == v
                         && forall k :: 0 <= k < i ==> !IsPdfFile(fs, files[1..][k])
    ensures exists i :: 0 <= i < |files| && files[i] == v
                        && forall k :: 0 <= k < i ==> !IsPdfFile(fs, files[k])
  {
    var i :| 0 <= i < |files[1..]| && files[1..][i] == v
             && forall k :: 0 <= k < i ==> !IsPdfFile(fs, files[1..][k]);
    assert files[i + 1] == v;
    forall k | 0 <= k < i + 1 ensures !IsPdfFile(fs, files[k]) {
      if k > 0 { assert files[k] == files[1..][k - 1]; }
    }
  }

  /** The patterns tried in order; the first pattern with a PDF hit decides, and within it the
      first PDF file the glob yields. */
  function GlobSearch(fs: FileSystem, root: string, patterns: seq<string>): (r: Option<string>)
    ensures r.Some? ==> IsPdfFile(fs, r.value)
    ensures r.Some? ==> exists i :: 0 <= i < |patterns| && r.value in fs.glob(root, patterns[i])
    ensures r.Some? ==> exists i :: FirstHitAt(fs, root, patterns, i, r)
    ensures r.None? ==> forall i, f :: 0 <= i < |patterns| && f in fs.glob(root, patterns[i]) ==> !IsPdfFile(fs, f)
  {
    if |patterns| == 0 then None
    else match FirstPdfFile(fs, fs.glob(root, patterns[0]))
      case Some(f) =>
        assert FirstHitAt(fs, root, patterns, 0, Some(f));
        Some(f)
      case None =>
        var rest := GlobSearch(fs, root, patterns[1..]);
        assert forall i :: 1 <= i < |patterns| ==> patterns[i] == patterns[1..][i - 1];
        if rest.Some? then
          FirstPatternShift(fs, root, patterns, rest);
          rest
        else rest
  }

  /** Pattern `i` is the first whose glob yields a PDF, and `r` is that PDF. */
  predicate FirstHitAt(fs: FileSystem, root: string, patterns: seq<string>, i: int, r: Option<string>) {
    && 0 <= i < |patterns| && FirstPdfFile(fs, fs.glob(root, patterns[i])) == r
    && forall k :: 0 <= k < i ==> FirstPdfFile(fs, fs.glob(root, patterns[k])).None?
  }

  /** A first hitting pattern of the tail, behind a head pattern without a hit, is the first
      hitting pattern of the whole list. */
  lemma FirstPatternShift(fs: FileSystem, root: string, patterns: seq<string>, r: Option<string>)
    requires |patterns| > 0 && FirstPdfFile(fs, fs.glob(root, patterns[0])).None?
    requires exists i :: FirstHitAt(fs, root, patterns[1..], i, r)
    ensures exists i :: FirstHitAt(fs, root, patterns, i, r)
  {
    var i :| FirstHitAt(fs, root, patterns[1..], i, r);
    PatternHitShift(fs, root, patterns, i, r);
  }

  /** Shifting one first-hit witness past a head pattern without a hit. */
  lemma PatternHitShift(fs: FileSystem, root: string, patterns: seq<string>, i: int, r: Option<string>)
    requires |patterns| > 0 && FirstPdfFile(fs, fs.glob(root, patterns[0])).None?
    requires FirstHitAt(fs, root, patterns[1..], i, r)
    ensures FirstHitAt(fs, root, patterns, i + 1, r)
  {
    assert patterns[i + 1] == patterns[1..][i];
    forall k | 0 <= k < i + 1 ensures FirstPdfFile(fs, fs.glob(root, patterns[k])).None? {
      if k > 0 { assert patterns[k] == patterns[1..][k - 1]; }
    }
  }

  /** `_resolve_doc_pdf_path` (the pattern list it also returns is `SearchPatterns`). */
  function ResolvePdfPath(fs: FileSystem, repoPath: string, statePdf: string): (r: string)
    ensures repoPath == "" || !fs.exists_(repoPath) || !fs.isDir(repoPath) ==> r == statePdf
    ensures (repoPath != "" && fs.exists_(repoPath) && fs.isDir(repoPath) && statePdf != ""
             && IsAbsolute(statePdf) && fs.exists_(statePdf) && fs.isFile(statePdf)) ==> r == statePdf
    ensures repoPath != "" && fs.exists_(repoPath) && fs.isDir(repoPath) ==>
              || fs.isFile(r)
              || (r == JoinPath(repoPath, statePdf) && statePdf != "")
              || (r == JoinPath(JoinPath(repoPath, "reports"), "final_report.pdf") && statePdf == "")
    ensures (&& UsableRoot(fs, repoPath) && !AbsoluteHit(fs, statePdf) && !RelativeHit(fs, repoPath, statePdf)
             && GlobSearch(fs, repoPath, SearchPatterns).None?) ==> r == FallbackPdfPath(repoPath, statePdf)
  {
    if repoPath == "" then statePdf
    else if !fs.exists_(repoPath) || !fs.isDir(repoPath) then statePdf
    else if statePdf != "" && IsAbsolute(statePdf) && fs.exists_(statePdf) && fs.isFile(statePdf) then statePdf
    else if statePdf != "" && HasPdfSuffix(JoinPath(repoPath, statePdf))
            && fs.exists_(JoinPath(repoPath, statePdf)) && fs.isFile(JoinPath(repoPath, statePdf)) then
      JoinPath(repoPath, statePdf)
    else match GlobSearch(fs, repoPath, SearchPatterns)
      case Some(f) => f
      case None => FallbackPdfPath(repoPath, statePdf)
  }

  /** With no candidate and no glob hit: the requested path under the root, or the default report. */
  function FallbackPdfPath(repoPath: string, statePdf: string): string {
    if statePdf != "" then JoinPath(repoPath, statePdf)
    else JoinPath(JoinPath(repoPath, "reports"), "final_report.pdf")
  }

  /** The repo root is usable: non-empty, existing, a directory. */
  predicate UsableRoot(fs: FileSystem, repoPath: string) {
    repoPath != "" && fs.exists_(repoPath) && fs.isDir(repoPath)
  }

  /** The requested path is an absolute, existing file. */
  predicate AbsoluteHit(fs: FileSystem, statePdf: string) {
    statePdf != "" && IsAbsolute(statePdf) && fs.exists_(statePdf) && fs.isFile(statePdf)
  }

  /** The requested path, taken relative to the root, is an existing PDF file. */
  predicate RelativeHit(fs: FileSystem, repoPath: string, statePdf: string) {
    var c := JoinPath(repoPath, statePdf);
    statePdf != "" && HasPdfSuffix(c) && fs.exists_(c) && fs.isFile(c)
  }

  /** The candidates in priority order: a relative hit beats every glob, with neither
      candidate the first PDF of the first pattern that has one is taken, and with no glob hit
      either the fallback path is returned. */
  lemma ResolvePriority(fs: FileSystem, repoPath: string, statePdf: string)
    requires UsableRoot(fs, repoPath) && !AbsoluteHit(fs, statePdf)
    ensures RelativeHit(fs, repoPath, statePdf) ==> ResolvePdfPath(fs, repoPath, statePdf) == JoinPath(repoPath, statePdf)
    ensures !RelativeHit(fs, repoPath, statePdf) && GlobSearch(fs, repoPath, SearchPatterns).Some? ==>
              ResolvePdfPath(fs, repoPath, statePdf) == GlobSearch(fs, repoPath, SearchPatterns).value
              && IsPdfFile(fs, ResolvePdfPath(fs, repoPath, statePdf))
    ensures !RelativeHit(fs, repoPath, statePdf) && GlobSearch(fs, repoPath, SearchPatterns).None? ==>
              ResolvePdfPath(fs, repoPath, statePdf) == FallbackPdfPath(repoPath, statePdf)
  {
  }

  /** Once the root is usable, a PDF file reachable through any search pattern guarantees that
      the resolved path is an existing file, and a PDF file unless the absolute request won. */
  lemma ResolveFindsReachablePdf(fs: FileSystem, repoPath: string, statePdf: string, i: nat, f: string)
    requires UsableRoot(fs, repoPath)
    requires i < |SearchPatterns| && f in fs.glob(repoPath, SearchPatterns[i]) && IsPdfFile(fs, f)
    ensures fs.isFile(ResolvePdfPath(fs, repoPath, statePdf))
    ensures !AbsoluteHit(fs, statePdf) ==> IsPdfFile(fs, ResolvePdfPath(fs, repoPath, statePdf))
  {
  }

  /** The fallback names the default report file when no path was requested. */
  lemma FallbackNamesDefaultReport(repoPath: string)
    ensures BaseName(FallbackPdfPath(repoPath, "")) == "final_report.pdf"
    ensures HasPdfSuffix(FallbackPdfPath(repoPath, ""))
  {
    JoinPathBaseName(JoinPath(repoPath, "reports"), "final_report.pdf");
    assert Lower(".pdf") == ".pdf";
  }

  /** Joining a plain file name onto any root makes that name the final component. */
  lemma JoinPathBaseName(root: string, name: string)
    requires |name| > 0 && forall i :: 0 <= i < |name| ==> name[i] != '/'
    ensures !IsAbsolute(name)
    ensures BaseName(JoinPath(root, name)) == name
  {
    assert JoinPath(root, name) == (root + "/") + name;
    BaseNameOfRelative(root + "/", name);
  }

  /** Inside a directory, the suffix test looks only at the file name: it needs more than four
      characters and a last four of `.pdf` in any letter case. */
  lemma PdfSuffixOfName(dir: string, name: string)
    requires |dir| > 0 && dir[|dir| - 1] == '/'
    requires forall i :: 0 <= i < |name| ==> name[i] != '/'
    ensures HasPdfSuffix(dir + name) <==> |name| > 4 && Lower(name[|name| - 4..]) == ".pdf"
  {
    BaseNameOfRelative(dir, name);
  }

  /** Appending a slash-free name to a path ending in a slash makes that name the base name. */
  lemma {:induction false} BaseNameOfRelative(dir: string, name: string)
    requires |dir| > 0 && dir[|dir| - 1] == '/'
    requires forall i :: 0 <= i < |name| ==> name[i] != '/'
    ensures BaseName(dir + name) == name
    decreases |name|
  {
    if |name| == 0 {
      assert dir + name == dir;
    } else {
      var p := dir + name;
      assert p[..|p| - 1] == dir + name[..|name| - 1];
      BaseNameOfRelative(dir, name[..|name| - 1]);
      assert name == name[..|name| - 1] + [name[|name| - 1]];
    }
  }

  // ---------------------------------------------------------------------------
  // The vision request

  const MaxImages: nat := 8

  datatype Part = TextPart | ImagePart(path: string)

  /** `_build_image_message`: the prompt, then each of the first eight paths that is an
      existing file (the encoded bytes and MIME type are not modelled). */
  function ImageMessageParts(fs: FileSystem, imagePaths: seq<string>): (parts: seq<Part>)
    ensures 1 <= |parts| <= 1 + MaxImages
    ensures parts[0] == TextPart
    ensures forall k :: 1 <= k < |parts| ==>
              && parts[k].ImagePart?
              && parts[k].path in Take(imagePaths, MaxImages)
              && fs.exists_(parts[k].path) && fs.isFile(parts[k].path)
  {
    [TextPart] + ImageParts(fs, Take(imagePaths, MaxImages))
  }

  function ImageParts(fs: FileSystem, paths: seq<string>): (parts: seq<Part>)
    ensures |parts| <= |paths|
    ensures forall k :: 0 <= k < |parts| ==>
              && parts[k].ImagePart? && parts[k].path in paths
              && fs.exists_(parts[k].path) && fs.isFile(parts[k].path)
  {
    if |paths| == 0 then []
    else
      var rest := ImageParts(fs, paths[1..]);
      assert forall f :: f in paths[1..] ==> f in paths;
      if fs.exists_(paths[0]) && fs.isFile(paths[0]) then [ImagePart(paths[0])] + rest else rest
  }

  /** Every readable image among the first eight is attached. */
  lemma {:induction false} ReadableImagesAttached(fs: FileSystem, paths: seq<string>, p: string)
    requires p in paths && fs.exists_(p) && fs.isFile(p)
    ensures ImagePart(p) in ImageParts(fs, paths)
    decreases |paths|
  {
    if paths[0] != p {
      assert p in paths[1..];
      ReadableImagesAttached(fs, paths[1..], p);
    }
  }

  // ---------------------------------------------------------------------------
  // The detective nodes

  const DocKey := "doc_analysis"
  const RepoKey := "repo_analysis"
  const VisionKey := "vision_analysis"

  const DocGoal := "Extract architectural requirements from PDF"
  const RepoGoal := "Analyze repository graph architecture with AST"
  const VisionGoal := "Inspect architectural diagrams for StateGraph fidelity"

  /** The rationale each evidence item carries. */
  const DocRationale := "DocAnalyst successfully parsed the PDF and extracted rubric-oriented sections for downstream judicial reasoning."
  const DocMissingRationale := "PDF path was invalid or missing during DocAnalyst ingestion."
  const DocFailedRationale := "Unexpected failure while parsing project requirements PDF."
  const RepoRationale := "RepoManager cloned repository in an isolated temporary directory and performed AST-based structural analysis for LangGraph components."
  const RepoFailedRationale := "Repository investigation failed before successful AST analysis."
  const VisionMissingRationale := "Vision inspection failed because the PDF was not accessible."
  const VisionRationale := "Images were extracted from the PDF and queued for multimodal classification using Llama-3.2-Vision on Groq for forensic signals."
  const NoImagesFindings := "No images were found in the PDF, so Llama Vision analysis could not confirm Fan-In/Aggregator diagram patterns."
  const VisionFailedRationale := "Unexpected failure while extracting or preparing diagram evidence."

  /** `x or "unknown"` for a string. */
  function OrUnknown(s: string): (r: string)
    ensures r != ""
    ensures s != "" ==> r == s
    ensures s == "" ==> r == "unknown"
  {
    if s != "" then s else "unknown"
  }

  /** The evidence every failure branch files: not found, confidence 0. */
  function FailureEvidence(goal: string, error: string, location: string, rationale: string): (e: Evidence)
    ensures ValidEvidence(e) && !e.found && e.confidence == 0.0
    ensures e.goal == goal && e.location == location && e.content == TextContent(error)
  {
    Evidence(goal, false, TextContent(error), location, rationale, 0.0)
  }

  /** A node update that files one evidence item under `key` and logs one message. */
  function EvidenceUpdate(key: string, e: Evidence, m: Message): (u: Update)
    ensures u.repoPath.None? && u.pdfPath.None? && u.rubricDimensions.None?
    ensures u.opinions == [] && u.messages == [m]
    ensures u.evidences == [(key, [e])]
  {
    Update(None, None, None, [(key, [e])], [], [m])
  }

  /** What loading and refining the requirements document did. */
  datatype DocOutcome =
    | DocLoaded(objectives: string, deliverables: string, constraints: string, markdownLength: nat,
                refined: string, payloadText: string)
    | DocFileNotFound(error: string)
    | DocFailed(error: string)

  /** `doc_analyst_node`. */
  function DocAnalystNode(s: AgentState, fs: FileSystem, outcome: DocOutcome): (u: Update)
    ensures u.repoPath.None? && u.pdfPath.None? && u.opinions == [] && |u.messages| == 1
    ensures |u.evidences| == 1 && u.evidences[0].0 == DocKey && |u.evidences[0].1| == 1
    ensures ValidEvidence(u.evidences[0].1[0]) && u.evidences[0].1[0].goal == DocGoal
    ensures u.evidences[0].1[0].found <==> outcome.DocLoaded?
    ensures !outcome.DocLoaded? ==> u.evidences[0].1[0].confidence == 0.0 && u.rubricDimensions.None?
    ensures outcome.DocLoaded? ==>
              && u.rubricDimensions.Some? && |u.rubricDimensions.value| == 1
              && u.rubricDimensions.value[0].sourcePdf == ResolvePdfPath(fs, s.repoPath, s.pdfPath)
              && u.rubricDimensions.value[0].searchPatterns == SearchPatterns
  {
    var resolved := ResolvePdfPath(fs, s.repoPath, s.pdfPath);
    match outcome
    case DocLoaded(objectives, deliverables, constraints, markdownLength, refined, payloadText) =>
      var payload := RequirementsPayload(resolved, SearchPatterns, objectives, deliverables, constraints,
                                         markdownLength, refined);
      var e := Evidence(DocGoal, true, TextContent(payloadText), resolved,
                        DocRationale, 0.9);
      Update(None, None, Some([payload]), [(DocKey, [e])], [], [DetectiveCompleted("doc_analyst_node", resolved)])
    case DocFileNotFound(error) =>
      var e := FailureEvidence(DocGoal, error, OrUnknown(resolved), DocMissingRationale);
      EvidenceUpdate(DocKey, e, DetectiveFailed("doc_analyst_node", error))
    case DocFailed(error) =>
      var e := FailureEvidence(DocGoal, error, OrUnknown(resolved), DocFailedRationale);
      EvidenceUpdate(DocKey, e, DetectiveFailed("doc_analyst_node", error))
  }

  /** What cloning and analysing the repository did; `fsAfter` is the filesystem once cloned. */
  datatype RepoOutcome =
    | RepoAnalysed(repoPath: string, stategraphDetected: bool, analysisText: string, fsAfter: FileSystem)
    | RepoFailed(error: string)

  /** `repo_investigator_node`: the only node that writes `repo_path` and `pdf_path`. */
  function RepoInvestigatorNode(s: AgentState, outcome: RepoOutcome): (u: Update)
    ensures u.rubricDimensions.None? && u.opinions == [] && |u.messages| == 1
    ensures |u.evidences| == 1 && u.evidences[0].0 == RepoKey && |u.evidences[0].1| == 1
    ensures ValidEvidence(u.evidences[0].1[0]) && u.evidences[0].1[0].goal == RepoGoal
    ensures u.repoPath.Some? <==> outcome.RepoAnalysed?
    ensures u.pdfPath.Some? <==> outcome.RepoAnalysed?
    ensures outcome.RepoAnalysed? ==>
              && u.repoPath == Some(outcome.repoPath)
              && u.pdfPath == Some(ResolvePdfPath(outcome.fsAfter, outcome.repoPath, s.pdfPath))
              && u.evidences[0].1[0].found == outcome.stategraphDetected
              && u.evidences[0].1[0].location == outcome.repoPath
    ensures outcome.RepoFailed? ==>
              && !u.evidences[0].1[0].found && u.evidences[0].1[0].confidence == 0.0
              && u.evidences[0].1[0].location == OrUnknown(s.repoUrl)
  {
    match outcome
    case RepoAnalysed(repoPath, detected, analysisText, fsAfter) =>
      var resolved := ResolvePdfPath(fsAfter, repoPath, s.pdfPath);
      var e := Evidence(RepoGoal, detected, TextContent(analysisText), repoPath,
                        RepoRationale, 0.85);
      Update(Some(repoPath), Some(resolved), None, [(RepoKey, [e])], [],
             [DetectiveCompleted("repo_investigator_node", resolved)])
    case RepoFailed(error) =>
      var e := FailureEvidence(RepoGoal, error, OrUnknown(s.repoUrl), RepoFailedRationale);
      EvidenceUpdate(RepoKey, e, DetectiveFailed("repo_investigator_node", error))
  }

  /** What extracting and inspecting the diagrams did; `findings` is the vision model's reply,
      which is only asked for when some image was extracted. */
  datatype VisionOutcome =
    | VisionInspected(imageCount: nat, findings: string)
    | VisionFileNotFound(error: string)
    | VisionFailed(error: string)

  /** `vision_inspector_node`. */
  function VisionInspectorNode(s: AgentState, fs: FileSystem, outcome: VisionOutcome): (u: Update)
    ensures u.repoPath.None? && u.pdfPath.None? && u.rubricDimensions.None?
    ensures u.opinions == [] && |u.messages| == 1
    ensures |u.evidences| == 1 && u.evidences[0].0 == VisionKey && |u.evidences[0].1| == 1
    ensures ValidEvidence(u.evidences[0].1[0]) && u.evidences[0].1[0].goal == VisionGoal
    ensures outcome.VisionInspected? ==>
              && (u.evidences[0].1[0].found <==> outcome.imageCount > 0)
              && u.evidences[0].1[0].confidence == (if outcome.imageCount > 0 then 0.7 else 0.4)
              && u.evidences[0].1[0].location == ResolvePdfPath(fs, s.repoPath, s.pdfPath)
    ensures outcome.VisionInspected? && outcome.imageCount > 0 ==>
              u.evidences[0].1[0].content == TextContent(outcome.findings)
    ensures outcome.VisionInspected? && outcome.imageCount == 0 ==>
              u.evidences[0].1[0].content == TextContent(NoImagesFindings)
    ensures !outcome.VisionInspected? ==>
              && !u.evidences[0].1[0].found && u.evidences[0].1[0].confidence == 0.0
              && u.evidences[0].1[0].location == OrUnknown(s.pdfPath)
  {
    var resolved := ResolvePdfPath(fs, s.repoPath, s.pdfPath);
    match outcome
    case VisionInspected(count, findings) =>
      var confidence := if count > 0 then 0.7 else 0.4;
      var text := if count > 0 then findings else NoImagesFindings;
      var e := Evidence(VisionGoal, count > 0, TextContent(text), resolved, VisionRationale, confidence);
      EvidenceUpdate(VisionKey, e, DetectiveCompleted("vision_inspector_node", resolved))
    case VisionFileNotFound(error) =>
      var e := FailureEvidence(VisionGoal, error, OrUnknown(s.pdfPath), VisionMissingRationale);
      EvidenceUpdate(VisionKey, e, DetectiveFailed("vision_inspector_node", error))
    case VisionFailed(error) =>
      var e := FailureEvidence(VisionGoal, error, OrUnknown(s.pdfPath), VisionFailedRationale);
      EvidenceUpdate(VisionKey, e, DetectiveFailed("vision_inspector_node", error))
  }


  /** The three nodes file under pairwise distinct keys, so their merges never collide. */
  lemma DetectiveKeysDistinct()
    ensures DocKey != RepoKey && DocKey != VisionKey && RepoKey != VisionKey
  {
    assert DocKey[0] == 'd' && RepoKey[0] == 'r' && VisionKey[0] == 'v';
  }
}

=== FILE: doc_tools.dfy ===
/**
 The pure text logic of the requirements-document tool: snippet cleaning and
 truncation, keyword tokenising and counting, the keyword-scored choice of a
 rubric section with its sentence and window fallbacks, and the guards of the
 section extractor. Document conversion is left out; where the source runs a
 heading regex, the positions it would report are supplied by a `Headings`
 oracle.
 */
module DocTools {
  import opened Common
  import opened Strings

  // ---------------------------------------------------------------------------
  // Snippet cleaning: `_truncate_snippet`

  /** No two whitespace characters are adjacent. */
  predicate NoRuns(s: string) {
    forall i :: 0 <= i < |s| - 1 ==> !(IsSpace(s[i]) && IsSpace(s[i + 1]))
  }

  /** The only whitespace character left is the plain space. */
  predicate PlainSpaces(s: string) {
    forall i :: 0 <= i < |s| ==> IsSpace(s[i]) ==> s[i] == ' '
  }

  /** No leading or trailing whitespace. */
  predicate Trimmed(s: string) {
    |s| > 0 ==> !IsSpace(s[0]) && !IsSpace(s[|s| - 1])
  }

  /** The visible (non-whitespace) characters of `s`, in order. */
  function Visible(s: string): string
    decreases |s|
  {
    if |s| == 0 then [] else (if IsSpace(s[0]) then [] else [s[0]]) + Visible(s[1..])
  }

  lemma {:induction false} VisibleAppend(a: string, b: string)
    ensures Visible(a + b) == Visible(a) + Visible(b)
    decreases |a|
  {
    if |a| > 0 {
      assert (a + b)[0] == a[0];
      assert (a + b)[1..] == a[1..] + b;
      VisibleAppend(a[1..], b);
    } else {
      assert a + b == b;
    }
  }

  lemma {:induction false} VisibleOfBlank(s: string)
    requires IsBlank(s)
    ensures Visible(s) == []
    decreases |s|
  {
    if |s| > 0 {
      assert IsBlank(s[1..]);
      VisibleOfBlank(s[1..]);
    }
  }

  /** `re.sub(r"\s+", " ", s)`: every maximal whitespace run becomes one space. */
  function CollapseSpace(s: string): (r: string)
    ensures |r| <= |s|
    ensures |r| > 0 <==> |s| > 0
    ensures |r| > 0 ==> (IsSpace(r[0]) <==> IsSpace(s[0]))
    ensures NoRuns(r) && PlainSpaces(r)
    decreases |s|
  {
    if |s| == 0 then []
    else if IsSpace(s[0]) then
      var k := FirstNonSpace(s);
      var rest := CollapseSpace(s[k..]);
      assert |rest| > 0 ==> !IsSpace(rest[0]);
      [' '] + rest
    else
      var rest := CollapseSpace(s[1..]);
      [s[0]] + rest
  }

  /** Collapsing keeps every visible character, in order. */
  lemma {:induction false} CollapseKeepsVisible(s: string)
    ensures Visible(CollapseSpace(s)) == Visible(s)
    decreases |s|
  {
    if |s| > 0 {
      if IsSpace(s[0]) {
        var k := FirstNonSpace(s);
        CollapseKeepsVisible(s[k..]);
        assert IsBlank(s[..k]);
        VisibleOfBlank(s[..k]);
        assert s == s[..k] + s[k..];
        VisibleAppend(s[..k], s[k..]);
        VisibleAppend([' '], CollapseSpace(s[k..]));
      } else {
        CollapseKeepsVisible(s[1..]);
        VisibleAppend([s[0]], CollapseSpace(s[1..]));
      }
    }
  }

  /** `CollapseSpace` works run by run: it distributes over a concatenation that does not
      split a whitespace run (so "a b" stays "a b"), and, by `CollapseRun` and
      `CollapseVisible`, turns a whole run into one space and keeps a visible character.
      Together these fix its value on every text. */
  lemma {:induction false} CollapseSpaceByRuns(a: string, b: string)
    requires !(|a| > 0 && |b| > 0 && IsSpace(a[|a| - 1]) && IsSpace(b[0]))
    ensures CollapseSpace(a + b) == CollapseSpace(a) + CollapseSpace(b)
    decreases |a|
  {
    if |a| == 0 {
      assert a + b == b;
    } else if !IsSpace(a[0]) {
      CollapseSpaceByRuns(a[1..], b);
      CollapseVisibleStep(a, b);
    } else if FirstNonSpace(a) == |a| {
      CollapseBlankStep(a, b);
    } else {
      CollapseSpaceByRuns(a[FirstNonSpace(a)..], b);
      CollapseRunStep(a, b);
    }
  }

  /** The step of `CollapseSpaceByRuns` past a leading visible character. */
  lemma CollapseVisibleStep(a: string, b: string)
    requires |a| > 0 && !IsSpace(a[0])
    requires CollapseSpace(a[1..] + b) == CollapseSpace(a[1..]) + CollapseSpace(b)
    ensures CollapseSpace(a + b) == CollapseSpace(a) + CollapseSpace(b)
  {
    assert CollapseSpace(a + b) == [a[0]] + CollapseSpace(a[1..] + b) by {
      assert (a + b)[0] == a[0] && (a + b)[1..] == a[1..] + b;
      CollapseVisibleUnfold(a + b);
    }
    CollapseVisibleUnfold(a);
    ConcatAssoc([a[0]], CollapseSpace(a[1..]), CollapseSpace(b));
  }

  /** The step of `CollapseSpaceByRuns` when `a` is one whole whitespace run. */
  lemma CollapseBlankStep(a: string, b: string)
    requires |a| > 0 && IsSpace(a[0]) && FirstNonSpace(a) == |a|
    requires |b| > 0 ==> !IsSpace(b[0])
    ensures CollapseSpace(a + b) == CollapseSpace(a) + CollapseSpace(b)
  {
    CollapseBlankPrefix(a, b);
    CollapseRun(a);
  }

  /** A whitespace run that fills `a` collapses to one space in front of `b`. */
  lemma CollapseBlankPrefix(a: string, b: string)
    requires |a| > 0 && IsSpace(a[0]) && FirstNonSpace(a) == |a|
    requires |b| > 0 ==> !IsSpace(b[0])
    ensures CollapseSpace(a + b) == [' '] + CollapseSpace(b)
  {
    assert (a + b)[0] == a[0];
    FirstNonSpaceOfBlankPrefix(a, b);
    assert (a + b)[|a|..] == b;
    CollapseRunUnfold(a + b);
  }

  /** The step of `CollapseSpaceByRuns` past a leading whitespace run that ends inside `a`. */
  lemma CollapseRunStep(a: string, b: string)
    requires |a| > 0 && IsSpace(a[0]) && FirstNonSpace(a) < |a|
    requires CollapseSpace(a[FirstNonSpace(a)..] + b) == CollapseSpace(a[FirstNonSpace(a)..]) + CollapseSpace(b)
    ensures CollapseSpace(a + b) == CollapseSpace(a) + CollapseSpace(b)
  {
    var t := a[FirstNonSpace(a)..];
    CollapseRunPrefix(a, b);
    CollapseRunUnfold(a);
    ConcatAssoc([' '], CollapseSpace(t), CollapseSpace(b));
  }

  /** A leading whitespace run that ends inside `a` collapses the same way in `a + b`. */
  lemma CollapseRunPrefix(a: string, b: string)
    requires |a| > 0 && IsSpace(a[0]) && FirstNonSpace(a) < |a|
    ensures CollapseSpace(a + b) == [' '] + CollapseSpace(a[FirstNonSpace(a)..] + b)
  {
    assert (a + b)[0] == a[0];
    FirstNonSpaceOfPrefix(a, b);
    assert (a + b)[FirstNonSpace(a)..] == a[FirstNonSpace(a)..] + b;
    CollapseRunUnfold(a + b);
  }

  lemma CollapseVisibleUnfold(s: string)
    requires |s| > 0 && !IsSpace(s[0])
    ensures CollapseSpace(s) == [s[0]] + CollapseSpace(s[1..])
  {
  }

  lemma CollapseRunUnfold(s: string)
    requires |s| > 0 && IsSpace(s[0])
    ensures CollapseSpace(s) == [' '] + CollapseSpace(s[FirstNonSpace(s)..])
  {
  }

  /** A whole whitespace run collapses to one space. */
  lemma CollapseRun(a: string)
    requires |a| > 0 && IsBlank(a)
    ensures CollapseSpace(a) == " "
  {
    assert FirstNonSpace(a) == |a|;
    assert a[|a|..] == [];
  }

  /** A visible character is kept. */
  lemma CollapseVisible(c: char)
    requires !IsSpace(c)
    ensures CollapseSpace([c]) == [c]
  {
    assert [c][1..] == [];
  }

  lemma FirstNonSpaceOfPrefix(a: string, b: string)
    requires FirstNonSpace(a) < |a|
    ensures FirstNonSpace(a + b) == FirstNonSpace(a)
  {
    assert (a + b)[FirstNonSpace(a)] == a[FirstNonSpace(a)];
  }

  lemma FirstNonSpaceOfBlankPrefix(a: string, b: string)
    requires FirstNonSpace(a) == |a|
    requires |b| > 0 ==> !IsSpace(b[0])
    ensures FirstNonSpace(a + b) == |a|
  {
    if |b| > 0 {
      assert (a + b)[|a|] == b[0];
    }
  }

  /** Stripping removes whitespace only. */
  lemma StripKeepsVisible(s: string)
    ensures Visible(Strip(s)) == Visible(s)
  {
    var k, r := FirstNonSpace(s), Strip(s);
    StripSurroundings(s);
    VisibleOfBlank(s[..k]);
    VisibleOfBlank(s[k + |r|..]);
    assert s == s[..k] + r + s[k + |r|..];
    VisibleAppend(s[..k], r);
    VisibleAppend(s[..k] + r, s[k + |r|..]);
  }

  /** A slice of a run-free, plain-spaced text is run-free and plain-spaced. */
  lemma SliceKeepsShape(s: string, a: nat, b: nat)
    requires a <= b <= |s| && NoRuns(s) && PlainSpaces(s)
    ensures NoRuns(s[a..b]) && PlainSpaces(s[a..b])
  {
    forall i | 0 <= i < b - a - 1 ensures !(IsSpace(s[a..b][i]) && IsSpace(s[a..b][i + 1])) {
      assert s[a..b][i] == s[a + i] && s[a..b][i + 1] == s[a + i + 1];
    }
    forall i | 0 <= i < b - a ensures IsSpace(s[a..b][i]) ==> s[a..b][i] == ' ' {
      assert s[a..b][i] == s[a + i];
    }
  }

  /** The cleaned text of `_truncate_snippet`: runs collapsed, then stripped. */
  function CleanText(text: string): (clean: string)
    ensures NoRuns(clean) && PlainSpaces(clean) && Trimmed(clean)
    ensures |clean| <= |text|
  {
    var c := CollapseSpace(text);
    SliceKeepsShape(c, FirstNonSpace(c), FirstNonSpace(c) + |Strip(c)|);
    Strip(c)
  }

  /** Cleaning keeps exactly the visible characters of the text. */
  lemma CleanKeepsVisible(text: string)
    ensures Visible(CleanText(text)) == Visible(text)
  {
    StripKeepsVisible(CollapseSpace(text));
    CollapseKeepsVisible(text);
  }

  const Ellipsis := "..."

  /** A trimmed, run-free head followed by the ellipsis is still trimmed and run-free. */
  lemma EllipsisKeepsShape(head: string)
    requires NoRuns(head) && Trimmed(head)
    ensures NoRuns(head + Ellipsis) && Trimmed(head + Ellipsis)
  {
    var r := head + Ellipsis;
    forall i | 0 <= i < |r| - 1 ensures !(IsSpace(r[i]) && IsSpace(r[i + 1])) {
      if i < |head| - 1 { assert r[i] == head[i] && r[i + 1] == head[i + 1]; }
      else { assert r[i + 1] == '.'; }
    }
    if |head| > 0 { assert r[0] == head[0]; } else { assert r[0] == '.'; }
    assert r[|r| - 1] == '.';
  }

  /** The right-stripped prefix of a cleaned text is itself trimmed and run-free. */
  lemma CleanPrefixShape(clean: string, n: nat)
    requires NoRuns(clean) && PlainSpaces(clean) && Trimmed(clean) && n <= |clean|
    ensures var head := RStrip(clean[..n]);
            && head == clean[..|head|] && NoRuns(head) && Trimmed(head)
  {
    var head := RStrip(clean[..n]);
    assert head == clean[..|head|];
    SliceKeepsShape(clean, 0, |head|);
    if |head| > 0 { assert head[0] == clean[0]; }
  }

  /** In a run-free text, right-stripping a prefix drops at most one character. */
  lemma RStripDropsAtMostOne(clean: string, n: nat)
    requires NoRuns(clean) && n <= |clean|
    ensures n <= |RStrip(clean[..n])| + 1
    ensures n > 0 ==> (|RStrip(clean[..n])| == n <==> !IsSpace(clean[n - 1]))
  {
    if n >= 2 {
      assert !(IsSpace(clean[n - 2]) && IsSpace(clean[n - 1]));
      assert clean[..n][n - 2] == clean[n - 2] && clean[..n][n - 1] == clean[n - 1];
    }
    if n > 0 {
      assert clean[..n][n - 1] == clean[n - 1];
    }
  }

  /** `_truncate_snippet(text, max_chars)`. */
  function TruncateSnippet(text: string, maxChars: nat): (r: string)
    ensures NoRuns(r) && Trimmed(r)
    ensures |r| <= maxChars + |Ellipsis|
    ensures |CleanText(text)| <= maxChars ==> r == CleanText(text)
    ensures |CleanText(text)| > maxChars ==>
              && EndsWith(r, Ellipsis)
              && r[..|r| - |Ellipsis|] <= CleanText(text)
              && maxChars <= |r| - |Ellipsis| + 1
              && |r| - |Ellipsis| <= maxChars
    ensures |CleanText(text)| > maxChars > 0 ==>
              (|r| - |Ellipsis| == maxChars <==> !IsSpace(CleanText(text)[maxChars - 1]))
  {
    var clean := CleanText(text);
    if |clean| <= maxChars then clean
    else
      var head := RStrip(clean[..maxChars]);
      RStripDropsAtMostOne(clean, maxChars);
      CleanPrefixShape(clean, maxChars);
      EllipsisKeepsShape(head);
      assert (head + Ellipsis)[..|head|] == head;
      head + Ellipsis
  }

  const SnippetLimit: nat := 700
  const SectionLimit: nat := 2000

  /** The snippet keeps the whole visible text, or a prefix of it followed by the ellipsis. */
  lemma SnippetKeepsVisible(text: string, maxChars: nat)
    ensures var r := TruncateSnippet(text, maxChars);
            || Visible(r) == Visible(text)
            || (EndsWith(r, Ellipsis) && Visible(r[..|r| - 3]) <= Visible(text))
  {
    var clean := CleanText(text);
    CleanKeepsVisible(text);
    var r := TruncateSnippet(text, maxChars);
    if |clean| > maxChars {
      VisibleOfPrefix(r[..|r| - 3], clean);
    }
  }

  lemma VisibleOfPrefix(head: string, s: string)
    requires head <= s
    ensures Visible(head) <= Visible(s)
  {
    assert s == head + s[|head|..];
    VisibleAppend(head, s[|head|..]);
  }

  /** A text already in snippet shape and within the limit comes back unchanged. */
  lemma SnippetOfCleanText(text: string, maxChars: nat)
    requires NoRuns(text) && PlainSpaces(text) && Trimmed(text) && |text| <= maxChars
    ensures TruncateSnippet(text, maxChars) == text
  {
    CollapseOfShaped(text);
    var c := CollapseSpace(text);
    if |c| > 0 {
      assert FirstNonSpace(c) == 0;
      assert EndNonSpace(c) == |c|;
      assert c[0..][..|c|] == c;
    }
  }

  /** Collapsing leaves a run-free, plain-spaced text alone. */
  lemma {:induction false} CollapseOfShaped(s: string)
    requires NoRuns(s) && PlainSpaces(s)
    ensures CollapseSpace(s) == s
    decreases |s|
  {
    if |s| > 0 {
      SliceKeepsShape(s, 1, |s|);
      if IsSpace(s[0]) {
        assert |s| > 1 ==> !IsSpace(s[1]);
        assert FirstNonSpace(s) == 1;
      }
      CollapseOfShaped(s[1..]);
      assert s == [s[0]] + s[1..];
    }
  }

  // ---------------------------------------------------------------------------
  // Keywords and counts

  /** A character of the class `[a-zA-Z0-9_]`. */
  predicate WordChar(c: char) {
    ('a' <= c <= 'z') || ('A' <= c <= 'Z') || ('0' <= c <= '9') || c == '_'
  }

  predicate AllWord(s: string) {
    forall i :: 0 <= i < |s| ==> WordChar(s[i])
  }

  /** Length of the leading run of word characters. */
  function WordRun(s: string): (n: nat)
    ensures n <= |s| && AllWord(s[..n])
    ensures n < |s| ==> !WordChar(s[n])
    decreases |s|
  {
    if |s| > 0 && WordChar(s[0]) then
      var n := 1 + WordRun(s[1..]);
      assert s[..n] == [s[0]] + s[1..][..n - 1];
      n
    else 0
  }

  /** `re.findall(r"[a-zA-Z0-9_]+", s)`: the maximal runs of word characters, left to right. */
  function Tokens(s: string): (ts: seq<string>)
    ensures forall i :: 0 <= i < |ts| ==> |ts[i]| > 0 && AllWord(ts[i])
    decreases |s|
  {
    if |s| == 0 then []
    else if !WordChar(s[0]) then Tokens(s[1..])
    else
      var n := WordRun(s);
      [s[..n]] + Tokens(s[n..])
  }

  /** The word characters of `s`, in order. */
  function WordChars(s: string): string
    decreases |s|
  {
    if |s| == 0 then [] else (if WordChar(s[0]) then [s[0]] else []) + WordChars(s[1..])
  }

  function Concat(ts: seq<string>): string {
    if |ts| == 0 then [] else ts[0] + Concat(ts[1..])
  }

  lemma {:induction false} WordCharsAppend(a: string, b: string)
    ensures WordChars(a + b) == WordChars(a) + WordChars(b)
    decreases |a|
  {
    if |a| > 0 {
      assert (a + b)[0] == a[0];
      assert (a + b)[1..] == a[1..] + b;
      WordCharsAppend(a[1..], b);
    } else {
      assert a + b == b;
    }
  }

  lemma {:induction false} WordCharsOfWord(s: string)
    requires AllWord(s)
    ensures WordChars(s) == s
    decreases |s|
  {
    if |s| > 0 {
      WordCharsOfWord(s[1..]);
      assert s == [s[0]] + s[1..];
    }
  }

  /** The tokens, laid end to end, are exactly the word characters of the text: nothing is
      dropped and nothing else is kept. */
  lemma {:induction false} TokensCoverWordChars(s: string)
    ensures Concat(Tokens(s)) == WordChars(s)
    decreases |s|
  {
    if |s| > 0 {
      if !WordChar(s[0]) {
        TokensCoverWordChars(s[1..]);
      } else {
        var n := WordRun(s);
        TokensCoverWordChars(s[n..]);
        assert s == s[..n] + s[n..];
        WordCharsAppend(s[..n], s[n..]);
        WordCharsOfWord(s[..n]);
      }
    }
  }

  /** The tokens longer than two characters, in order. */
  function LongTokens(ts: seq<string>): (ks: seq<string>)
    ensures forall i :: 0 <= i < |ks| ==> |ks[i]| > 2
    ensures forall t :: t in ks <==> t in ts && |t| > 2
  {
    if |ts| == 0 then []
    else
      var rest := LongTokens(ts[1..]);
      assert forall t :: t in ts <==> t == ts[0] || t in ts[1..];
      if |ts[0]| > 2 then [ts[0]] + rest else rest
  }

  /** The `keywords` of `query_requirements`, taken from the lowered query. */
  function Keywords(normalizedQuery: string): (ks: seq<string>)
    ensures forall i :: 0 <= i < |ks| ==> |ks[i]| > 2 && AllWord(ks[i])
    ensures forall t :: t in ks <==> t in Tokens(normalizedQuery) && |t| > 2
  {
    LongTokens(Tokens(normalizedQuery))
  }

  /** `sum(text.lower().count(k) for k in keywords)`. */
  function KeywordScore(text: string, keywords: seq<string>): nat
    requires forall i :: 0 <= i < |keywords| ==> |keywords[i]| > 0
  {
    if |keywords| == 0 then 0
    else CountOccurrences(Lower(text), keywords[0]) + KeywordScore(text, keywords[1..])
  }

  /** A text scores exactly when some keyword occurs in its lowered form. */
  lemma {:induction false} KeywordScorePositiveIff(text: string, keywords: seq<string>)
    requires forall i :: 0 <= i < |keywords| ==> |keywords[i]| > 0
    ensures KeywordScore(text, keywords) > 0
            <==> exists i :: 0 <= i < |keywords| && Contains(Lower(text), keywords[i])
  {
    if |keywords| > 0 {
      CountPositiveIffContains(Lower(text), keywords[0]);
      KeywordScorePositiveIff(text, keywords[1..]);
      if exists i :: 0 <= i < |keywords| && Contains(Lower(text), keywords[i]) {
        var i :| 0 <= i < |keywords| && Contains(Lower(text), keywords[i]);
        if i > 0 { assert keywords[1..][i - 1] == keywords[i]; }
      }
      if exists i :: 0 <= i < |keywords| - 1 && Contains(Lower(text), keywords[1..][i]) {
        var i :| 0 <= i < |keywords| - 1 && Contains(Lower(text), keywords[1..][i]);
        assert keywords[i + 1] == keywords[1..][i];
      }
    }
  }

  // ---------------------------------------------------------------------------
  // Choosing the best candidate

  /** `i` is what a scan keeping the first strictly better positive score ends with:
      the earliest index of the maximum, which is positive. */
  predicate IsChoice(scores: seq<nat>, i: nat) {
    && i < |scores| && scores[i] > 0
    && (forall j :: 0 <= j < |scores| ==> scores[j] <= scores[i])
    && (forall j :: 0 <= j < i ==> scores[j] < scores[i])
  }

  /** At most one index is the choice. */
  lemma ChoiceUnique(scores: seq<nat>, i: nat, j: nat)
    requires IsChoice(scores, i) && IsChoice(scores, j)
    ensures i == j
  {
  }

  function MaxScore(scores: seq<nat>): (m: nat)
    ensures forall j :: 0 <= j < |scores| ==> scores[j] <= m
    ensures |scores| > 0 ==> exists j :: 0 <= j < |scores| && scores[j] == m
    ensures |scores| == 0 ==> m == 0
  {
    if |scores| == 0 then 0
    else
      var rest := MaxScore(scores[1..]);
      assert forall j :: 1 <= j < |scores| ==> scores[j] == scores[1..][j - 1];
      if scores[0] >= rest then scores[0]
      else
        assert exists j :: 1 <= j < |scores| && scores[j] == rest by {
          var j :| 0 <= j < |scores[1..]| && scores[1..][j] == rest;
          assert scores[j + 1] == rest;
        }
        rest
  }

  /** The first index holding `v`, if any. */
  function FirstIndexOf(scores: seq<nat>, v: nat): (r: Option<nat>)
    ensures r.Some? ==> r.value < |scores| && scores[r.value] == v
    ensures forall j :: 0 <= j < |scores| && (r.None? || j < r.value) ==> scores[j] != v
  {
    if |scores| == 0 then None
    else if scores[0] == v then Some(0)
    else
      match FirstIndexOf(scores[1..], v)
      case None => None
      case Some(i) => Some(i + 1)
  }

  /** Reference definition of the choice: the first index of the maximum, when it is positive. */
  function FirstChoice(scores: seq<nat>): (r: Option<nat>)
    ensures r.Some? <==> exists j :: 0 <= j < |scores| && scores[j] > 0
    ensures r.Some? ==> IsChoice(scores, r.value)
    ensures forall i: nat :: IsChoice(scores, i) ==> r == Some(i)
  {
    var m := MaxScore(scores);
    if m == 0 then None
    else
      var r := FirstIndexOf(scores, m);
      assert r.Some?;
      r
  }

  /** The loop of `query_requirements` over the sections: the best score starts at 0 and is
      replaced only when strictly beaten. It computes the reference choice. */
  method SelectBest(scores: seq<nat>) returns (best: Option<nat>)
    ensures best == FirstChoice(scores)
  {
    best := None;
    var bestScore: nat := 0;
    var i := 0;
    while i < |scores|
      invariant 0 <= i <= |scores|
      invariant best.None? ==> bestScore == 0 && forall j :: 0 <= j < i ==> scores[j] == 0
      invariant best.Some? ==> best.value < i && bestScore == scores[best.value] > 0
      invariant forall j :: 0 <= j < i ==> scores[j] <= bestScore
      invariant best.Some? ==> forall j :: 0 <= j < best.value ==> scores[j] < bestScore
    {
      if scores[i] > bestScore {
        best := Some(i);
        bestScore := scores[i];
      }
      i := i + 1;
    }
    if best.Some? {
      assert IsChoice(scores, best.value);
    }
  }

  // ---------------------------------------------------------------------------
  // Sections and the query

  /** `RubricDimensions`: the three extracted section texts. */
  datatype Sections = Sections(objectives: string, deliverables: string, constraints: string)

  /** The `sections` dict in its iteration order. */
  function SectionList(d: Sections): (secs: seq<(string, string)>)
    ensures |secs| == 3
  {
    [("objectives", d.objectives), ("deliverables", d.deliverables), ("constraints", d.constraints)]
  }

  /** A section's score: zero when empty (skipped), else keyword count plus 3 when its
      name occurs in the lowered query. */
  function SectionScore(name: string, text: string, keywords: seq<string>, normalizedQuery: string): (n: nat)
    requires forall i :: 0 <= i < |keywords| ==> |keywords[i]| > 0
    ensures text == "" ==> n == 0
    ensures text != "" && Contains(normalizedQuery, name) ==> n == KeywordScore(text, keywords) + 3
    ensures text != "" && !Contains(normalizedQuery, name) ==> n == KeywordScore(text, keywords)
  {
    if text == "" then 0
    else KeywordScore(text, keywords) + (if Contains(normalizedQuery, name) then 3 else 0)
  }

  function SectionScores(secs: seq<(string, string)>, keywords: seq<string>, normalizedQuery: string): (ns: seq<nat>)
    requires forall i :: 0 <= i < |keywords| ==> |keywords[i]| > 0
    ensures |ns| == |secs|
    ensures forall i :: 0 <= i < |secs| ==> ns[i] == SectionScore(secs[i].0, secs[i].1, keywords, normalizedQuery)
  {
    seq(|secs|, i requires 0 <= i < |secs| => SectionScore(secs[i].0, secs[i].1, keywords, normalizedQuery))
  }

  function SentenceScores(sentences: seq<string>, keywords: seq<string>): (ns: seq<nat>)
    requires forall i :: 0 <= i < |keywords| ==> |keywords[i]| > 0
    ensures |ns| == |sentences|
    ensures forall i :: 0 <= i < |sentences| ==> ns[i] == KeywordScore(sentences[i], keywords)
  {
    seq(|sentences|, i requires 0 <= i < |sentences| => KeywordScore(sentences[i], keywords))
  }

  /** `.`, `!` or `?`: the look-behind class of the sentence splitter. */
  predicate SentenceEnd(c: char) {
    c == '.' || c == '!' || c == '?'
  }

  /** A split point of `re.split(r"(?<=[.!?])\s+", s)`: whitespace right after `.`, `!` or `?`. */
  predicate SplitPoint(s: string, i: int) {
    1 <= i < |s| && SentenceEnd(s[i - 1]) && IsSpace(s[i])
  }

  /** End of the whitespace run starting at `i`: what `\s+` consumes there. */
  function RunEnd(s: string, i: nat): (j: nat)
    requires i <= |s|
    ensures i <= j <= |s|
    decreases |s| - i
  {
    if i < |s| && IsSpace(s[i]) then RunEnd(s, i + 1) else i
  }

  /** The run is maximal: whitespace throughout, and not followed by whitespace. */
  lemma {:induction false} RunEndShape(s: string, i: nat)
    requires i <= |s|
    ensures IsBlank(s[i..RunEnd(s, i)])
    ensures RunEnd(s, i) < |s| ==> !IsSpace(s[RunEnd(s, i)])
    decreases |s| - i
  {
    if i < |s| && IsSpace(s[i]) {
      RunEndShape(s, i + 1);
      assert s[i..RunEnd(s, i)] == [s[i]] + s[i + 1..RunEnd(s, i)];
    }
  }

  /** Index of the first split point, if any. */
  function FirstSplit(s: string, from: nat): (r: Option<nat>)
    requires 1 <= from
    ensures r.Some? ==> from <= r.value && SplitPoint(s, r.value)
    ensures forall j :: from <= j && (r.None? || j < r.value) ==> !SplitPoint(s, j)
    decreases |s| - from
  {
    if from >= |s| then None
    else if SplitPoint(s, from) then Some(from)
    else FirstSplit(s, from + 1)
  }

  /** `re.split(r"(?<=[.!?])\s+", s)`: cut at each whitespace run that follows sentence
      punctuation, dropping the run. */
  function SplitSentences(s: string): (parts: seq<string>)
    ensures |parts| >= 1
    decreases |s|
  {
    match FirstSplit(s, 1)
    case None => [s]
    case Some(i) =>
      var j := RunEnd(s, i);
      [s[..i]] + SplitSentences(s[j..])
  }

  /** Splitting is complete: no sentence still holds a split point. */
  lemma {:induction false} SentencesHaveNoSplitPoint(s: string, k: nat, m: int)
    requires k < |SplitSentences(s)|
    ensures !SplitPoint(SplitSentences(s)[k], m)
    decreases |s|
  {
    match FirstSplit(s, 1)
    case None =>
    case Some(i) =>
      SplitUnfold(s, i);
      var rest := s[RunEnd(s, i)..];
      if k == 0 {
        if SplitPoint(s[..i], m) {
          assert SplitPoint(s, m);
        }
      } else {
        SentencesHaveNoSplitPoint(rest, k - 1, m);
      }
  }

  /** The whitespace runs `re.split` drops, one between each pair of neighbouring sentences. */
  function SentenceGaps(s: string): (gaps: seq<string>)
    decreases |s|
  {
    match FirstSplit(s, 1)
    case None => []
    case Some(i) =>
      var j := RunEnd(s, i);
      [s[i..j]] + SentenceGaps(s[j..])
  }

  /** The sentences with the given separators between them. */
  function Interleave(parts: seq<string>, gaps: seq<string>): string
    requires |gaps| + 1 == |parts|
  {
    if |gaps| == 0 then parts[0] else parts[0] + gaps[0] + Interleave(parts[1..], gaps[1..])
  }

  /** One cut of `SplitSentences`: the first sentence, the run after it, and the rest. */
  lemma SplitUnfold(s: string, i: nat)
    requires FirstSplit(s, 1) == Some(i)
    ensures SplitSentences(s) == [s[..i]] + SplitSentences(s[RunEnd(s, i)..])
  {
  }

  lemma GapsUnfold(s: string, i: nat)
    requires FirstSplit(s, 1) == Some(i)
    ensures SentenceGaps(s) == [s[i..RunEnd(s, i)]] + SentenceGaps(s[RunEnd(s, i)..])
  {
  }

  /** Splitting loses nothing but the separators: the sentences, joined with the dropped
      runs, give back the text. */
  lemma {:induction false} SplitSentencesReconstructs(s: string)
    ensures |SentenceGaps(s)| + 1 == |SplitSentences(s)|
    ensures Interleave(SplitSentences(s), SentenceGaps(s)) == s
    decreases |s|
  {
    match FirstSplit(s, 1)
    case None =>
    case Some(i) =>
      SplitUnfold(s, i);
      GapsUnfold(s, i);
      GapIsRun(s, i);
      var j := RunEnd(s, i);
      var rest := s[j..];
      SplitSentencesReconstructs(rest);
      InterleaveCons(s[..i], s[i..j], SplitSentences(rest), SentenceGaps(rest));
      assert s == s[..i] + s[i..j] + rest;
  }

  lemma InterleaveCons(part: string, gap: string, parts: seq<string>, gaps: seq<string>)
    requires |gaps| + 1 == |parts|
    ensures Interleave([part] + parts, [gap] + gaps) == part + gap + Interleave(parts, gaps)
  {
    assert ([part] + parts)[1..] == parts;
    assert ([gap] + gaps)[1..] == gaps;
  }

  /** Each dropped run is a whole whitespace run that follows `.`, `!` or `?`: the sentence
      before it ends in the punctuation and the one after it does not start with whitespace. */
  lemma SentenceGapShape(s: string, k: nat)
    requires k < |SentenceGaps(s)|
    ensures |SentenceGaps(s)[k]| > 0 && IsBlank(SentenceGaps(s)[k])
    ensures |SentenceGaps(s)| + 1 == |SplitSentences(s)|
    ensures var before := SplitSentences(s)[k]; |before| > 0 && SentenceEnd(before[|before| - 1])
    ensures var after := SplitSentences(s)[k + 1]; |after| > 0 ==> !IsSpace(after[0])
  {
    SplitSentencesReconstructs(s);
    GapIsBlankRun(s, k);
    SentenceBeforeGap(s, k);
    SentenceAfterGap(s, k);
  }

  lemma {:induction false} GapIsBlankRun(s: string, k: nat)
    requires k < |SentenceGaps(s)|
    ensures |SentenceGaps(s)[k]| > 0 && IsBlank(SentenceGaps(s)[k])
    decreases |s|
  {
    match FirstSplit(s, 1)
    case Some(i) =>
      GapsUnfold(s, i);
      if k == 0 {
        GapIsRun(s, i);
      } else {
        GapIsBlankRun(s[RunEnd(s, i)..], k - 1);
      }
  }

  lemma {:induction false} SentenceBeforeGap(s: string, k: nat)
    requires k < |SentenceGaps(s)|
    ensures k < |SplitSentences(s)|
    ensures var before := SplitSentences(s)[k]; |before| > 0 && SentenceEnd(before[|before| - 1])
    decreases |s|
  {
    match FirstSplit(s, 1)
    case Some(i) =>
      SplitUnfold(s, i);
      GapsUnfold(s, i);
      if k == 0 {
        assert s[..i][i - 1] == s[i - 1];
      } else {
        SentenceBeforeGap(s[RunEnd(s, i)..], k - 1);
      }
  }

  lemma {:induction false} SentenceAfterGap(s: string, k: nat)
    requires k < |SentenceGaps(s)|
    ensures k + 1 < |SplitSentences(s)|
    ensures var after := SplitSentences(s)[k + 1]; |after| > 0 ==> !IsSpace(after[0])
    decreases |s|
  {
    match FirstSplit(s, 1)
    case Some(i) =>
      SplitUnfold(s, i);
      GapsUnfold(s, i);
      var rest := s[RunEnd(s, i)..];
      SplitSentencesReconstructs(rest);
      if k == 0 {
        var head := SplitSentences(rest)[0];
        if |head| > 0 {
          GapIsRun(s, i);
          SplitHeadIsPrefix(rest);
          assert head[0] == rest[0] == s[RunEnd(s, i)];
        }
      } else {
        SentenceAfterGap(rest, k - 1);
      }
  }

  /** The run cut at a split point is non-empty whitespace. */
  lemma GapIsRun(s: string, i: nat)
    requires SplitPoint(s, i)
    ensures var j := RunEnd(s, i); i < j && IsBlank(s[i..j])
    ensures RunEnd(s, i) < |s| ==> !IsSpace(s[RunEnd(s, i)])
  {
    RunEndShape(s, i);
  }

  /** The first sentence is a prefix of the text. */
  lemma SplitHeadIsPrefix(s: string)
    ensures SplitSentences(s)[0] <= s
  {
  }

  /** Without a split point the text is one sentence. */
  lemma NoSplitOneSentence(s: string)
    requires forall j :: !SplitPoint(s, j)
    ensures SplitSentences(s) == [s]
  {
  }

  /** Everything `query_requirements` can raise. */
  datatype DocError = EmptyQuery | NothingLoaded

  /** Where a heading regex would report a match, as an oracle: `find(title)` is the end of
      the matched heading line of the section `title`, `next(tail)` the start of the next
      heading in `tail`. Positions past the text are clamped to its end. */
  datatype Headings = Headings(find: string -> Option<nat>, next: string -> Option<nat>)

  /** `_extract_section`: "" without a heading, else the snippet of the body up to the next
      heading, with the 2000-character cap. */
  function ExtractSection(markdown: string, title: string, headings: Headings): (r: string)
    ensures headings.find(title).None? ==> r == ""
    ensures |r| <= SectionLimit + |Ellipsis|
    ensures headings.find(title).Some? ==>
              var start := if headings.find(title).value <= |markdown| then headings.find(title).value else |markdown|;
              exists e :: start <= e <= |markdown| && r == TruncateSnippet(markdown[start..e], SectionLimit)
  {
    match headings.find(title)
    case None => ""
    case Some(e) =>
      var start := if e <= |markdown| then e else |markdown|;
      var tail := markdown[start..];
      var end := match headings.next(tail)
                 case None => |markdown|
                 case Some(k) => start + (if k <= |tail| then k else |tail|);
      TruncateSnippet(markdown[start..end], SectionLimit)
  }

  /** `extract_rubric_dimensions`: refuses before anything is loaded. */
  function ExtractRubricDimensions(markdown: string, headings: Headings): (r: Result<Sections, DocError>)
    ensures r.Err? <==> markdown == ""
    ensures r.Err? ==> r.error == NothingLoaded
    ensures r.Ok? ==> r.value == Sections(ExtractSection(markdown, "objectives", headings),
                                          ExtractSection(markdown, "deliverables", headings),
                                          ExtractSection(markdown, "constraints", headings))
  {
    if markdown == "" then Err(NothingLoaded)
    else Ok(Sections(ExtractSection(markdown, "objectives", headings),
                     ExtractSection(markdown, "deliverables", headings),
                     ExtractSection(markdown, "constraints", headings)))
  }

  const NoMatchMessage := "No strongly relevant requirement snippet found for the given query."

  /** What a successful query answers, and the sections the analyst holds afterwards. */
  datatype QueryAnswer = QueryAnswer(text: string, sections: Sections)

  /** The `[NAME] snippet` answer for a chosen section. */
  function SectionAnswer(name: string, text: string): string {
    "[" + Upper(name) + "] " + TruncateSnippet(text, SnippetLimit)
  }

  /** `markdown[max(0, i - 200):min(len, i + 400)]` around the first hit of the query. */
  function Window(markdown: string, i: nat): (w: string)
    requires i <= |markdown|
    ensures |w| <= 600
  {
    var start := if i >= 200 then i - 200 else 0;
    var end := if i + 400 <= |markdown| then i + 400 else |markdown|;
    markdown[start..end]
  }

  /** The answer once no section scored: the best sentence, else a window around the first
      occurrence of the lowered query, else the fixed message. */
  function FallbackAnswer(markdown: string, q: string, keywords: seq<string>): (t: string)
    requires forall i :: 0 <= i < |keywords| ==> |keywords[i]| > 0
    ensures var sentences := SplitSentences(markdown);
            var scores := SentenceScores(sentences, keywords);
            && (forall i: nat :: IsChoice(scores, i) ==> t == TruncateSnippet(Strip(sentences[i]), SnippetLimit))
            && ((forall i :: 0 <= i < |sentences| ==> scores[i] == 0) ==>
                  && (FindFirst(Lower(markdown), q).Some? ==>
                        t == TruncateSnippet(Window(markdown, FindFirst(Lower(markdown), q).value), SnippetLimit))
                  && (FindFirst(Lower(markdown), q).None? ==> t == NoMatchMessage))
  {
    var sentences := SplitSentences(markdown);
    match FirstChoice(SentenceScores(sentences, keywords))
    case Some(i) => TruncateSnippet(Strip(sentences[i]), SnippetLimit)
    case None =>
      match FindFirst(Lower(markdown), q)
      case Some(idx) => TruncateSnippet(Window(markdown, idx), SnippetLimit)
      case None => NoMatchMessage
  }

  /** The answer for a non-blank query over loaded sections: the chosen section as
      `[NAME] snippet`, or the fallback when no section scored. */
  function Answer(markdown: string, sections: Sections, q: string): (t: string)
    ensures var keywords := Keywords(q);
            var secs := SectionList(sections);
            var scores := SectionScores(secs, keywords, q);
            && (forall i: nat :: IsChoice(scores, i) ==> t == SectionAnswer(secs[i].0, secs[i].1))
            && ((forall i :: 0 <= i < 3 ==> scores[i] == 0) ==> t == FallbackAnswer(markdown, q, keywords))
  {
    var keywords := Keywords(q);
    var secs := SectionList(sections);
    match FirstChoice(SectionScores(secs, keywords, q))
    case Some(i) => SectionAnswer(secs[i].0, secs[i].1)
    case None => FallbackAnswer(markdown, q, keywords)
  }

  /** `query_requirements`: the guards, the sections (extracted afresh when all are empty),
      then the answer for the lowered query. */
  function QueryRequirements(markdown: string, held: Sections, headings: Headings, query: string)
    : (r: Result<QueryAnswer, DocError>)
    ensures IsBlank(query) ==> r == Err(EmptyQuery)
    ensures !IsBlank(query) && markdown == "" ==> r == Err(NothingLoaded)
    ensures !IsBlank(query) && markdown != "" ==> r.Ok?
    ensures r.Ok? ==> r.value.sections
                      == if held == Sections("", "", "") then ExtractRubricDimensions(markdown, headings).value
                         else held
    ensures r.Ok? ==> r.value.text == Answer(markdown, r.value.sections, Lower(query))
  {
    if IsBlank(query) then Err(EmptyQuery)
    else if markdown == "" then Err(NothingLoaded)
    else
      var sections := if held == Sections("", "", "") then ExtractRubricDimensions(markdown, headings).value else held;
      Ok(QueryAnswer(Answer(markdown, sections, Lower(query)), sections))
  }
}

=== FILE: graph.dfy ===
/**
 The compiled workflow as written: three detectives fan out from START, fan in
 to the evidence aggregator, which goes to END. The aggregator checks which
 detective keys are present and only ever appends one message. A run is one
 superstep of the detectives on the initial state, their updates merged, then
 the aggregator.
 */
module Graph {
  import opened Common
  import opened State
  import OrderedDict
  import opened Detectives

  const RequiredKeys: seq<string> := [DocKey, RepoKey, VisionKey]

  /** The required keys absent from `present`, in the order of `required`. */
  function Absent(required: seq<string>, present: seq<string>): (m: seq<string>)
    ensures |m| <= |required|
  {
    if |required| == 0 then []
    else
      var rest := Absent(required[1..], present);
      if required[0] in present then rest else [required[0]] + rest
  }

  /** A key is reported exactly when it is required and not present. */
  lemma {:induction false} AbsentMembers(required: seq<string>, present: seq<string>)
    ensures forall k :: k in Absent(required, present) <==> k in required && k !in present
  {
    if |required| > 0 {
      AbsentMembers(required[1..], present);
      AbsentUnfold(required, present);
      assert forall k :: k in required <==> k == required[0] || k in required[1..];
    }
  }

  /** `Absent` is the order-keeping filter: it distributes over concatenation and keeps a
      single key exactly when it is not present. */
  lemma AbsentAppend(a: seq<string>, b: seq<string>, k: string, present: seq<string>)
    ensures Absent(a + b, present) == Absent(a, present) + Absent(b, present)
    ensures Absent([k], present) == if k in present then [] else [k]
    ensures Absent([], present) == []
  {
    AbsentConcat(a, b, present);
    AbsentUnfold([k], present);
    assert [k][1..] == [];
  }

  lemma {:induction false} AbsentConcat(a: seq<string>, b: seq<string>, present: seq<string>)
    ensures Absent(a + b, present) == Absent(a, present) + Absent(b, present)
  {
    if |a| == 0 {
      assert a + b == b;
    } else {
      AbsentConcat(a[1..], b, present);
      AbsentConcatStep(a, b, present);
    }
  }

  lemma AbsentConcatStep(a: seq<string>, b: seq<string>, present: seq<string>)
    requires |a| > 0
    requires Absent(a[1..] + b, present) == Absent(a[1..], present) + Absent(b, present)
    ensures Absent(a + b, present) == Absent(a, present) + Absent(b, present)
  {
    var h := if a[0] in present then [] else [a[0]];
    assert Absent(a + b, present) == h + Absent(a[1..] + b, present) by {
      assert (a + b)[0] == a[0] && (a + b)[1..] == a[1..] + b;
      AbsentUnfold(a + b, present);
    }
    assert Absent(a, present) == h + Absent(a[1..], present) by {
      AbsentUnfold(a, present);
    }
    ConcatAssoc(h, Absent(a[1..], present), Absent(b, present));
  }

  /** One step of the filter. */
  lemma AbsentUnfold(r: seq<string>, present: seq<string>)
    requires |r| > 0
    ensures Absent(r, present) == (if r[0] in present then [] else [r[0]]) + Absent(r[1..], present)
  {
  }

  /** Position of a detective key in the aggregator's required list. */
  function KeyRank(k: string): nat {
    if k == DocKey then 0 else if k == RepoKey then 1 else 2
  }

  /** `missing` in `evidence_aggregator_node`. */
  function MissingKeys(evs: EvidenceDict): (m: seq<string>)
    ensures forall k :: k in m <==> k in RequiredKeys && k !in OrderedDict.Keys(evs)
    ensures forall i, j :: 0 <= i < j < |m| ==> KeyRank(m[i]) < KeyRank(m[j])
    ensures |m| <= 3
  {
    var m := Absent(RequiredKeys, OrderedDict.Keys(evs));
    AbsentMembers(RequiredKeys, OrderedDict.Keys(evs));
    MissingInRankOrder(OrderedDict.Keys(evs), m);
    m
  }

  /** Strictly increasing rank, so also free of repeats. */
  predicate RankOrdered(s: seq<string>) {
    forall i, j :: 0 <= i < j < |s| ==> KeyRank(s[i]) < KeyRank(s[j])
  }

  /** The required keys come out in the order doc, repo, vision, so without repeats. */
  lemma MissingInRankOrder(present: seq<string>, m: seq<string>)
    requires m == Absent(RequiredKeys, present)
    ensures RankOrdered(m)
  {
    DetectiveKeysDistinct();
    assert KeyRank(RequiredKeys[0]) == 0 && KeyRank(RequiredKeys[1]) == 1 && KeyRank(RequiredKeys[2]) == 2;
    AbsentKeepsRankOrder(RequiredKeys, present, m);
  }

  /** Filtering keeps a list's rank order. */
  lemma {:induction false} AbsentKeepsRankOrder(required: seq<string>, present: seq<string>, m: seq<string>)
    requires RankOrdered(required)
    requires m == Absent(required, present)
    ensures RankOrdered(m)
  {
    if |required| > 0 {
      RankOrderedTail(required);
      AbsentKeepsRankOrder(required[1..], present, Absent(required[1..], present));
      AbsentRankStep(required, present);
    }
  }

  lemma RankOrderedTail(s: seq<string>)
    requires |s| > 0 && RankOrdered(s)
    ensures RankOrdered(s[1..])
  {
    forall i, j | 0 <= i < j < |s[1..]| ensures KeyRank(s[1..][i]) < KeyRank(s[1..][j]) {
      assert s[1..][i] == s[i + 1] && s[1..][j] == s[j + 1];
    }
  }

  /** One step of `AbsentKeepsRankOrder`: a kept head ranks below everything kept after it. */
  lemma AbsentRankStep(required: seq<string>, present: seq<string>)
    requires |required| > 0 && RankOrdered(required)
    requires RankOrdered(Absent(required[1..], present))
    ensures RankOrdered(Absent(required, present))
  {
    var tail := required[1..];
    var rest := Absent(tail, present);
    AbsentUnfold(required, present);
    if required[0] !in present {
      AbsentMembers(tail, present);
      forall x | x in rest ensures KeyRank(required[0]) < KeyRank(x) {
        var t :| 0 <= t < |tail| && tail[t] == x;
        assert required[t + 1] == x;
      }
      RankedCons(required[0], rest);
    }
  }

  /** A key ranked below every key of a rank-ordered list can go in front of it. */
  lemma RankedCons(h: string, rest: seq<string>)
    requires RankOrdered(rest)
    requires forall x :: x in rest ==> KeyRank(h) < KeyRank(x)
    ensures RankOrdered([h] + rest)
  {
    var m := [h] + rest;
    forall i, j | 0 <= i < j < |m| ensures KeyRank(m[i]) < KeyRank(m[j]) {
      assert m[j] == rest[j - 1];
      if i > 0 {
        assert m[i] == rest[i - 1];
      }
    }
  }

  /** `evidence_aggregator_node`: reports the gaps or the synchronisation, and writes nothing else. */
  function Aggregator(s: AgentState): (u: Update)
    ensures u.repoPath.None? && u.pdfPath.None? && u.rubricDimensions.None?
    ensures u.evidences == [] && u.opinions == [] && |u.messages| == 1
    ensures u.messages[0] == AggregationSynchronized
            <==> forall k :: k in RequiredKeys ==> k in OrderedDict.Keys(s.evidences)
    ensures u.messages[0].AggregationGaps? ==> u.messages[0].missing == MissingKeys(s.evidences)
  {
    var missing := MissingKeys(s.evidences);
    if |missing| > 0 then
      assert missing[0] in missing;
      Update(None, None, None, [], [], [AggregationGaps(missing)])
    else Update(None, None, None, [], [], [AggregationSynchronized])
  }

  /** The aggregator changes nothing but the message log, which grows by one entry. */
  lemma AggregatorOnlyLogs(s: AgentState)
    ensures var t := Apply(s, Aggregator(s));
            && t.repoUrl == s.repoUrl && t.repoPath == s.repoPath && t.pdfPath == s.pdfPath
            && t.rubricDimensions == s.rubricDimensions
            && t.evidences == s.evidences && t.opinions == s.opinions
            && t.messages == s.messages + Aggregator(s).messages
  {
    assert s.opinions + [] == s.opinions;
  }

  // ---------------------------------------------------------------------------
  // Topology

  datatype Node = Start | DocAnalyst | RepoInvestigator | VisionInspector | EvidenceAggregator | End

  /** The `add_node` calls. */
  const Nodes: seq<Node> := [DocAnalyst, RepoInvestigator, VisionInspector, EvidenceAggregator]

  /** The `add_edge` calls. */
  const Edges: seq<(Node, Node)> := [
    (Start, DocAnalyst), (Start, RepoInvestigator), (Start, VisionInspector),
    (DocAnalyst, EvidenceAggregator), (RepoInvestigator, EvidenceAggregator),
    (VisionInspector, EvidenceAggregator),
    (EvidenceAggregator, End)]

  predicate IsDetective(n: Node) {
    n == DocAnalyst || n == RepoInvestigator || n == VisionInspector
  }

  function Successors(n: Node): set<Node> {
    set e | e in Edges && e.0 == n :: e.1
  }

  function Predecessors(n: Node): set<Node> {
    set e | e in Edges && e.1 == n :: e.0
  }

  /** Fan-out from START to every detective, fan-in from every detective to the aggregator,
      and the aggregator straight to END. */
  lemma TopologyAsDeclared()
    ensures Successors(Start) == {DocAnalyst, RepoInvestigator, VisionInspector}
    ensures forall n :: IsDetective(n) ==> Successors(n) == {EvidenceAggregator}
    ensures Predecessors(EvidenceAggregator) == {DocAnalyst, RepoInvestigator, VisionInspector}
    ensures Successors(EvidenceAggregator) == {End}
    ensures Successors(End) == {}
  {
    StartFansOut();
    DetectivesFanIn();
    AggregatorEnds();
  }

  lemma StartFansOut()
    ensures Successors(Start) == {DocAnalyst, RepoInvestigator, VisionInspector}
  {
    assert Edges[0] == (Start, DocAnalyst) && Edges[1] == (Start, RepoInvestigator) && Edges[2] == (Start, VisionInspector);
  }

  lemma DetectivesFanIn()
    ensures forall n :: IsDetective(n) ==> Successors(n) == {EvidenceAggregator}
    ensures Predecessors(EvidenceAggregator) == {DocAnalyst, RepoInvestigator, VisionInspector}
  {
    assert Edges[3] == (DocAnalyst, EvidenceAggregator) && Edges[4] == (RepoInvestigator, EvidenceAggregator);
    assert Edges[5] == (VisionInspector, EvidenceAggregator);
  }

  lemma AggregatorEnds()
    ensures Successors(EvidenceAggregator) == {End}
    ensures Successors(End) == {}
  {
    assert Edges[6] == (EvidenceAggregator, End);
  }

  /** Consecutive nodes are joined by declared edges. */
  predicate IsPath(p: seq<Node>) {
    forall i :: 0 <= i < |p| - 1 ==> p[i + 1] in Successors(p[i])
  }

  /** END has no outgoing edge, so it can only be the last node of a walk. */
  lemma EndIsTerminal(p: seq<Node>, i: nat)
    requires IsPath(p) && i < |p| - 1
    ensures p[i] != End
  {
    TopologyAsDeclared();
    assert p[i + 1] in Successors(p[i]);
  }

  /** Every walk from START passes one detective, then the aggregator, then END, and can
      go no further: no judge or chief-justice stage is reachable. */
  lemma {:induction false} EveryPathFromStart(p: seq<Node>)
    requires |p| >= 1 && p[0] == Start && IsPath(p)
    ensures |p| <= 4
    ensures |p| >= 2 ==> IsDetective(p[1])
    ensures |p| >= 3 ==> p[2] == EvidenceAggregator
    ensures |p| == 4 ==> p[3] == End
  {
    TopologyAsDeclared();
    forall i: nat | i < |p| - 1 ensures p[i] != End {
      EndIsTerminal(p, i);
    }
    if |p| >= 2 { assert p[1] in Successors(p[0]); }
    if |p| >= 3 { assert p[2] in Successors(p[1]); }
    if |p| >= 4 { assert p[3] in Successors(p[2]); }
  }

  // ---------------------------------------------------------------------------
  // One run

  /** The detectives' superstep: all three read the same initial state; their updates are
      merged one after another. */
  function Superstep(s0: AgentState, fs: FileSystem, doc: DocOutcome, repo: RepoOutcome,
                     vision: VisionOutcome): AgentState {
    Merge3(s0, DocAnalystNode(s0, fs, doc), RepoInvestigatorNode(s0, repo), VisionInspectorNode(s0, fs, vision))
  }

  /** Three sibling updates merged in order. */
  function Merge3(s0: AgentState, d: Update, r: Update, v: Update): AgentState {
    Apply(Apply(Apply(s0, d), r), v)
  }

  /** The aggregator's step on the merged state. */
  function Aggregate(s1: AgentState): AgentState {
    Apply(s1, Aggregator(s1))
  }

  /** The whole compiled graph. */
  function RunGraph(s0: AgentState, fs: FileSystem, doc: DocOutcome, repo: RepoOutcome,
                    vision: VisionOutcome): AgentState {
    Aggregate(Superstep(s0, fs, doc, repo, vision))
  }

  /** `u` files exactly one evidence list, under `key`. */
  predicate FilesOnly(u: Update, key: string) {
    |u.evidences| == 1 && u.evidences[0].0 == key
  }

  lemma FilesOnlyKeys(u: Update, key: string)
    requires FilesOnly(u, key)
    ensures OrderedDict.Keys(u.evidences) == [key]
    ensures OrderedDict.DistinctKeys(u.evidences)
  {
    OrderedDict.KeysAt(u.evidences, 0);
  }

  /** After one update per detective key, every required key is filed. */
  lemma {:induction false} DetectiveFilingsComplete(s0: AgentState, d: Update, r: Update, v: Update)
    requires FilesOnly(d, DocKey) && FilesOnly(r, RepoKey) && FilesOnly(v, VisionKey)
    ensures forall k :: k in RequiredKeys ==> k in OrderedDict.Keys(Apply(Apply(Apply(s0, d), r), v).evidences)
    ensures Aggregator(Apply(Apply(Apply(s0, d), r), v)).messages == [AggregationSynchronized]
  {
    FilesOnlyKeys(d, DocKey);
    FilesOnlyKeys(r, RepoKey);
    FilesOnlyKeys(v, VisionKey);
  }

  /** Three updates under distinct detective keys merge to the same lookups in either order. */
  lemma {:induction false} DetectiveFilingsCommute(s0: AgentState, d: Update, r: Update, v: Update, k: string)
    requires FilesOnly(d, DocKey) && FilesOnly(r, RepoKey) && FilesOnly(v, VisionKey)
    ensures OrderedDict.Get(Apply(Apply(Apply(s0, d), r), v).evidences, k)
            == OrderedDict.Get(Apply(Apply(Apply(s0, v), r), d).evidences, k)
  {
    DetectiveKeysDistinct();
    FilesOnlyKeys(d, DocKey);
    FilesOnlyKeys(r, RepoKey);
    FilesOnlyKeys(v, VisionKey);
    // d, r, v  ->  r, d, v
    assert OrderedDict.Get(Apply(Apply(Apply(s0, d), r), v).evidences, k)
        == OrderedDict.Get(Apply(Apply(Apply(s0, r), d), v).evidences, k) by {
      OrderedDict.UpdateGet(Apply(Apply(s0, d), r).evidences, v.evidences, k);
      OrderedDict.UpdateGet(Apply(Apply(s0, r), d).evidences, v.evidences, k);
      ApplyCommutesOnEvidences(s0, d, r, k);
    }
    // r, d, v  ->  r, v, d
    ApplyCommutesOnEvidences(Apply(s0, r), d, v, k);
    // r, v, d  ->  v, r, d
    assert OrderedDict.Get(Apply(Apply(Apply(s0, r), v), d).evidences, k)
        == OrderedDict.Get(Apply(Apply(Apply(s0, v), r), d).evidences, k) by {
      OrderedDict.UpdateGet(Apply(Apply(s0, r), v).evidences, d.evidences, k);
      OrderedDict.UpdateGet(Apply(Apply(s0, v), r).evidences, d.evidences, k);
      ApplyCommutesOnEvidences(s0, r, v, k);
    }
  }

  /** Whatever each detective's outcome, all three keys are filed, so the aggregator always
      reports synchronisation at the end of a run. */
  lemma RunAlwaysSynchronizes(s0: AgentState, fs: FileSystem, doc: DocOutcome, repo: RepoOutcome,
                              vision: VisionOutcome)
    ensures Aggregator(Superstep(s0, fs, doc, repo, vision)).messages == [AggregationSynchronized]
  {
    DetectiveFilingsComplete(s0, DocAnalystNode(s0, fs, doc), RepoInvestigatorNode(s0, repo),
                             VisionInspectorNode(s0, fs, vision));
  }

  /** The merged evidence of a run does not depend on the order in which the detectives'
      updates are applied. */
  lemma SuperstepOrderIrrelevant(s0: AgentState, fs: FileSystem, doc: DocOutcome, repo: RepoOutcome,
                                 vision: VisionOutcome, k: string)
    ensures var d, r, v := DocAnalystNode(s0, fs, doc), RepoInvestigatorNode(s0, repo), VisionInspectorNode(s0, fs, vision);
            OrderedDict.Get(Apply(Apply(Apply(s0, d), r), v).evidences, k)
            == OrderedDict.Get(Apply(Apply(Apply(s0, v), r), d).evidences, k)
  {
    var d, r, v := DocAnalystNode(s0, fs, doc), RepoInvestigatorNode(s0, repo), VisionInspectorNode(s0, fs, vision);
    DetectiveFilingsCommute(s0, d, r, v, k);
  }

  /** When only `r` carries paths, the merged state's paths are `r`'s, or the initial ones. */
  lemma PathsFromMiddleUpdate(s0: AgentState, d: Update, r: Update, v: Update)
    requires d.repoPath.None? && d.pdfPath.None? && v.repoPath.None? && v.pdfPath.None?
    ensures Apply(Apply(Apply(s0, d), r), v).repoPath == r.repoPath.GetOr(s0.repoPath)
    ensures Apply(Apply(Apply(s0, d), r), v).pdfPath == r.pdfPath.GetOr(s0.pdfPath)
  {
  }

  /** Only the repository investigator moves `repo_path` and `pdf_path`: after a run they are
      its results when it succeeded, and the initial values otherwise. */
  lemma RunPathsFromInvestigator(s0: AgentState, fs: FileSystem, doc: DocOutcome, repo: RepoOutcome,
                                 vision: VisionOutcome)
    ensures var s := RunGraph(s0, fs, doc, repo, vision);
            && (repo.RepoAnalysed? ==> s.repoPath == repo.repoPath
                                       && s.pdfPath == ResolvePdfPath(repo.fsAfter, repo.repoPath, s0.pdfPath))
            && (repo.RepoFailed? ==> s.repoPath == s0.repoPath && s.pdfPath == s0.pdfPath)
  {
    PathsAfterAggregation(s0, DocAnalystNode(s0, fs, doc), RepoInvestigatorNode(s0, repo),
                          VisionInspectorNode(s0, fs, vision));
    InvestigatorPaths(s0, repo);
  }

  /** The paths the investigator's update leaves in place of the initial ones. */
  lemma InvestigatorPaths(s0: AgentState, repo: RepoOutcome)
    ensures RepoInvestigatorNode(s0, repo).repoPath.GetOr(s0.repoPath)
            == if repo.RepoAnalysed? then repo.repoPath else s0.repoPath
    ensures RepoInvestigatorNode(s0, repo).pdfPath.GetOr(s0.pdfPath)
            == if repo.RepoAnalysed? then ResolvePdfPath(repo.fsAfter, repo.repoPath, s0.pdfPath) else s0.pdfPath
  {
  }

  /** The aggregator keeps the paths the superstep left. */
  lemma PathsAfterAggregation(s0: AgentState, d: Update, r: Update, v: Update)
    requires d.repoPath.None? && d.pdfPath.None? && v.repoPath.None? && v.pdfPath.None?
    ensures var s := Aggregate(Merge3(s0, d, r, v));
            s.repoPath == r.repoPath.GetOr(s0.repoPath) && s.pdfPath == r.pdfPath.GetOr(s0.pdfPath)
  {
    AggregatorOnlyLogs(Apply(Apply(Apply(s0, d), r), v));
    PathsFromMiddleUpdate(s0, d, r, v);
  }
}

=== FILE: judges.dfy ===
/**
 The judge-side helpers: the evidence strings a judge may cite, how its
 citations are resolved against them, salvaging an opinion from a failed
 structured-output call, the context truncation, and the bounded attempt and
 restart policy of one judge node. Every model call is an outcome oracle.
 */
module Judges {
  import opened Common
  import opened Strings
  import opened State
  import OrderedDict

  const EvidenceLimit: nat := 18
  const MaxEvidenceChars: nat := 200
  const NoEvidence := "No forensic evidence found for this dimension"

  // ---------------------------------------------------------------------------
  // Evidence strings

  /** The stripped, non-blank texts, in order. */
  function StripNonBlank(ts: seq<string>): (r: seq<string>)
    ensures |r| <= |ts|
    ensures forall x :: x in r ==> exists t :: t in ts && !IsBlank(t) && Strip(t) == x
  {
    if |ts| == 0 then []
    else
      var rest := StripNonBlank(ts[1..]);
      assert forall t :: t in ts[1..] ==> t in ts;
      if IsBlank(ts[0]) then rest else [Strip(ts[0])] + rest
  }

  /** What one evidence item contributes: its goal, location and string content, stripped. */
  function ItemStrings(e: Evidence): seq<string> {
    StripNonBlank([e.goal, e.location] + (if e.content.TextContent? then [e.content.text] else []))
  }

  /** Every item's strings of a bucket, with no limit. */
  function AllItemStrings(items: seq<Evidence>): seq<string> {
    if |items| == 0 then [] else ItemStrings(items[0]) + AllItemStrings(items[1..])
  }

  /** Every bucket's item strings followed by its non-empty name, with no limit. */
  function AllEvidenceStrings(evs: EvidenceDict): seq<string> {
    if |evs| == 0 then []
    else BucketStrings(evs[0]) + AllEvidenceStrings(evs[1..])
  }

  /** One bucket's item strings followed by its name when the name is non-empty. */
  function BucketStrings(bucket: (string, seq<Evidence>)): seq<string> {
    AllItemStrings(bucket.1) + (if bucket.0 != "" then [bucket.0] else [])
  }

  /** The inner loop of `_extract_evidence_strings`: it breaks once `limit` strings are held. */
  function CollectItems(acc: seq<string>, items: seq<Evidence>, limit: nat): seq<string>
    decreases |items|
  {
    if |items| == 0 then acc
    else
      var next := acc + ItemStrings(items[0]);
      if |next| >= limit then next else CollectItems(next, items[1..], limit)
  }

  /** The outer loop: each bucket's items, then its name while there is room. */
  function CollectBuckets(acc: seq<string>, evs: EvidenceDict, limit: nat): seq<string>
    decreases |evs|
  {
    if |evs| == 0 then acc
    else CollectBuckets(CollectBucket(acc, evs[0], limit), evs[1..], limit)
  }

  /** One pass of the outer loop: the bucket's items, then its name while there is room. */
  function CollectBucket(acc: seq<string>, bucket: (string, seq<Evidence>), limit: nat): seq<string> {
    var afterItems := CollectItems(acc, bucket.1, limit);
    if bucket.0 != "" && |afterItems| < limit then afterItems + [bucket.0] else afterItems
  }

  /** `text.replace("\\", "/").replace('"', "'").strip()[:200]`: the stripped text, cut at
      200 characters, with backslashes and double quotes made safe. */
  function Sanitize(text: string): (r: string)
    ensures |r| <= MaxEvidenceChars
    ensures forall i :: 0 <= i < |r| ==> r[i] != '\\' && r[i] != '"'
    ensures |r| == if |Strip(text)| <= MaxEvidenceChars then |Strip(text)| else MaxEvidenceChars
    ensures forall i :: 0 <= i < |r| ==> r[i] == SafeChar(Strip(text)[i])
  {
    var replaced := ReplaceChar(ReplaceChar(text, '\\', '/'), '"', '\'');
    SanitizedTake(text, replaced);
    Take(Strip(replaced), MaxEvidenceChars)
  }

  lemma SanitizedTake(text: string, replaced: string)
    requires replaced == ReplaceChar(ReplaceChar(text, '\\', '/'), '"', '\'')
    ensures var r := Take(Strip(replaced), MaxEvidenceChars);
            && |r| <= MaxEvidenceChars
            && (forall i :: 0 <= i < |r| ==> r[i] != '\\' && r[i] != '"')
            && |r| == (if |Strip(text)| <= MaxEvidenceChars then |Strip(text)| else MaxEvidenceChars)
            && (forall i :: 0 <= i < |r| ==> r[i] == SafeChar(Strip(text)[i]))
  {
    var stripped := Strip(replaced);
    ReplacedIsSanitary(text);
    StripKeepsSanitary(replaced);
    SanitaryRange(stripped, Take(stripped, MaxEvidenceChars), 0);
    ReplaceThenStrip(text);
  }

  /** How the sanitiser writes one character: a backslash as a slash, a double quote as a
      single quote, anything else as itself. */
  function SafeChar(c: char): char {
    if c == '\\' then '/' else if c == '"' then '\'' else c
  }

  /** Replacing the two characters never turns whitespace into text or back, so it commutes
      with stripping. */
  lemma ReplaceThenStrip(text: string)
    ensures var m := ReplaceChar(ReplaceChar(text, '\\', '/'), '"', '\'');
            && |Strip(m)| == |Strip(text)|
            && forall i :: 0 <= i < |Strip(m)| ==> Strip(m)[i] == SafeChar(Strip(text)[i])
  {
    var m := ReplaceChar(ReplaceChar(text, '\\', '/'), '"', '\'');
    ReplacedPointwise(text, m);
    SameShapeStrip(m, text);
    StripPointwise(m, text);
  }

  /** The double replacement writes each character through `SafeChar` and keeps whitespace. */
  lemma ReplacedPointwise(text: string, m: string)
    requires m == ReplaceChar(ReplaceChar(text, '\\', '/'), '"', '\'')
    ensures |m| == |text|
    ensures forall i :: 0 <= i < |text| ==> m[i] == SafeChar(text[i]) && (IsSpace(m[i]) <==> IsSpace(text[i]))
  {
    assert !IsSpace('/') && !IsSpace('\'') && !IsSpace('\\') && !IsSpace('"');
  }

  lemma StripPointwise(m: string, text: string)
    requires |m| == |text| && forall i :: 0 <= i < |text| ==> m[i] == SafeChar(text[i])
    requires FirstNonSpace(m) == FirstNonSpace(text) && |Strip(m)| == |Strip(text)|
    ensures forall i :: 0 <= i < |Strip(m)| ==> Strip(m)[i] == SafeChar(Strip(text)[i])
  {
    var k := FirstNonSpace(text);
    SlicePointwise(m, text, k, k + |Strip(m)|);
  }

  lemma SlicePointwise(m: string, text: string, lo: nat, hi: nat)
    requires lo <= hi <= |m| == |text| && forall i :: 0 <= i < |text| ==> m[i] == SafeChar(text[i])
    ensures forall i :: 0 <= i < hi - lo ==> m[lo..hi][i] == SafeChar(text[lo..hi][i])
  {
    forall i | 0 <= i < hi - lo ensures m[lo..hi][i] == SafeChar(text[lo..hi][i]) {
      assert m[lo..hi][i] == m[lo + i];
    }
  }

  /** A cleaned text comes back unchanged: stripped, at most 200 characters, and with
      neither a backslash nor a double quote. */
  lemma SanitizeKeepsClean(text: string)
    requires Sanitary(text) && |text| <= MaxEvidenceChars
    requires |text| > 0 ==> !IsSpace(text[0]) && !IsSpace(text[|text| - 1])
    ensures Sanitize(text) == text
  {
    StripOfTrimmed(text);
    var r := Sanitize(text);
    forall i | 0 <= i < |r| ensures r[i] == text[i] {
      assert r[i] == SafeChar(text[i]);
    }
  }

  lemma ReplacedIsSanitary(text: string)
    ensures Sanitary(ReplaceChar(ReplaceChar(text, '\\', '/'), '"', '\''))
  {
  }

  lemma StripKeepsSanitary(s: string)
    requires Sanitary(s)
    ensures Sanitary(Strip(s))
  {
    SanitaryRange(s, Strip(s), FirstNonSpace(s));
  }

  /** No backslash and no double quote. */
  predicate Sanitary(s: string) {
    forall i :: 0 <= i < |s| ==> s[i] != '\\' && s[i] != '"'
  }

  lemma SanitaryRange(s: string, t: string, lo: nat)
    requires Sanitary(s) && lo + |t| <= |s| && t == s[lo..lo + |t|]
    ensures Sanitary(t)
  {
    forall i | 0 <= i < |t| ensures t[i] != '\\' && t[i] != '"' {
      assert t[i] == s[lo + i];
    }
  }

  /** `_extract_evidence_strings`. */
  function ExtractEvidenceStrings(evs: EvidenceDict, limit: nat): (r: seq<string>)
    ensures |r| <= limit
    ensures forall i :: 0 <= i < |r| ==> |r[i]| <= MaxEvidenceChars
    ensures forall i, k :: 0 <= i < |r| && 0 <= k < |r[i]| ==> r[i][k] != '\\' && r[i][k] != '"'
  {
    var raw := Take(CollectBuckets([], evs, limit), limit);
    seq(|raw|, i requires 0 <= i < |raw| => Sanitize(raw[i]))
  }

  /** Two lists that are equal, or both at least `limit` long with the same first `limit` entries. */
  predicate AgreeUpTo(x: seq<string>, y: seq<string>, limit: nat) {
    x == y || (|x| >= limit && |y| >= limit && x[..limit] == y[..limit])
  }

  lemma AgreeUpToAppend(x: seq<string>, y: seq<string>, z: seq<string>, limit: nat)
    requires AgreeUpTo(x, y, limit)
    ensures AgreeUpTo(x + z, y + z, limit)
  {
    if x != y {
      assert (x + z)[..limit] == x[..limit];
      assert (y + z)[..limit] == y[..limit];
    }
  }

  lemma AgreeUpToTrans(x: seq<string>, y: seq<string>, z: seq<string>, limit: nat)
    requires AgreeUpTo(x, y, limit) && AgreeUpTo(y, z, limit)
    ensures AgreeUpTo(x, z, limit)
  {
  }

  lemma {:induction false} CollectItemsAgrees(acc: seq<string>, items: seq<Evidence>, limit: nat)
    ensures AgreeUpTo(CollectItems(acc, items, limit), acc + AllItemStrings(items), limit)
    decreases |items|
  {
    if |items| > 0 {
      var next := acc + ItemStrings(items[0]);
      ConcatAssoc(acc, ItemStrings(items[0]), AllItemStrings(items[1..]));
      if |next| >= limit {
        PrefixOfAppend(next, AllItemStrings(items[1..]), limit);
      } else {
        CollectItemsAgrees(next, items[1..], limit);
      }
    }
  }

  lemma {:induction false} CollectBucketsAgrees(acc: seq<string>, evs: EvidenceDict, limit: nat)
    ensures AgreeUpTo(CollectBuckets(acc, evs, limit), acc + AllEvidenceStrings(evs), limit)
    decreases |evs|
  {
    if |evs| > 0 {
      var next := CollectBucket(acc, evs[0], limit);
      var rest := AllEvidenceStrings(evs[1..]);
      CollectBucketAgrees(acc, evs[0], limit);
      CollectBucketsAgrees(next, evs[1..], limit);
      AgreeUpToAppend(next, acc + BucketStrings(evs[0]), rest, limit);
      ConcatAssoc(acc, BucketStrings(evs[0]), rest);
      AgreeUpToTrans(CollectBuckets(next, evs[1..], limit), next + rest, acc + AllEvidenceStrings(evs), limit);
    }
  }

  lemma CollectBucketAgrees(acc: seq<string>, bucket: (string, seq<Evidence>), limit: nat)
    ensures AgreeUpTo(CollectBucket(acc, bucket, limit), acc + BucketStrings(bucket), limit)
  {
    var name: seq<string> := if bucket.0 != "" then [bucket.0] else [];
    var afterItems := CollectItems(acc, bucket.1, limit);
    var full := acc + AllItemStrings(bucket.1);
    CollectItemsAgrees(acc, bucket.1, limit);
    ConcatAssoc(acc, AllItemStrings(bucket.1), name);
    if bucket.0 != "" && |afterItems| < limit {
      assert afterItems == full;
    } else if bucket.0 != "" {
      assert (full + name)[..limit] == full[..limit];
    } else {
      assert full + name == full;
    }
  }

  lemma PrefixOfAppend(x: seq<string>, y: seq<string>, limit: nat)
    requires |x| >= limit
    ensures (x + y)[..limit] == x[..limit]
  {
  }

  /** The early breaks only ever drop strings past the limit: the extracted list is the first
      `limit` strings of the unlimited catalog-order list, sanitized. */
  lemma ExtractIsSanitizedPrefix(evs: EvidenceDict, limit: nat)
    ensures var all := Take(AllEvidenceStrings(evs), limit);
            var r := ExtractEvidenceStrings(evs, limit);
            |r| == |all| && forall i :: 0 <= i < |r| ==> r[i] == Sanitize(all[i])
  {
    CollectBucketsAgrees([], evs, limit);
    assert [] + AllEvidenceStrings(evs) == AllEvidenceStrings(evs);
  }

  // ---------------------------------------------------------------------------
  // Citation resolution

  /** `[item for item in cited if item in evidence_strings]`. */
  function ExactMatches(cited: seq<string>, evidence: seq<string>): (r: seq<string>)
    ensures |r| <= |cited|
  {
    if |cited| == 0 then []
    else
      var rest := ExactMatches(cited[1..], evidence);
      if cited[0] in evidence then [cited[0]] + rest else rest
  }

  /** A string is an exact match exactly when it is cited and is an evidence string. */
  lemma {:induction false} ExactMatchesMembers(cited: seq<string>, evidence: seq<string>)
    ensures forall x :: x in ExactMatches(cited, evidence) <==> x in cited && x in evidence
  {
    if |cited| > 0 {
      ExactMatchesMembers(cited[1..], evidence);
      ExactMatchesUnfold(cited, evidence);
      assert forall x :: x in cited <==> x == cited[0] || x in cited[1..];
    }
  }

  /** `ExactMatches` is the order-keeping filter: it distributes over concatenation, keeps a
      single citation exactly when it is evidence, and so keeps every match with its repeats
      in cited order. */
  lemma ExactMatchesAppend(a: seq<string>, b: seq<string>, x: string, evidence: seq<string>)
    ensures ExactMatches(a + b, evidence) == ExactMatches(a, evidence) + ExactMatches(b, evidence)
    ensures ExactMatches([x], evidence) == if x in evidence then [x] else []
    ensures ExactMatches([], evidence) == []
  {
    ExactMatchesConcat(a, b, evidence);
    ExactMatchesUnfold([x], evidence);
    assert [x][1..] == [];
  }

  lemma {:induction false} ExactMatchesConcat(a: seq<string>, b: seq<string>, evidence: seq<string>)
    ensures ExactMatches(a + b, evidence) == ExactMatches(a, evidence) + ExactMatches(b, evidence)
  {
    if |a| == 0 {
      assert a + b == b;
    } else {
      ExactMatchesConcat(a[1..], b, evidence);
      ExactMatchesConcatStep(a, b, evidence);
    }
  }

  lemma ExactMatchesConcatStep(a: seq<string>, b: seq<string>, evidence: seq<string>)
    requires |a| > 0
    requires ExactMatches(a[1..] + b, evidence) == ExactMatches(a[1..], evidence) + ExactMatches(b, evidence)
    ensures ExactMatches(a + b, evidence) == ExactMatches(a, evidence) + ExactMatches(b, evidence)
  {
    var h := if a[0] in evidence then [a[0]] else [];
    assert ExactMatches(a + b, evidence) == h + ExactMatches(a[1..] + b, evidence) by {
      assert (a + b)[0] == a[0] && (a + b)[1..] == a[1..] + b;
      ExactMatchesUnfold(a + b, evidence);
    }
    assert ExactMatches(a, evidence) == h + ExactMatches(a[1..], evidence) by {
      ExactMatchesUnfold(a, evidence);
    }
    ConcatAssoc(h, ExactMatches(a[1..], evidence), ExactMatches(b, evidence));
  }

  /** One step of the filter. */
  lemma ExactMatchesUnfold(cited: seq<string>, evidence: seq<string>)
    requires |cited| > 0
    ensures ExactMatches(cited, evidence)
            == (if cited[0] in evidence then [cited[0]] else []) + ExactMatches(cited[1..], evidence)
  {
  }

  /** Every value of the dictionary is one of `s`. */
  ghost predicate ValuesIn(d: OrderedDict.Dict<string, string>, s: seq<string>) {
    forall i :: 0 <= i < |d| ==> d[i].1 in s
  }

  lemma {:induction false} SetValuesIn(d: OrderedDict.Dict<string, string>, k: string, v: string, s: seq<string>)
    requires ValuesIn(d, s) && v in s
    ensures ValuesIn(OrderedDict.Set(d, k, v), s)
    decreases |d|
  {
    if |d| > 0 && d[0].0 != k {
      SetValuesIn(d[1..], k, v, s);
      var r := OrderedDict.Set(d, k, v);
      assert r == [d[0]] + OrderedDict.Set(d[1..], k, v);
    }
  }

  /** `{source.lower(): source for source in evidence_strings}`, built left to right. */
  function LoweredSources(acc: OrderedDict.Dict<string, string>, sources: seq<string>): OrderedDict.Dict<string, string>
    decreases |sources|
  {
    if |sources| == 0 then acc
    else LoweredSources(OrderedDict.Set(acc, Lower(sources[0]), sources[0]), sources[1..])
  }

  lemma {:induction false} LoweredSourcesValues(acc: OrderedDict.Dict<string, string>, sources: seq<string>, all: seq<string>)
    requires ValuesIn(acc, all)
    requires forall x :: x in sources ==> x in all
    ensures ValuesIn(LoweredSources(acc, sources), all)
    decreases |sources|
  {
    if |sources| > 0 {
      SetValuesIn(acc, Lower(sources[0]), sources[0], all);
      LoweredSourcesValues(OrderedDict.Set(acc, Lower(sources[0]), sources[0]), sources[1..], all);
    }
  }

  /** The probe matches a lowered source when either contains the other. */
  predicate FuzzyHit(probe: string, source: string) {
    Contains(source, probe) || Contains(probe, source)
  }

  /** Entry `i` is the first entry of the dictionary, in its order, that the probe matches. */
  predicate FirstFuzzyAt(probe: string, lowered: OrderedDict.Dict<string, string>, i: int) {
    && 0 <= i < |lowered| && FuzzyHit(probe, lowered[i].0)
    && forall k :: 0 <= k < i ==> !FuzzyHit(probe, lowered[k].0)
  }

  /** The first lowered source the probe is a substring of, or that is a substring of the probe. */
  function FirstFuzzy(probe: string, lowered: OrderedDict.Dict<string, string>): (r: Option<string>)
    ensures r.Some? ==> exists i :: 0 <= i < |lowered| && lowered[i].1 == r.value
                                   && (Contains(lowered[i].0, probe) || Contains(probe, lowered[i].0))
    ensures r.Some? ==> exists i :: FirstFuzzyAt(probe, lowered, i) && lowered[i].1 == r.value
    ensures r.None? ==> forall i :: 0 <= i < |lowered| ==>
                          !Contains(lowered[i].0, probe) && !Contains(probe, lowered[i].0)
  {
    if |lowered| == 0 then None
    else if Contains(lowered[0].0, probe) || Contains(probe, lowered[0].0) then
      assert FirstFuzzyAt(probe, lowered, 0);
      Some(lowered[0].1)
    else
      var rest := FirstFuzzy(probe, lowered[1..]);
      assert forall i :: 1 <= i < |lowered| ==> lowered[i] == lowered[1..][i - 1];
      if rest.Some? then
        FirstFuzzyShift(probe, lowered, rest.value);
        rest
      else rest
  }

  /** A first match among the later entries, behind a first entry the probe does not match, is
      the first match of the whole dictionary. */
  lemma FirstFuzzyShift(probe: string, lowered: OrderedDict.Dict<string, string>, v: string)
    requires |lowered| > 0 && !FuzzyHit(probe, lowered[0].0)
    requires exists i :: FirstFuzzyAt(probe, lowered[1..], i) && lowered[1..][i].1 == v
    ensures exists i :: FirstFuzzyAt(probe, lowered, i) && lowered[i].1 == v
  {
    var i :| FirstFuzzyAt(probe, lowered[1..], i) && lowered[1..][i].1 == v;
    FuzzyHitShift(probe, lowered, i);
  }

  lemma FuzzyHitShift(probe: string, lowered: OrderedDict.Dict<string, string>, i: int)
    requires |lowered| > 0 && !FuzzyHit(probe, lowered[0].0)
    requires FirstFuzzyAt(probe, lowered[1..], i)
    ensures FirstFuzzyAt(probe, lowered, i + 1) && lowered[i + 1] == lowered[1..][i]
  {
    forall k | 0 <= k < i + 1 ensures !FuzzyHit(probe, lowered[k].0) {
      if k > 0 { assert lowered[k] == lowered[1..][k - 1]; }
    }
  }

  /** The fuzzy pass: one match per citation whose lowered, stripped probe is non-blank. */
  function FuzzyMatches(cited: seq<string>, lowered: OrderedDict.Dict<string, string>): (r: seq<string>)
    ensures forall x :: x in r ==> exists i :: 0 <= i < |lowered| && lowered[i].1 == x
    ensures |r| <= |cited|
    ensures |cited| > 0 ==> |r| >= |FuzzyMatches(cited[1..], lowered)|
  {
    if |cited| == 0 then []
    else FuzzyMatch(cited[0], lowered) + FuzzyMatches(cited[1..], lowered)
  }

  /** The fuzzy pass runs citation by citation: it distributes over concatenation, and one
      citation contributes its own match, if any. */
  lemma FuzzyMatchesAppend(a: seq<string>, b: seq<string>, c: string, lowered: OrderedDict.Dict<string, string>)
    ensures FuzzyMatches(a + b, lowered) == FuzzyMatches(a, lowered) + FuzzyMatches(b, lowered)
    ensures FuzzyMatches([c], lowered) == FuzzyMatch(c, lowered)
    ensures FuzzyMatches([], lowered) == []
  {
    FuzzyMatchesConcat(a, b, lowered);
    FuzzyMatchesUnfold([c], lowered);
    assert [c][1..] == [];
  }

  lemma {:induction false} FuzzyMatchesConcat(a: seq<string>, b: seq<string>, lowered: OrderedDict.Dict<string, string>)
    ensures FuzzyMatches(a + b, lowered) == FuzzyMatches(a, lowered) + FuzzyMatches(b, lowered)
  {
    if |a| == 0 {
      assert a + b == b;
    } else {
      FuzzyMatchesConcat(a[1..], b, lowered);
      FuzzyMatchesConcatStep(a, b, lowered);
    }
  }

  lemma FuzzyMatchesConcatStep(a: seq<string>, b: seq<string>, lowered: OrderedDict.Dict<string, string>)
    requires |a| > 0
    requires FuzzyMatches(a[1..] + b, lowered) == FuzzyMatches(a[1..], lowered) + FuzzyMatches(b, lowered)
    ensures FuzzyMatches(a + b, lowered) == FuzzyMatches(a, lowered) + FuzzyMatches(b, lowered)
  {
    FuzzyMatchesConsConcat(a, b, lowered);
    FuzzyMatchesUnfold(a, lowered);
    ConcatAssoc(FuzzyMatch(a[0], lowered), FuzzyMatches(a[1..], lowered), FuzzyMatches(b, lowered));
  }

  lemma FuzzyMatchesConsConcat(a: seq<string>, b: seq<string>, lowered: OrderedDict.Dict<string, string>)
    requires |a| > 0
    ensures FuzzyMatches(a + b, lowered) == FuzzyMatch(a[0], lowered) + FuzzyMatches(a[1..] + b, lowered)
  {
    assert (a + b)[0] == a[0] && (a + b)[1..] == a[1..] + b;
    FuzzyMatchesUnfold(a + b, lowered);
  }

  /** One step of the fuzzy pass. */
  lemma FuzzyMatchesUnfold(cited: seq<string>, lowered: OrderedDict.Dict<string, string>)
    requires |cited| > 0
    ensures FuzzyMatches(cited, lowered) == FuzzyMatch(cited[0], lowered) + FuzzyMatches(cited[1..], lowered)
  {
  }

  /** One citation's fuzzy match: none for a blank probe or when no source matches, and
      otherwise the original of the first lowered source, in dictionary order, it matches. */
  function FuzzyMatch(citation: string, lowered: OrderedDict.Dict<string, string>): (h: seq<string>)
    ensures |h| <= 1
    ensures forall x :: x in h ==> exists i :: 0 <= i < |lowered| && lowered[i].1 == x
    ensures h == [] <==> Strip(Lower(citation)) == ""
                         || forall i :: 0 <= i < |lowered| ==> !FuzzyHit(Strip(Lower(citation)), lowered[i].0)
    ensures |h| == 1 ==> exists i :: FirstFuzzyAt(Strip(Lower(citation)), lowered, i) && lowered[i].1 == h[0]
  {
    var probe := Strip(Lower(citation));
    if probe == "" then []
    else match FirstFuzzy(probe, lowered)
      case Some(s) => [s]
      case None => []
  }

  /** Keeps the first occurrence of each item, in order. */
  function Dedupe(acc: seq<string>, xs: seq<string>): (r: seq<string>)
    ensures forall x :: x in r <==> x in acc || x in xs
    ensures OrderedDict.Distinct(acc) ==> OrderedDict.Distinct(r)
    ensures acc <= r
    decreases |xs|
  {
    if |xs| == 0 then acc
    else
      var next := if xs[0] in acc then acc else acc + [xs[0]];
      assert OrderedDict.Distinct(acc) ==> OrderedDict.Distinct(next) by {
        if OrderedDict.Distinct(acc) && xs[0] !in acc { OrderedDict.DistinctSnoc(acc, xs[0]); }
      }
      assert forall x :: x in xs <==> x == xs[0] || x in xs[1..];
      Dedupe(next, xs[1..])
  }

  /** Deduplication read from the back: a further item is appended exactly when it has not
      been kept already, so each item is kept at its first occurrence. */
  lemma {:induction false} DedupeSnoc(acc: seq<string>, xs: seq<string>, x: string)
    ensures Dedupe(acc, []) == acc
    ensures Dedupe(acc, xs + [x]) == if x in Dedupe(acc, xs) then Dedupe(acc, xs) else Dedupe(acc, xs) + [x]
    decreases |xs|
  {
    if |xs| == 0 {
      assert xs + [x] == [x] && [x][1..] == [];
    } else {
      var next := if xs[0] in acc then acc else acc + [xs[0]];
      assert (xs + [x])[0] == xs[0] && (xs + [x])[1..] == xs[1..] + [x];
      DedupeSnoc(next, xs[1..], x);
    }
  }

  /** `_resolve_citations`. */
  function ResolveCitations(cited: seq<string>, evidence: seq<string>, fallbackSource: string): (r: seq<string>)
    ensures |evidence| == 0 ==> r == [NoEvidence + " (" + fallbackSource + ")"]
    ensures |evidence| > 0 ==> |r| > 0 && forall x :: x in r ==> x in evidence
    ensures |evidence| > 0 && (exists c :: c in cited && c in evidence) ==> r == ExactMatches(cited, evidence)
    ensures |evidence| > 0 && ExactMatches(cited, evidence) == [] && FuzzyMatches(cited, LoweredSources([], evidence)) != []
            ==> r == Dedupe([], FuzzyMatches(cited, LoweredSources([], evidence)))
  {
    if |evidence| == 0 then [NoEvidence + " (" + fallbackSource + ")"]
    else
      var exact := ExactMatches(cited, evidence);
      ExactMatchesMembers(cited, evidence);
      if |exact| > 0 then exact
      else
        var lowered := LoweredSources([], evidence);
        LoweredSourcesValues([], evidence, evidence);
        var fuzzy := FuzzyMatches(cited, lowered);
        if |fuzzy| > 0 then
          assert fuzzy[0] in fuzzy;
          Dedupe([], fuzzy)
        else [evidence[0]]
  }

  /** Without exact hits the result is the fuzzy matches with repeats removed, so it has no
      repeats; with no fuzzy hit either it is the first evidence string. */
  lemma ResolveFallbacks(cited: seq<string>, evidence: seq<string>, fallbackSource: string)
    requires |evidence| > 0 && forall c :: c in cited ==> c !in evidence
    ensures OrderedDict.Distinct(ResolveCitations(cited, evidence, fallbackSource))
    ensures FuzzyMatches(cited, LoweredSources([], evidence)) != []
            ==> ResolveCitations(cited, evidence, fallbackSource) == Dedupe([], FuzzyMatches(cited, LoweredSources([], evidence)))
    ensures FuzzyMatches(cited, LoweredSources([], evidence)) == []
            ==> ResolveCitations(cited, evidence, fallbackSource) == [evidence[0]]
  {
    var exact := ExactMatches(cited, evidence);
    ExactMatchesMembers(cited, evidence);
    if |exact| > 0 { assert exact[0] in exact; }
  }

  /** Every source's lowered form is a key of the lowered-sources dictionary. */
  lemma {:induction false} LoweredSourcesKeys(acc: OrderedDict.Dict<string, string>, sources: seq<string>, k: string)
    requires OrderedDict.Get(acc, k).Some? || exists s :: s in sources && Lower(s) == k
    ensures OrderedDict.Get(LoweredSources(acc, sources), k).Some?
    decreases |sources|
  {
    if |sources| > 0 {
      var next := OrderedDict.Set(acc, Lower(sources[0]), sources[0]);
      if Lower(sources[0]) != k {
        assert forall s :: s in sources ==> s == sources[0] || s in sources[1..];
      }
      LoweredSourcesKeys(next, sources[1..], k);
    }
  }

  /** A key that is itself the probe is always a fuzzy hit. */
  lemma FirstFuzzyFindsKey(probe: string, lowered: OrderedDict.Dict<string, string>)
    requires OrderedDict.Get(lowered, probe).Some?
    ensures FirstFuzzy(probe, lowered).Some?
  {
    OrderedDict.GetSomeIff(lowered, probe);
    var i :| 0 <= i < |lowered| && OrderedDict.Keys(lowered)[i] == probe;
    OrderedDict.KeysAt(lowered, i);
    ContainsSelf(probe);
  }

  lemma {:induction false} FuzzyNonEmptyAt(cited: seq<string>, lowered: OrderedDict.Dict<string, string>, i: nat)
    requires i < |cited| && Strip(Lower(cited[i])) != ""
    requires FirstFuzzy(Strip(Lower(cited[i])), lowered).Some?
    ensures FuzzyMatches(cited, lowered) != []
    decreases i
  {
    var rest := FuzzyMatches(cited[1..], lowered);
    if i > 0 {
      assert cited[1..][i - 1] == cited[i];
      FuzzyNonEmptyAt(cited[1..], lowered, i - 1);
      assert |FuzzyMatches(cited, lowered)| >= |rest|;
    }
  }

  /** A citation equal to an evidence string up to letter case and surrounding whitespace
      is recovered by the fuzzy pass, so the resolver does not fall back blindly. */
  lemma CaseVariantResolvesFuzzily(cited: seq<string>, evidence: seq<string>, c: string, s: string)
    requires c in cited && s in evidence
    requires Strip(Lower(c)) == Lower(s) && Lower(s) != ""
    ensures FuzzyMatches(cited, LoweredSources([], evidence)) != []
  {
    var lowered := LoweredSources([], evidence);
    LoweredSourcesKeys([], evidence, Lower(s));
    FirstFuzzyFindsKey(Lower(s), lowered);
    var i :| 0 <= i < |cited| && cited[i] == c;
    FuzzyNonEmptyAt(cited, lowered, i);
  }

  // ---------------------------------------------------------------------------
  // Salvaging a failed structured-output call

  /** Lowest index holding `c`. */
  function FirstIndexOf(s: string, c: char): (r: Option<nat>)
    ensures r.Some? ==> r.value < |s| && s[r.value] == c && forall k :: 0 <= k < r.value ==> s[k] != c
    ensures r.None? ==> forall k :: 0 <= k < |s| ==> s[k] != c
  {
    if |s| == 0 then None
    else if s[0] == c then Some(0)
    else match FirstIndexOf(s[1..], c)
      case Some(i) => Some(i + 1)
      case None => None
  }

  /** Highest index holding `c`. */
  function LastIndexOf(s: string, c: char): (r: Option<nat>)
    ensures r.Some? ==> r.value < |s| && s[r.value] == c && forall k :: r.value < k < |s| ==> s[k] != c
    ensures r.None? ==> forall k :: 0 <= k < |s| ==> s[k] != c
  {
    if |s| == 0 then None
    else if s[|s| - 1] == c then Some(|s| - 1)
    else LastIndexOf(s[..|s| - 1], c)
  }

  /** Some `{` has a `}` after it: the pattern `\{[\s\S]*\}` has a match. */
  predicate HasBraceSpan(s: string) {
    exists i, j :: 0 <= i < j < |s| && s[i] == '{' && s[j] == '}'
  }

  /** The first `{` comes before the last `}`. */
  predicate BraceEnds(raw: string) {
    var a, b := FirstIndexOf(raw, '{'), LastIndexOf(raw, '}');
    a.Some? && b.Some? && a.value < b.value
  }

  /** The pattern matches exactly when the first `{` comes before the last `}`. */
  lemma BraceEndsIff(raw: string)
    ensures BraceEnds(raw) <==> HasBraceSpan(raw)
  {
    if BraceEnds(raw) {
      var a, b := FirstIndexOf(raw, '{').value, LastIndexOf(raw, '}').value;
      assert raw[a] == '{' && raw[b] == '}';
    }
    if HasBraceSpan(raw) {
      var i, j :| 0 <= i < j < |raw| && raw[i] == '{' && raw[j] == '}';
      FirstIndexAtMost(raw, '{', i);
      LastIndexAtLeast(raw, '}', j);
    }
  }

  /** `_force_json_extraction`: the greedy match runs from the first `{` to the last `}`; it
      starts and ends with a brace, so the trailing `.strip().strip("`")` leaves it unchanged. */
  function ForceJsonExtraction(raw: string): (r: string)
    ensures !BraceEnds(raw) ==> r == Strip(raw)
    ensures BraceEnds(raw) ==>
              && r == raw[FirstIndexOf(raw, '{').value..LastIndexOf(raw, '}').value + 1]
              && |r| >= 2 && r[0] == '{' && r[|r| - 1] == '}'
  {
    match (FirstIndexOf(raw, '{'), LastIndexOf(raw, '}'))
    case (Some(a), Some(b)) =>
      if a < b then raw[a..b + 1] else Strip(raw)
    case _ => Strip(raw)
  }

  /** Without a `{` followed by a `}` the pattern does not match and the input is only stripped. */
  lemma ForceJsonWithoutSpan(raw: string)
    requires !HasBraceSpan(raw)
    ensures ForceJsonExtraction(raw) == Strip(raw)
  {
    BraceEndsIff(raw);
  }

  /** The extracted span is the largest one: every brace-delimited span lies inside it. */
  lemma ForceJsonCoversEverySpan(raw: string, i: nat, j: nat)
    requires i < j < |raw| && raw[i] == '{' && raw[j] == '}'
    ensures FirstIndexOf(raw, '{').Some? && LastIndexOf(raw, '}').Some?
    ensures FirstIndexOf(raw, '{').value <= i && j <= LastIndexOf(raw, '}').value
    ensures ForceJsonExtraction(raw) == raw[FirstIndexOf(raw, '{').value..LastIndexOf(raw, '}').value + 1]
  {
    BraceSpanWithin(raw, i, j);
    ForceJsonOnSpan(raw);
  }

  lemma ForceJsonOnSpan(raw: string)
    requires BraceEnds(raw)
    ensures ForceJsonExtraction(raw) == raw[FirstIndexOf(raw, '{').value..LastIndexOf(raw, '}').value + 1]
  {
  }

  /** A `{` before a `}` lies within the span from the first `{` to the last `}`. */
  lemma BraceSpanWithin(raw: string, i: nat, j: nat)
    requires i < j < |raw| && raw[i] == '{' && raw[j] == '}'
    ensures BraceEnds(raw)
    ensures FirstIndexOf(raw, '{').value <= i && j <= LastIndexOf(raw, '}').value
  {
    FirstIndexAtMost(raw, '{', i);
    LastIndexAtLeast(raw, '}', j);
  }

  lemma FirstIndexAtMost(s: string, c: char, i: nat)
    requires i < |s| && s[i] == c
    ensures FirstIndexOf(s, c).Some? && FirstIndexOf(s, c).value <= i
  {
  }

  lemma LastIndexAtLeast(s: string, c: char, j: nat)
    requires j < |s| && s[j] == c
    ensures LastIndexOf(s, c).Some? && j <= LastIndexOf(s, c).value
  {
  }

  // ---------------------------------------------------------------------------
  // Context truncation

  const TruncationMarker := " ...[TRUNCATED]... "
  const MaxContextChars: nat := 2000

  /** `_truncate_evidence_context` applied to the JSON text of the evidence strings. */
  function TruncateEvidenceContext(payload: string): (r: string)
    ensures |r| <= MaxContextChars + |TruncationMarker| && |TruncationMarker| == 19
    ensures |payload| <= MaxContextChars ==> r == payload
    ensures |payload| > MaxContextChars ==>
              |r| == 2019 && r[..1000] == payload[..1000] && EndsWith(r, payload[|payload| - 1000..])
    ensures |payload| > MaxContextChars ==> r[1000..1019] == TruncationMarker
  {
    if |payload| <= MaxContextChars then payload
    else Take(payload, 1000) + TruncationMarker + TakeLast(payload, 1000)
  }

  /** Truncating twice is truncating once: the second pass keeps the same head and tail. */
  lemma TruncationIdempotent(payload: string)
    ensures TruncateEvidenceContext(TruncateEvidenceContext(payload)) == TruncateEvidenceContext(payload)
  {
    if |payload| > MaxContextChars {
      var t := TruncateEvidenceContext(payload);
      var tail := payload[|payload| - 1000..];
      assert t == payload[..1000] + TruncationMarker + tail;
      assert t[..1000] == payload[..1000];
      assert t[|t| - 1000..] == tail;
    }
  }

  // ---------------------------------------------------------------------------
  // The attempt and restart policy

  datatype PromptKind = OriginalPrompt | SimplifiedPrompt

  /** Attempts 0 and 1 use the original prompt, attempt 2 the simplified one. */
  function PromptFor(attempt: nat): PromptKind {
    if attempt < 2 then OriginalPrompt else SimplifiedPrompt
  }

  const MaxAttempts: nat := 3

  /** The prompts of `n` attempts in a row, starting at attempt `from`. */
  function PromptsFrom(from: nat, n: nat): (ps: seq<PromptKind>)
    ensures |ps| == n
    decreases n
  {
    if n == 0 then [] else [PromptFor(from)] + PromptsFrom(from + 1, n - 1)
  }

  lemma {:induction false} PromptsFromAt(from: nat, n: nat, k: nat)
    requires k < n
    ensures PromptsFrom(from, n)[k] == PromptFor(from + k)
    decreases n
  {
    if k > 0 {
      PromptsFromAt(from + 1, n - 1, k - 1);
    }
  }

  /** What one structured-output call did: returned a schema-valid opinion, returned nothing,
      or raised. For a raised call, `parseHint` is the "Failed to call a function" /
      OutputParserException test, `failedText` what `_extract_failed_generation_text` yields,
      `message` is `str(error)`, and `rateLimited` the status-429 / RateLimitError test. */
  datatype CallOutcome =
    | Answer(opinion: ValidJudicialOpinion)
    | NoAnswer
    | Failure(parseHint: bool, failedText: string, message: string, rateLimited: bool)

  /** The model, as the outcome of the n-th call of the run with the given prompt. */
  type Model = (nat, PromptKind) -> CallOutcome

  /** `JudicialOpinion.model_validate_json`, as an oracle on the cleaned text. */
  type JsonParser = string -> Option<ValidJudicialOpinion>

  /** What `_manual_parse_judicial_opinion` recovers from a call: only a raised call with the
      parse hint is tried, on its failed generation cut down to the JSON object. */
  function Salvage(parse: JsonParser, o: CallOutcome): Option<ValidJudicialOpinion> {
    if o.Failure? && o.parseHint then parse(ForceJsonExtraction(o.failedText)) else None
  }

  /** The opinion an outcome hands to the loop: the answer itself, or a salvaged one. */
  function Obtained(parse: JsonParser, o: CallOutcome): Option<ValidJudicialOpinion> {
    if o.Answer? then Some(o.opinion) else Salvage(parse, o)
  }

  /** The loop moves on to the next attempt: the call raised, nothing was salvaged, and it is
      not a rate limit that restarts the node. */
  predicate Continues(parse: JsonParser, o: CallOutcome, canRestart: bool) {
    o.Failure? && Salvage(parse, o).None? && !(o.rateLimited && canRestart)
  }

  /** The outcome of the `k`-th call of a loop that starts at call `call` and attempt `attempt`. */
  function OutcomeAt(model: Model, call: nat, attempt: nat, k: nat): CallOutcome {
    model(call + k, PromptFor(attempt + k))
  }

  /** The message a raised call leaves in `last_error`. */
  function MessageOf(o: CallOutcome): Option<string> {
    if o.Failure? then Some(o.message) else None
  }

  lemma OutcomeShift(model: Model, call: nat, attempt: nat, m: nat)
    ensures m > 0 ==> OutcomeAt(model, call, attempt, m) == OutcomeAt(model, call + 1, attempt + 1, m - 1)
  {
  }

  /** How the loop ended: with an opinion, after the last attempt, on an empty reply (both of
      these re-raise the last error, if any), or by asking for a restart of the node. */
  datatype AttemptResult =
    | Got(opinion: ValidJudicialOpinion)
    | Exhausted(lastError: Option<string>)
    | NoResponse(lastError: Option<string>)
    | RestartRequested

  /** How one call that does not move the loop on ends it: with the answer, with the salvaged
      opinion, on an empty reply (keeping the error so far), or with a restart request. */
  function StopResult(parse: JsonParser, o: CallOutcome, canRestart: bool,
                      lastError: Option<string>): (r: AttemptResult)
    requires !Continues(parse, o, canRestart)
    ensures !r.Exhausted?
    ensures r.Got? <==> Obtained(parse, o).Some?
    ensures r.Got? ==> Obtained(parse, o) == Some(r.opinion)
    ensures r.NoResponse? <==> o.NoAnswer?
    ensures r.NoResponse? ==> r.lastError == lastError
    ensures r.RestartRequested? ==> canRestart && o.Failure? && o.rateLimited && Salvage(parse, o).None?
  {
    match o
    case Answer(op) => Got(op)
    case NoAnswer => NoResponse(lastError)
    case Failure(_, _, _, _) =>
      var salvaged := Salvage(parse, o);
      if salvaged.Some? then Got(salvaged.value) else RestartRequested
  }

  /** The attempt loop for one criterion, from `attempt` on; `call` numbers the calls. */
  datatype AttemptRun = AttemptRun(result: AttemptResult, prompts: seq<PromptKind>)

  /** The call that ended a run accounts for its result: an opinion is what that call
      obtained, no response is a call that answered nothing, and a restart is an unsalvaged
      rate limit while a restart is still allowed. */
  predicate StoppedBy(parse: JsonParser, r: AttemptResult, o: CallOutcome, canRestart: bool) {
    && (r.Got? ==> Obtained(parse, o) == Some(r.opinion))
    && (r.NoResponse? ==> o.NoAnswer?)
    && (r.RestartRequested? ==> canRestart && o.Failure? && o.rateLimited && Salvage(parse, o).None?)
  }

  function Attempts(model: Model, parse: JsonParser, call: nat, attempt: nat, canRestart: bool,
                    lastError: Option<string>): (run: AttemptRun)
    requires attempt <= MaxAttempts
    ensures |run.prompts| <= MaxAttempts - attempt
    ensures run.prompts == PromptsFrom(attempt, |run.prompts|)
    ensures !run.result.Exhausted? ==> |run.prompts| > 0
    ensures run.result.Exhausted? ==> |run.prompts| == MaxAttempts - attempt
    ensures !run.result.Exhausted? ==>
              StoppedBy(parse, run.result, OutcomeAt(model, call, attempt, |run.prompts| - 1), canRestart)
    decreases MaxAttempts - attempt
  {
    if attempt == MaxAttempts then AttemptRun(Exhausted(lastError), [])
    else
      var o := OutcomeAt(model, call, attempt, 0);
      if Continues(parse, o, canRestart) then
        var rest := Attempts(model, parse, call + 1, attempt + 1, canRestart, MessageOf(o));
        OutcomeShift(model, call, attempt, |rest.prompts|);
        AttemptRun(rest.result, [PromptFor(attempt)] + rest.prompts)
      else AttemptRun(StopResult(parse, o, canRestart, lastError), [PromptFor(attempt)])
  }

  /** `last_error` after the first `n` calls of a loop that all raised. */
  function LastRaised(model: Model, call: nat, attempt: nat, n: nat, lastError: Option<string>): Option<string> {
    if n > 0 then MessageOf(OutcomeAt(model, call, attempt, n - 1)) else lastError
  }

  /** The trace behind a run: every call but the last moved the loop on, and an exhausted
      loop ended on a call that moved it on too. */
  lemma {:induction false} AttemptsTrace(model: Model, parse: JsonParser, call: nat, attempt: nat, canRestart: bool,
                                         lastError: Option<string>)
    requires attempt <= MaxAttempts
    ensures var run := Attempts(model, parse, call, attempt, canRestart, lastError);
            forall k :: 0 <= k < |run.prompts| - 1 ==> Continues(parse, OutcomeAt(model, call, attempt, k), canRestart)
    decreases MaxAttempts - attempt
  {
    if attempt < MaxAttempts {
      var o := OutcomeAt(model, call, attempt, 0);
      AttemptsUnfold(model, parse, call, attempt, canRestart, lastError);
      if Continues(parse, o, canRestart) {
        AttemptsTrace(model, parse, call + 1, attempt + 1, canRestart, MessageOf(o));
        var rest := Attempts(model, parse, call + 1, attempt + 1, canRestart, MessageOf(o));
        forall k | 0 < k < |rest.prompts|
          ensures OutcomeAt(model, call, attempt, k) == OutcomeAt(model, call + 1, attempt + 1, k - 1)
        {
        }
      }
    }
  }

  lemma {:induction false} ExhaustedTrace(model: Model, parse: JsonParser, call: nat, attempt: nat, canRestart: bool,
                                          lastError: Option<string>)
    requires attempt <= MaxAttempts
    ensures var run := Attempts(model, parse, call, attempt, canRestart, lastError);
            run.result.Exhausted? && |run.prompts| > 0 ==>
              Continues(parse, OutcomeAt(model, call, attempt, |run.prompts| - 1), canRestart)
    decreases MaxAttempts - attempt
  {
    if attempt < MaxAttempts {
      var o := OutcomeAt(model, call, attempt, 0);
      AttemptsUnfold(model, parse, call, attempt, canRestart, lastError);
      if Continues(parse, o, canRestart) {
        ExhaustedTrace(model, parse, call + 1, attempt + 1, canRestart, MessageOf(o));
        var rest := Attempts(model, parse, call + 1, attempt + 1, canRestart, MessageOf(o));
        OutcomeShift(model, call, attempt, |rest.prompts|);
      }
    }
  }

  /** An exhausted run re-raises the message of its last call. */
  lemma {:induction false} ExhaustedError(model: Model, parse: JsonParser, call: nat, attempt: nat, canRestart: bool,
                                          lastError: Option<string>)
    requires attempt <= MaxAttempts
    ensures var run := Attempts(model, parse, call, attempt, canRestart, lastError);
            run.result.Exhausted? ==> run.result.lastError == LastRaised(model, call, attempt, |run.prompts|, lastError)
    decreases MaxAttempts - attempt
  {
    if attempt < MaxAttempts {
      var o := OutcomeAt(model, call, attempt, 0);
      AttemptsUnfold(model, parse, call, attempt, canRestart, lastError);
      if Continues(parse, o, canRestart) {
        ExhaustedError(model, parse, call + 1, attempt + 1, canRestart, MessageOf(o));
        var rest := Attempts(model, parse, call + 1, attempt + 1, canRestart, MessageOf(o));
        LastRaisedShift(model, call, attempt, |rest.prompts|, lastError);
      }
    }
  }

  /** A run ended by an empty reply re-raises the message of the call before it, if any. */
  lemma {:induction false} NoResponseError(model: Model, parse: JsonParser, call: nat, attempt: nat, canRestart: bool,
                                           lastError: Option<string>)
    requires attempt <= MaxAttempts
    ensures var run := Attempts(model, parse, call, attempt, canRestart, lastError);
            run.result.NoResponse? ==> run.result.lastError == LastRaised(model, call, attempt, |run.prompts| - 1, lastError)
    decreases MaxAttempts - attempt
  {
    if attempt < MaxAttempts {
      var o := OutcomeAt(model, call, attempt, 0);
      AttemptsUnfold(model, parse, call, attempt, canRestart, lastError);
      if Continues(parse, o, canRestart) {
        NoResponseError(model, parse, call + 1, attempt + 1, canRestart, MessageOf(o));
        var rest := Attempts(model, parse, call + 1, attempt + 1, canRestart, MessageOf(o));
        if |rest.prompts| > 0 {
          LastRaisedShift(model, call, attempt, |rest.prompts| - 1, lastError);
        }
      }
    }
  }

  lemma LastRaisedShift(model: Model, call: nat, attempt: nat, m: nat, lastError: Option<string>)
    ensures LastRaised(model, call + 1, attempt + 1, m, MessageOf(OutcomeAt(model, call, attempt, 0)))
            == LastRaised(model, call, attempt, m + 1, lastError)
  {
    if m > 0 {
      assert OutcomeAt(model, call + 1, attempt + 1, m - 1) == OutcomeAt(model, call, attempt, m);
    }
  }

  /** One turn of the loop: a call that moves it on prepends its prompt to the rest of the
      run, any other call ends the run. */
  lemma AttemptsUnfold(model: Model, parse: JsonParser, call: nat, attempt: nat, canRestart: bool,
                       lastError: Option<string>)
    requires attempt < MaxAttempts
    ensures var o := OutcomeAt(model, call, attempt, 0);
            var run := Attempts(model, parse, call, attempt, canRestart, lastError);
            Continues(parse, o, canRestart) ==>
              var rest := Attempts(model, parse, call + 1, attempt + 1, canRestart, MessageOf(o));
              run == AttemptRun(rest.result, [PromptFor(attempt)] + rest.prompts)
    ensures var o := OutcomeAt(model, call, attempt, 0);
            !Continues(parse, o, canRestart) ==>
              Attempts(model, parse, call, attempt, canRestart, lastError)
              == AttemptRun(StopResult(parse, o, canRestart, lastError), [PromptFor(attempt)])
  {
  }

  /** The loop keeps the first opinion obtained: when every earlier call moved it on and call
      `j` yields an opinion, the run ends there with that opinion. */
  lemma FirstObtainedWins(model: Model, parse: JsonParser, call: nat, attempt: nat, canRestart: bool,
                          lastError: Option<string>, j: nat)
    requires attempt + j < MaxAttempts
    requires forall k :: 0 <= k < j ==> Continues(parse, OutcomeAt(model, call, attempt, k), canRestart)
    requires Obtained(parse, OutcomeAt(model, call, attempt, j)).Some?
    ensures var run := Attempts(model, parse, call, attempt, canRestart, lastError);
            run.result == Got(Obtained(parse, OutcomeAt(model, call, attempt, j)).value) && |run.prompts| == j + 1
  {
    AttemptsTrace(model, parse, call, attempt, canRestart, lastError);
    ExhaustedTrace(model, parse, call, attempt, canRestart, lastError);
    var n := |Attempts(model, parse, call, attempt, canRestart, lastError).prompts|;
    assert j < n - 1 ==> Continues(parse, OutcomeAt(model, call, attempt, j), canRestart);
    assert 0 <= n - 1 < j ==> Continues(parse, OutcomeAt(model, call, attempt, n - 1), canRestart);
  }

  /** An answer to the first call of the loop is taken at once. */
  lemma FirstAnswerTaken(model: Model, parse: JsonParser, call: nat, attempt: nat, canRestart: bool,
                         lastError: Option<string>)
    requires attempt < MaxAttempts && model(call, PromptFor(attempt)).Answer?
    ensures Attempts(model, parse, call, attempt, canRestart, lastError)
            == AttemptRun(Got(model(call, PromptFor(attempt)).opinion), [PromptFor(attempt)])
  {
    assert OutcomeAt(model, call, attempt, 0) == model(call, PromptFor(attempt));
    FirstObtainedWins(model, parse, call, attempt, canRestart, lastError, 0);
  }

  /** A criterion never costs more than three calls, and the prompts used are a prefix of
      original, original, simplified. */
  lemma AttemptPromptsPrefix(model: Model, parse: JsonParser, call: nat, canRestart: bool)
    ensures var run := Attempts(model, parse, call, 0, canRestart, None);
            run.prompts <= [OriginalPrompt, OriginalPrompt, SimplifiedPrompt]
  {
  }

  /** Failures that are neither salvageable nor a usable rate limit use all three attempts. */
  lemma PlainFailuresExhaust(model: Model, parse: JsonParser, call: nat, attempt: nat, lastError: Option<string>)
    requires attempt <= MaxAttempts
    requires forall n, p :: model(n, p).Failure? && !model(n, p).parseHint && !model(n, p).rateLimited
    ensures Attempts(model, parse, call, attempt, true, lastError).result.Exhausted?
    ensures |Attempts(model, parse, call, attempt, true, lastError).prompts| == MaxAttempts - attempt
    decreases MaxAttempts - attempt
  {
    if attempt < MaxAttempts {
      PlainFailuresExhaust(model, parse, call + 1, attempt + 1, Some(model(call, PromptFor(attempt)).message));
    }
  }

  /** How one judge run ended. */
  datatype JudgeError = RubricUnavailable | CallFailed(message: string) | NoRecoverableResponse

  function ErrorText(e: JudgeError): string {
    match e
    case RubricUnavailable => "rubric.json not found"
    case CallFailed(message) => message
    case NoRecoverableResponse => "Judge invocation failed without a recoverable response"
  }

  /** `raise last_error`, or the RuntimeError when no call raised. */
  function RaisedError(lastError: Option<string>): JudgeError {
    match lastError
    case Some(m) => CallFailed(m)
    case None => NoRecoverableResponse
  }

  /** The result of the dimension loop. */
  datatype LoopResult =
    | Finished(opinions: seq<JudicialOpinion>)
    | Raised(error: JudgeError)
    | Restarted(nextCall: nat)

  /** The opinion as stored: the node's label, the dimension's id, resolved citations. */
  function Normalize(op: JudicialOpinion, judge: Judge, dim: RubricDimension,
                     evidence: seq<string>): (r: JudicialOpinion)
    requires |evidence| > 0
    ensures r.judge == judge && r.criterionId == DimensionId(dim)
    ensures r.score == op.score && r.argument == op.argument
    ensures |r.citedEvidence| > 0 && forall c :: c in r.citedEvidence ==> c in evidence
  {
    var cited := ResolveCitations(op.citedEvidence, evidence, dim.targetArtifact.GetOr("Source"));
    JudicialOpinion(judge, DimensionId(dim), op.score, op.argument, cited)
  }

  /** The shape `Normalize` guarantees. */
  predicate Normalized(o: JudicialOpinion, judge: Judge, dim: RubricDimension, evidence: seq<string>) {
    && o.judge == judge && o.criterionId == DimensionId(dim)
    && |o.citedEvidence| > 0 && (forall c :: c in o.citedEvidence ==> c in evidence)
  }

  /** One criterion: the attempt loop, then normalisation of what it obtained. */
  datatype Step =
    | Judged(opinion: JudicialOpinion, calls: nat)
    | StepRaised(error: JudgeError)
    | StepRestart(calls: nat)

  function JudgeOne(dim: RubricDimension, judge: Judge, evidence: seq<string>, model: Model,
                    parse: JsonParser, call: nat, canRestart: bool): (st: Step)
    requires |evidence| > 0
    ensures st.Judged? ==> Normalized(st.opinion, judge, dim, evidence) && ValidOpinion(st.opinion)
    ensures st.StepRestart? ==> canRestart
  {
    var run := Attempts(model, parse, call, 0, canRestart, None);
    match run.result
    case RestartRequested => StepRestart(|run.prompts|)
    case Exhausted(e) => StepRaised(RaisedError(e))
    case NoResponse(e) => StepRaised(RaisedError(e))
    case Got(op) => Judged(Normalize(op, judge, dim, evidence), |run.prompts|)
  }

  /** A model that always answers gets each criterion judged on the first call. */
  lemma AnsweringStep(dim: RubricDimension, judge: Judge, evidence: seq<string>, model: Model,
                      parse: JsonParser, call: nat, canRestart: bool)
    requires |evidence| > 0
    requires forall n, p :: model(n, p).Answer?
    ensures JudgeOne(dim, judge, evidence, model, parse, call, canRestart)
            == Judged(Normalize(model(call, PromptFor(0)).opinion, judge, dim, evidence), 1)
  {
    FirstAnswerTaken(model, parse, call, 0, canRestart, None);
  }

  /** A criterion is judged exactly when the loop obtained an opinion, and otherwise the
      error raised is the loop's last error, or the RuntimeError when no call raised. */
  lemma JudgeOneReflectsAttempts(dim: RubricDimension, judge: Judge, evidence: seq<string>, model: Model,
                                 parse: JsonParser, call: nat, canRestart: bool)
    requires |evidence| > 0
    ensures var run := Attempts(model, parse, call, 0, canRestart, None);
            var st := JudgeOne(dim, judge, evidence, model, parse, call, canRestart);
            && (st.Judged? <==> run.result.Got?)
            && (st.Judged? ==> st.opinion.score == run.result.opinion.score && st.calls == |run.prompts|)
            && (st.StepRaised? <==> run.result.Exhausted? || run.result.NoResponse?)
            && (st.StepRaised? ==> st.error == RaisedError(run.result.lastError))
  {
  }

  /** Three plain failures re-raise the third call's own message, not its failed generation. */
  lemma PlainFailuresReraiseLastMessage(dim: RubricDimension, judge: Judge, evidence: seq<string>, model: Model,
                                        parse: JsonParser, call: nat)
    requires |evidence| > 0
    requires forall n, p :: model(n, p).Failure? && !model(n, p).parseHint && !model(n, p).rateLimited
    ensures JudgeOne(dim, judge, evidence, model, parse, call, true)
            == StepRaised(CallFailed(model(call + 2, SimplifiedPrompt).message))
  {
    PlainFailuresExhaust(model, parse, call, 0, None);
    ExhaustedError(model, parse, call, 0, true, None);
    JudgeOneReflectsAttempts(dim, judge, evidence, model, parse, call, true);
    assert OutcomeAt(model, call, 0, 2) == model(call + 2, SimplifiedPrompt);
  }

  /** The dimension loop of `_run_judge` from dimension `i` on, with `call` calls made so far. */
  function JudgeDimensions(dims: seq<RubricDimension>, i: nat, judge: Judge, evidence: seq<string>,
                           model: Model, parse: JsonParser, call: nat, canRestart: bool,
                           acc: seq<JudicialOpinion>): (r: LoopResult)
    requires i <= |dims| && |evidence| > 0
    requires |acc| == i
    ensures r.Finished? ==> |r.opinions| == |dims|
    ensures r.Finished? ==>
              forall k :: i <= k < |dims| ==> Normalized(r.opinions[k], judge, dims[k], evidence) && ValidOpinion(r.opinions[k])
    ensures r.Finished? ==> acc <= r.opinions
    ensures r.Restarted? ==> canRestart
    decreases |dims| - i
  {
    if i == |dims| then Finished(acc)
    else
      var st := JudgeOne(dims[i], judge, evidence, model, parse, call, canRestart);
      if st.StepRestart? then Restarted(call + st.calls)
      else if st.StepRaised? then Raised(st.error)
      else JudgeDimensions(dims, i + 1, judge, evidence, model, parse, call + st.calls, canRestart, acc + [st.opinion])
  }

  /** The evidence strings the judges see, or the placeholder when there are none. */
  function JudgeEvidence(evs: EvidenceDict): (evidence: seq<string>)
    ensures |evidence| > 0
  {
    var extracted := ExtractEvidenceStrings(evs, EvidenceLimit);
    if |extracted| == 0 then [NoEvidence] else extracted
  }

  /** The single opinion a judge emits when anything escapes its run. */
  function FallbackOpinion(judge: Judge, e: JudgeError): JudicialOpinion {
    JudicialOpinion(judge, "judicial_runtime_error", 1,
                    JudgeLabel(judge) + " could not complete judicial analysis: " + ErrorText(e), [NoEvidence])
  }

  datatype JudgeRun = JudgeRun(update: Update, restarts: nat)

  function FailedRun(judge: Judge, e: JudgeError): JudgeRun {
    JudgeRun(Update(None, None, None, [], [FallbackOpinion(judge, e)], [JudgeFailed(judge, ErrorText(e))]), 0)
  }

  /** `_run_judge`: `rubric` is None when `rubric.json` is missing; `retryCount` is
      `emergency_retry_count` and `call` the number of model calls already made. */
  function RunJudge(evs: EvidenceDict, rubric: Option<seq<RubricDimension>>, judge: Judge,
                    model: Model, parse: JsonParser, retryCount: nat, call: nat): (out: JudgeRun)
    requires retryCount <= 1
    ensures out.restarts + retryCount <= 1
    ensures out.update.repoPath.None? && out.update.pdfPath.None? && out.update.rubricDimensions.None?
    ensures out.update.evidences == [] && |out.update.messages| == 1
    ensures forall o :: o in out.update.opinions ==> o.judge == judge && ValidOpinion(o)
    ensures out.update.messages[0].JudgeCompleted? ==>
              && rubric.Some?
              && out.update.messages[0] == JudgeCompleted(judge, |rubric.value|)
              && |out.update.opinions| == |rubric.value|
              && forall k :: 0 <= k < |rubric.value| ==>
                   out.update.opinions[k].criterionId == DimensionId(rubric.value[k])
                   && |out.update.opinions[k].citedEvidence| > 0
    ensures !out.update.messages[0].JudgeCompleted? ==>
              && out.update.messages[0].JudgeFailed?
              && |out.update.opinions| == 1
              && out.update.opinions[0].criterionId == "judicial_runtime_error"
              && out.update.opinions[0].score == 1
              && out.update.opinions[0].citedEvidence == [NoEvidence]
    ensures rubric.None? ==> out == FailedRun(judge, RubricUnavailable)
    decreases 1 - retryCount
  {
    match rubric
    case None => FailedRun(judge, RubricUnavailable)
    case Some(dims) =>
      var evidence := JudgeEvidence(evs);
      match JudgeDimensions(dims, 0, judge, evidence, model, parse, call, retryCount < 1, [])
      case Finished(ops) =>
        JudgeRun(Update(None, None, None, [], ops, [JudgeCompleted(judge, |ops|)]), 0)
      case Raised(e) => FailedRun(judge, e)
      case Restarted(next) =>
        var again := RunJudge(evs, rubric, judge, model, parse, retryCount + 1, next);
        JudgeRun(again.update, again.restarts + 1)
  }

  /** A model that only ever reports rate limits makes the judge restart exactly once and
      then give up with the fallback opinion. */
  lemma RateLimitRestartsOnce(evs: EvidenceDict, dims: seq<RubricDimension>, judge: Judge,
                              model: Model, parse: JsonParser, call: nat)
    requires |dims| > 0
    requires forall n, p :: model(n, p).Failure? && !model(n, p).parseHint && model(n, p).rateLimited
    ensures RunJudge(evs, Some(dims), judge, model, parse, 0, call).restarts == 1
    ensures RunJudge(evs, Some(dims), judge, model, parse, 0, call).update.messages[0].JudgeFailed?
  {
    var first := Attempts(model, parse, call, 0, true, None);
    assert first.result == RestartRequested;
    NoRestartRateLimitsExhaust(model, parse, call + 1, 0, None);
  }

  lemma NoRestartRateLimitsExhaust(model: Model, parse: JsonParser, call: nat, attempt: nat, lastError: Option<string>)
    requires attempt <= MaxAttempts
    requires forall n, p :: model(n, p).Failure? && !model(n, p).parseHint
    ensures Attempts(model, parse, call, attempt, false, lastError).result.Exhausted?
    decreases MaxAttempts - attempt
  {
    if attempt < MaxAttempts {
      NoRestartRateLimitsExhaust(model, parse, call + 1, attempt + 1, Some(model(call, PromptFor(attempt)).message));
    }
  }

  /** When every call answers, no fallback is emitted: the judge completes every dimension. */
  lemma AnsweringModelCompletes(evs: EvidenceDict, dims: seq<RubricDimension>, judge: Judge,
                                model: Model, parse: JsonParser, call: nat)
    requires forall n, p :: model(n, p).Answer?
    ensures RunJudge(evs, Some(dims), judge, model, parse, 0, call).update.messages == [JudgeCompleted(judge, |dims|)]
  {
    AnsweringDimensions(dims, 0, judge, JudgeEvidence(evs), model, parse, call, true, []);
  }

  lemma {:induction false} AnsweringDimensions(dims: seq<RubricDimension>, i: nat, judge: Judge, evidence: seq<string>,
                                               model: Model, parse: JsonParser, call: nat, canRestart: bool,
                                               acc: seq<JudicialOpinion>)
    requires i <= |dims| && |evidence| > 0
    requires |acc| == i
    requires forall n, p :: model(n, p).Answer?
    ensures JudgeDimensions(dims, i, judge, evidence, model, parse, call, canRestart, acc).Finished?
    decreases |dims| - i
  {
    if i < |dims| {
      var o := Normalize(model(call, PromptFor(0)).opinion, judge, dims[i], evidence);
      assert JudgeDimensions(dims, i, judge, evidence, model, parse, call, canRestart, acc)
             == JudgeDimensions(dims, i + 1, judge, evidence, model, parse, call + 1, canRestart, acc + [o]) by {
        AnsweringStep(dims[i], judge, evidence, model, parse, call, canRestart);
        DimensionsStep(dims, i, judge, evidence, model, parse, call, canRestart, acc);
      }
      AnsweringDimensions(dims, i + 1, judge, evidence, model, parse, call + 1, canRestart, acc + [o]);
    }
  }

  /** A judged criterion moves the dimension loop on to the next one. */
  lemma DimensionsStep(dims: seq<RubricDimension>, i: nat, judge: Judge, evidence: seq<string>,
                       model: Model, parse: JsonParser, call: nat, canRestart: bool,
                       acc: seq<JudicialOpinion>)
    requires i < |dims| && |evidence| > 0
    requires |acc| == i
    requires JudgeOne(dims[i], judge, evidence, model, parse, call, canRestart).Judged?
    ensures var st := JudgeOne(dims[i], judge, evidence, model, parse, call, canRestart);
            JudgeDimensions(dims, i, judge, evidence, model, parse, call, canRestart, acc)
            == JudgeDimensions(dims, i + 1, judge, evidence, model, parse, call + st.calls, canRestart, acc + [st.opinion])
  {
  }
}

=== FILE: justice.dfy ===
/**
 The chief justice's deterministic scoring engine: the evidence catalog,
 citation validation and discounting, per-criterion aggregation (weighted or
 plain mean over the judges present), the Prosecutor security cap, dissent
 detection, Python's round-half-to-even, clamping, the overall mean and the
 grade band. The summary call to the language model is an opaque response.
 */
module Justice {
  import opened Common
  import opened Strings
  import opened State
  import OrderedDict

  const SecurityKeywords: seq<string> := ["security", "os.system", "shell=true", "vulnerability"]
  const WeightedCriteria: set<string> := {"graph_orchestration", "state_management_rigor"}

  /** An opinion after the evidence rule: its effective score and whether it was discounted. */
  datatype JudgeRecord = JudgeRecord(
    judge: Judge,
    score: int,
    argument: string,
    citedEvidence: seq<string>,
    effectiveScore: real,
    discounted: bool)

  // ---------------------------------------------------------------------------
  // Evidence catalog

  /** The fields of one Evidence that the catalog reads, in the order it reads them. */
  function EvidenceTexts(e: Evidence): seq<string> {
    [e.goal, e.location] + (if e.content.TextContent? then [e.content.text] else [])
  }

  /** The goal, location and string content of every item of a bucket, in order. */
  function BucketTexts(items: seq<Evidence>): (ts: seq<string>)
    ensures forall t :: t in ts <==> exists i :: 0 <= i < |items| && t in EvidenceTexts(items[i])
  {
    if |items| == 0 then []
    else
      var rest := BucketTexts(items[1..]);
      assert forall i :: 1 <= i < |items| ==> items[i] == items[1..][i - 1];
      assert forall i :: 0 <= i < |items[1..]| ==> items[1..][i] == items[i + 1];
      EvidenceTexts(items[0]) + rest
  }

  /** The catalog entries one bucket contributes: its stripped name (when non-empty) and the
      stripped non-blank goal, location and string content of each of its items. */
  function BucketEntries(key: string, items: seq<Evidence>): (entries: set<string>)
    ensures forall c :: c in entries ==> Strip(c) == c
  {
    var fromKey: set<string> := if key != "" then {Strip(key)} else {};
    var fromItems := StrippedTexts(BucketTexts(items));
    assert forall c :: c in fromKey ==> Strip(c) == c by {
      if key != "" { StripIdempotent(key); }
    }
    fromKey + fromItems
  }

  /** The stripped forms of the non-blank texts. */
  function StrippedTexts(ts: seq<string>): (entries: set<string>)
    ensures forall c :: c in entries ==> Strip(c) == c
    ensures forall c :: c in entries <==> exists t :: t in ts && !IsBlank(t) && Strip(t) == c
  {
    if |ts| == 0 then {}
    else
      var head: set<string> := if IsBlank(ts[0]) then {} else {Strip(ts[0])};
      StripIdempotent(ts[0]);
      var rest := StrippedTexts(ts[1..]);
      assert forall t :: t in ts <==> t == ts[0] || t in ts[1..];
      head + rest
  }

  /** `c` is the stripped bucket name, or a stripped non-blank text of one of the bucket's items. */
  ghost predicate FromBucket(key: string, items: seq<Evidence>, c: string) {
    || (key != "" && Strip(key) == c)
    || exists i, t :: 0 <= i < |items| && t in EvidenceTexts(items[i]) && !IsBlank(t) && Strip(t) == c
  }

  lemma BucketEntriesMembers(key: string, items: seq<Evidence>, c: string)
    ensures c in BucketEntries(key, items) <==> FromBucket(key, items, c)
  {
    var ts := BucketTexts(items);
    if exists i, t :: 0 <= i < |items| && t in EvidenceTexts(items[i]) && !IsBlank(t) && Strip(t) == c {
      var i, t :| 0 <= i < |items| && t in EvidenceTexts(items[i]) && !IsBlank(t) && Strip(t) == c;
      assert t in ts;
    }
  }

  /** `_collect_evidence_catalog`: every entry is already stripped. */
  function CollectEvidenceCatalog(evs: EvidenceDict): (cat: set<string>)
    ensures forall c :: c in cat ==> Strip(c) == c
  {
    if |evs| == 0 then {}
    else BucketEntries(evs[0].0, evs[0].1) + CollectEvidenceCatalog(evs[1..])
  }

  /** The catalog holds exactly what some bucket contributes. */
  lemma {:induction false} CatalogMembers(evs: EvidenceDict, c: string)
    ensures c in CollectEvidenceCatalog(evs)
            <==> exists b :: 0 <= b < |evs| && FromBucket(evs[b].0, evs[b].1, c)
    decreases |evs|
  {
    if |evs| > 0 {
      CatalogMembers(evs[1..], c);
      BucketEntriesMembers(evs[0].0, evs[0].1, c);
      SomeBucketCons(evs, c);
    }
  }

  /** Some bucket contributes `c` exactly when the first one does or a later one does. */
  lemma SomeBucketCons(evs: EvidenceDict, c: string)
    requires |evs| > 0
    ensures (exists b :: 0 <= b < |evs| && FromBucket(evs[b].0, evs[b].1, c))
            <==> FromBucket(evs[0].0, evs[0].1, c)
                 || exists b :: 0 <= b < |evs[1..]| && FromBucket(evs[1..][b].0, evs[1..][b].1, c)
  {
    var tail := evs[1..];
    if exists b :: 0 <= b < |tail| && FromBucket(tail[b].0, tail[b].1, c) {
      var b :| 0 <= b < |tail| && FromBucket(tail[b].0, tail[b].1, c);
      assert evs[b + 1] == tail[b];
    }
    if exists b :: 0 <= b < |evs| && FromBucket(evs[b].0, evs[b].1, c) {
      var b :| 0 <= b < |evs| && FromBucket(evs[b].0, evs[b].1, c);
      if b > 0 { assert tail[b - 1] == evs[b]; }
    }
  }

  // ---------------------------------------------------------------------------
  // Citation validity and the evidence rule

  /** One citation is valid: non-blank after stripping, and an exact catalog entry or a
      case-insensitive substring of one, or the other way round. */
  predicate CitationMatches(citation: string, catalog: set<string>) {
    var normalized := Strip(citation);
    && normalized != ""
    && (|| normalized in catalog
        || exists source :: source in catalog &&
             (Contains(Lower(source), Lower(normalized)) || Contains(Lower(normalized), Lower(source))))
  }

  /** `_has_valid_citation`: the citations are tried in order until one matches. */
  function HasValidCitation(citations: seq<string>, catalog: set<string>): bool {
    if |citations| == 0 then false
    else CitationMatches(citations[0], catalog) || HasValidCitation(citations[1..], catalog)
  }

  /** The list is valid exactly when some citation in it matches. */
  lemma {:induction false} HasValidCitationIff(citations: seq<string>, catalog: set<string>)
    ensures HasValidCitation(citations, catalog)
            <==> exists i :: 0 <= i < |citations| && CitationMatches(citations[i], catalog)
    decreases |citations|
  {
    if |citations| > 0 {
      HasValidCitationIff(citations[1..], catalog);
      if exists i :: 0 <= i < |citations| && CitationMatches(citations[i], catalog) {
        var i :| 0 <= i < |citations| && CitationMatches(citations[i], catalog);
        if i > 0 { assert citations[1..][i - 1] == citations[i]; }
      }
      if exists i :: 0 <= i < |citations[1..]| && CitationMatches(citations[1..][i], catalog) {
        var i :| 0 <= i < |citations[1..]| && CitationMatches(citations[1..][i], catalog);
        assert citations[i + 1] == citations[1..][i];
      }
    }
  }

  /** Whitespace-only citations never count; an exact (stripped) catalog hit always does. */
  lemma CitationMatchCases(citation: string, catalog: set<string>)
    ensures IsBlank(citation) ==> !CitationMatches(citation, catalog)
    ensures Strip(citation) != "" && Strip(citation) in catalog ==> CitationMatches(citation, catalog)
  {
  }

  /** A citation that differs from a catalog entry only in case still matches. */
  lemma CaseInsensitiveHitMatches(citation: string, source: string, catalog: set<string>)
    requires source in catalog && Strip(citation) != ""
    requires Lower(Strip(citation)) == Lower(source)
    ensures CitationMatches(citation, catalog)
  {
    ContainsSelf(Lower(source));
  }

  /** `_apply_evidence_rule`. */
  function ApplyEvidenceRule(opinion: JudicialOpinion, catalog: set<string>): (r: JudgeRecord)
    ensures r.judge == opinion.judge && r.score == opinion.score
    ensures r.argument == opinion.argument && r.citedEvidence == opinion.citedEvidence
    ensures r.discounted <==> !HasValidCitation(opinion.citedEvidence, catalog)
    ensures !r.discounted ==> r.effectiveScore == opinion.score as real
    ensures r.discounted ==> r.effectiveScore == (if opinion.score >= 2 then opinion.score as real - 1.0 else 1.0)
    ensures ValidOpinion(opinion) ==> 1.0 <= r.effectiveScore <= opinion.score as real <= 5.0
  {
    var valid := HasValidCitation(opinion.citedEvidence, catalog);
    var effective := if valid then opinion.score as real else MaxReal(1.0, opinion.score as real - 1.0);
    JudgeRecord(opinion.judge, opinion.score, opinion.argument, opinion.citedEvidence, effective, !valid)
  }

  function MaxReal(a: real, b: real): real { if a >= b then a else b }
  function MinReal(a: real, b: real): real { if a <= b then a else b }

  /** Discounting is monotone: a higher score never yields a lower effective score. */
  lemma EvidenceRuleMonotone(a: JudicialOpinion, b: JudicialOpinion, catalog: set<string>)
    requires a.citedEvidence == b.citedEvidence && a.score <= b.score
    ensures ApplyEvidenceRule(a, catalog).effectiveScore <= ApplyEvidenceRule(b, catalog).effectiveScore
  {
  }

  // ---------------------------------------------------------------------------
  // Aggregation

  function Effectives(records: seq<JudgeRecord>): (xs: seq<real>)
    ensures |xs| == |records|
    ensures forall i :: 0 <= i < |records| ==> xs[i] == records[i].effectiveScore
  {
    seq(|records|, i requires 0 <= i < |records| => records[i].effectiveScore)
  }

  function SeqMin(xs: seq<real>): (m: real)
    requires |xs| > 0
    ensures m in xs
    ensures forall i :: 0 <= i < |xs| ==> m <= xs[i]
  {
    if |xs| == 1 then xs[0] else MinReal(xs[0], SeqMin(xs[1..]))
  }

  function SeqMax(xs: seq<real>): (m: real)
    requires |xs| > 0
    ensures m in xs
    ensures forall i :: 0 <= i < |xs| ==> xs[i] <= m
  {
    if |xs| == 1 then xs[0] else MaxReal(xs[0], SeqMax(xs[1..]))
  }

  function Sum(xs: seq<real>): real {
    if |xs| == 0 then 0.0 else xs[0] + Sum(xs[1..])
  }

  /** `statistics.mean` (exact rational arithmetic). */
  function Mean(xs: seq<real>): real
    requires |xs| > 0
  {
    Sum(xs) / (|xs| as real)
  }

  function Weight(j: Judge): real {
    match j
    case Prosecutor => 0.25
    case Defense => 0.25
    case TechLead => 0.50
  }

  /** `{record.judge: record for record in records}.get(j)`: the last record of that judge. */
  function LastRecordOf(records: seq<JudgeRecord>, j: Judge): (r: Option<JudgeRecord>)
    ensures r.Some? ==> r.value in records && r.value.judge == j
    ensures r.None? ==> forall i :: 0 <= i < |records| ==> records[i].judge != j
  {
    if |records| == 0 then None
    else if records[|records| - 1].judge == j then Some(records[|records| - 1])
    else LastRecordOf(records[..|records| - 1], j)
  }

  /** Record `i` is that judge's, and no later record is: the one a dict built in order keeps. */
  predicate LastOfJudgeAt(records: seq<JudgeRecord>, j: Judge, i: int) {
    && 0 <= i < |records| && records[i].judge == j
    && forall k :: i < k < |records| ==> records[k].judge != j
  }

  /** The record kept for a judge is the one at that judge's last position: later records
      of the same judge overwrite earlier ones. */
  lemma {:induction false} LastRecordOfIsLast(records: seq<JudgeRecord>, j: Judge)
    ensures LastRecordOf(records, j).Some? ==>
              exists i :: LastOfJudgeAt(records, j, i) && records[i] == LastRecordOf(records, j).value
    decreases |records|
  {
    if |records| > 0 {
      var n := |records| - 1;
      if records[n].judge == j {
        assert LastRecordOf(records, j) == Some(records[n]);
        assert LastOfJudgeAt(records, j, n);
      } else {
        var init := records[..n];
        var r := LastRecordOf(init, j);
        assert LastRecordOf(records, j) == r;
        LastRecordOfIsLast(init, j);
        if r.Some? {
          LastOfJudgeExtend(records, init, j, r.value);
        }
      }
    }
  }

  /** A last record of the judge before a final record of another judge stays the last one. */
  lemma LastOfJudgeExtend(records: seq<JudgeRecord>, init: seq<JudgeRecord>, j: Judge, v: JudgeRecord)
    requires |records| > 0 && init == records[..|records| - 1] && records[|records| - 1].judge != j
    requires exists i :: LastOfJudgeAt(init, j, i) && init[i] == v
    ensures exists i :: LastOfJudgeAt(records, j, i) && records[i] == v
  {
    var i :| LastOfJudgeAt(init, j, i) && init[i] == v;
    assert LastOfJudgeAt(records, j, i);
  }

  /** A judge's share of the weighted numerator (0 when absent). */
  function WeightedPart(records: seq<JudgeRecord>, j: Judge): real {
    match LastRecordOf(records, j)
    case Some(r) => r.effectiveScore * Weight(j)
    case None => 0.0
  }

  /** A judge's share of the weighted denominator (0 when absent). */
  function PresentWeight(records: seq<JudgeRecord>, j: Judge): real {
    if LastRecordOf(records, j).Some? then Weight(j) else 0.0
  }

  function WeightedMean(records: seq<JudgeRecord>): real {
    var numerator := WeightedPart(records, Prosecutor) + WeightedPart(records, Defense)
                     + WeightedPart(records, TechLead);
    var denominator := PresentWeight(records, Prosecutor) + PresentWeight(records, Defense)
                       + PresentWeight(records, TechLead);
    if denominator == 0.0 then 1.0 else numerator / denominator
  }

  /** `_criterion_final_score`: the base score of one criterion before the cap. */
  function CriterionBaseScore(criterionId: string, records: seq<JudgeRecord>): real {
    if |records| == 0 then 1.0
    else if criterionId in WeightedCriteria then WeightedMean(records)
    else Mean(Effectives(records))
  }

  lemma DivBounds(num: real, den: real, lo: real, hi: real)
    requires den > 0.0 && lo * den <= num <= hi * den
    ensures lo <= num / den <= hi
  {
    var q := num / den;
    assert q * den == num;
    assert (q - lo) * den >= 0.0;
    assert (hi - q) * den >= 0.0;
  }

  lemma {:induction false} SumBounds(xs: seq<real>, lo: real, hi: real)
    requires forall i :: 0 <= i < |xs| ==> lo <= xs[i] <= hi
    ensures (|xs| as real) * lo <= Sum(xs) <= (|xs| as real) * hi
    decreases |xs|
  {
    if |xs| > 0 {
      SumBounds(xs[1..], lo, hi);
      assert (|xs| as real) * lo == (|xs[1..]| as real) * lo + lo;
      assert (|xs| as real) * hi == (|xs[1..]| as real) * hi + hi;
    }
  }

  /** A mean lies between any common lower and upper bound of its terms. */
  lemma MeanBounds(xs: seq<real>, lo: real, hi: real)
    requires |xs| > 0
    requires forall i :: 0 <= i < |xs| ==> lo <= xs[i] <= hi
    ensures lo <= Mean(xs) <= hi
  {
    var n := |xs| as real;
    var total := Sum(xs);
    SumBounds(xs, lo, hi);
    DivBounds(total, n, lo, hi);
  }

  /** One judge's term of the weighted mean, bounded like every effective score. */
  lemma WeightedTermBounds(records: seq<JudgeRecord>, j: Judge, lo: real, hi: real)
    requires forall i :: 0 <= i < |records| ==> lo <= records[i].effectiveScore <= hi
    ensures lo * PresentWeight(records, j) <= WeightedPart(records, j) <= hi * PresentWeight(records, j)
  {
    match LastRecordOf(records, j)
    case Some(r) =>
      var i :| 0 <= i < |records| && records[i] == r;
      assert lo <= r.effectiveScore <= hi;
      ScaleBounds(lo, r.effectiveScore, hi, Weight(j));
    case None =>
  }

  lemma ScaleBounds(lo: real, x: real, hi: real, w: real)
    requires 0.0 <= w && lo <= x <= hi
    ensures lo * w <= x * w <= hi * w
  {
    assert (x - lo) * w >= 0.0;
    assert (hi - x) * w >= 0.0;
  }

  lemma Distribute3(x: real, a: real, b: real, c: real)
    ensures x * (a + b + c) == x * a + x * b + x * c
  {
  }

  /** Some judge is present whenever there is a record, so the weighted denominator is positive. */
  lemma DenominatorPositive(records: seq<JudgeRecord>)
    requires |records| > 0
    ensures PresentWeight(records, Prosecutor) + PresentWeight(records, Defense)
            + PresentWeight(records, TechLead) > 0.0
  {
    assert LastRecordOf(records, records[0].judge).Some?;
  }

  lemma WeightedMeanBounds(records: seq<JudgeRecord>, lo: real, hi: real)
    requires |records| > 0
    requires forall i :: 0 <= i < |records| ==> lo <= records[i].effectiveScore <= hi
    ensures lo <= WeightedMean(records) <= hi
  {
    WeightedTermBounds(records, Prosecutor, lo, hi);
    WeightedTermBounds(records, Defense, lo, hi);
    WeightedTermBounds(records, TechLead, lo, hi);
    DenominatorPositive(records);
    RatioOfSumsBounds(WeightedPart(records, Prosecutor), WeightedPart(records, Defense),
                      WeightedPart(records, TechLead), PresentWeight(records, Prosecutor),
                      PresentWeight(records, Defense), PresentWeight(records, TechLead), lo, hi);
  }

  /** Three weighted terms, each within its weight times the bounds, average within the bounds. */
  lemma RatioOfSumsBounds(p: real, d: real, t: real, wp: real, wd: real, wt: real, lo: real, hi: real)
    requires wp + wd + wt > 0.0
    requires lo * wp <= p <= hi * wp && lo * wd <= d <= hi * wd && lo * wt <= t <= hi * wt
    ensures lo <= (p + d + t) / (wp + wd + wt) <= hi
  {
    Distribute3(lo, wp, wd, wt);
    Distribute3(hi, wp, wd, wt);
    DivBounds(p + d + t, wp + wd + wt, lo, hi);
  }

  /** The base score of judged criterion lies between the lowest and highest effective score. */
  lemma BaseScoreWithinEffectives(criterionId: string, records: seq<JudgeRecord>)
    requires |records| > 0
    ensures SeqMin(Effectives(records)) <= CriterionBaseScore(criterionId, records)
            <= SeqMax(Effectives(records))
  {
    var xs := Effectives(records);
    if criterionId in WeightedCriteria {
      WeightedMeanBounds(records, SeqMin(xs), SeqMax(xs));
    } else {
      MeanBounds(xs, SeqMin(xs), SeqMax(xs));
    }
  }

  /** Absent judges are renormalised away: with a single judge present the weighted mean is
      that judge's (last) effective score. */
  lemma WeightedSingleJudge(records: seq<JudgeRecord>, j: Judge)
    requires |records| > 0
    requires forall i :: 0 <= i < |records| ==> records[i].judge == j
    ensures WeightedMean(records) == records[|records| - 1].effectiveScore
  {
    var e := records[|records| - 1].effectiveScore;
    assert WeightedPart(records, j) == e * Weight(j);
    assert PresentWeight(records, j) == Weight(j);
  }

  /** Weighted criterion with all citations valid: Prosecutor 2, Defense 4, TechLead 4 give 3.5. */
  lemma WeightedExample()
    ensures CriterionBaseScore("graph_orchestration",
              [JudgeRecord(Prosecutor, 2, "", [], 2.0, false),
               JudgeRecord(Defense, 4, "", [], 4.0, false),
               JudgeRecord(TechLead, 4, "", [], 4.0, false)]) == 3.5
  {
    var rs := [JudgeRecord(Prosecutor, 2, "", [], 2.0, false),
               JudgeRecord(Defense, 4, "", [], 4.0, false),
               JudgeRecord(TechLead, 4, "", [], 4.0, false)];
    assert LastRecordOf(rs, TechLead) == Some(rs[2]);
    assert rs[..2][..1] == [rs[0]];
    assert LastRecordOf(rs, Defense) == Some(rs[1]);
    assert LastRecordOf(rs, Prosecutor) == Some(rs[0]);
  }

  // ---------------------------------------------------------------------------
  // Security cap

  /** `next((r for r in records if r.judge == j), None)`: the first record of that judge. */
  function FirstRecordOf(records: seq<JudgeRecord>, j: Judge): (r: Option<JudgeRecord>)
    ensures r.Some? ==> exists i :: 0 <= i < |records| && records[i] == r.value
                                    && forall k :: 0 <= k < i ==> records[k].judge != j
    ensures r.Some? ==> r.value.judge == j
    ensures r.None? ==> forall i :: 0 <= i < |records| ==> records[i].judge != j
  {
    if |records| == 0 then None
    else if records[0].judge == j then Some(records[0])
    else
      var rest := FirstRecordOf(records[1..], j);
      if rest.Some? then
        assert exists i :: 1 <= i < |records| && records[i] == rest.value
                           && forall k :: 0 <= k < i ==> records[k].judge != j by {
          var i :| 0 <= i < |records[1..]| && records[1..][i] == rest.value
                   && forall k :: 0 <= k < i ==> records[1..][k].judge != j;
          assert records[i + 1] == rest.value;
          forall k | 0 <= k < i + 1 ensures records[k].judge != j {
            if k > 0 { assert records[k] == records[1..][k - 1]; }
          }
        }
        rest
      else rest
  }

  /** `" ".join([argument, *cited_evidence]).lower()`. */
  function SearchBlob(r: JudgeRecord): string {
    Lower(Join(" ", [r.argument] + r.citedEvidence))
  }

  predicate MentionsSecurity(blob: string) {
    exists k :: 0 <= k < |SecurityKeywords| && Contains(blob, SecurityKeywords[k])
  }

  /** The first Prosecutor record flags a security-sensitive finding. */
  predicate SecurityFlagged(records: seq<JudgeRecord>) {
    var p := FirstRecordOf(records, Prosecutor);
    p.Some? && MentionsSecurity(SearchBlob(p.value))
  }

  /** `_security_cap`: never raises the score; lowers it exactly when flagged and above 3. */
  function SecurityCap(records: seq<JudgeRecord>, score: real): (r: real)
    ensures r <= score
    ensures r == score || r == 3.0
    ensures r < score <==> score > 3.0 && SecurityFlagged(records)
    ensures FirstRecordOf(records, Prosecutor).None? ==> r == score
  {
    match FirstRecordOf(records, Prosecutor)
    case None => score
    case Some(p) => if MentionsSecurity(SearchBlob(p)) then MinReal(score, 3.0) else score
  }

  /** A keyword in the first Prosecutor's argument caps the score at 3 (e.g. "vulnerability"
      with a base of 5 gives 3). */
  lemma KeywordInArgumentCaps(records: seq<JudgeRecord>, score: real, k: nat)
    requires FirstRecordOf(records, Prosecutor).Some?
    requires k < |SecurityKeywords|
    requires Contains(Lower(FirstRecordOf(records, Prosecutor).value.argument), SecurityKeywords[k])
    ensures SecurityCap(records, score) == MinReal(score, 3.0)
  {
    var p := FirstRecordOf(records, Prosecutor).value;
    var parts := [p.argument] + p.citedEvidence;
    JoinHeadPrefix(" ", parts);
    var joined := Join(" ", parts);
    var rest := joined[|p.argument|..];
    assert joined == p.argument + rest;
    LowerAppend(p.argument, rest);
    ContainsInPrefix(Lower(p.argument), Lower(rest), SecurityKeywords[k]);
    assert MentionsSecurity(SearchBlob(p));
  }

  // ---------------------------------------------------------------------------
  // Dissent

  /** The judges' effective scores as they appear in the dissent summary ('n/a' is None). */
  datatype DissentSummary = DissentSummary(prosecutor: Option<real>, defense: Option<real>, techLead: Option<real>)

  function EffectiveOf(r: Option<JudgeRecord>): Option<real> {
    match r
    case Some(x) => Some(x.effectiveScore)
    case None => None
  }

  /** The effective-score spread exceeds 2. */
  predicate Contested(xs: seq<real>) {
    |xs| >= 2 && SeqMax(xs) - SeqMin(xs) > 2.0
  }

  /** `_build_dissent`. */
  function BuildDissent(records: seq<JudgeRecord>): (r: Option<DissentSummary>)
    ensures r.Some? <==> Contested(Effectives(records))
    ensures r.Some? ==> r.value.prosecutor == EffectiveOf(FirstRecordOf(records, Prosecutor))
    ensures r.Some? ==> r.value.defense == EffectiveOf(FirstRecordOf(records, Defense))
    ensures r.Some? ==> r.value.techLead == EffectiveOf(FirstRecordOf(records, TechLead))
  {
    if |records| < 2 then None
    else
      var scores := Effectives(records);
      if SeqMax(scores) - SeqMin(scores) <= 2.0 then None
      else Some(DissentSummary(
        EffectiveOf(FirstRecordOf(records, Prosecutor)),
        EffectiveOf(FirstRecordOf(records, Defense)),
        EffectiveOf(FirstRecordOf(records, TechLead))))
  }

  /** Contested exactly when some two judges' effective scores differ by more than 2. */
  lemma {:induction false} ContestedIffSomePair(xs: seq<real>)
    requires |xs| >= 2
    ensures Contested(xs) <==> exists i, j :: 0 <= i < |xs| && 0 <= j < |xs| && xs[i] - xs[j] > 2.0
  {
    if Contested(xs) {
      var i :| 0 <= i < |xs| && xs[i] == SeqMax(xs);
      var j :| 0 <= j < |xs| && xs[j] == SeqMin(xs);
      assert xs[i] - xs[j] > 2.0;
    }
  }

  /** Effective scores {1, 5, 5} are contested; {3, 4, 5} are not. */
  lemma DissentExamples()
    ensures Contested([1.0, 5.0, 5.0])
    ensures !Contested([3.0, 4.0, 5.0])
  {
    var a := [1.0, 5.0, 5.0];
    assert a[1..][1..] == [5.0];
    var b := [3.0, 4.0, 5.0];
    assert b[1..][1..] == [5.0];
  }

  // ---------------------------------------------------------------------------
  // Rounding and clamping

  /** Python's `round` on a float: to the nearest integer, halves to the even neighbour. */
  function RoundHalfEven(x: real): (n: int)
    ensures -0.5 <= n as real - x <= 0.5
    ensures (n as real - x == 0.5 || x - n as real == 0.5) ==> n % 2 == 0
  {
    var f := x.Floor;
    var d := x - f as real;
    if d < 0.5 then f
    else if d > 0.5 then f + 1
    else if f % 2 == 0 then f
    else f + 1
  }

  /** The rounding is the unique integer that is nearest, or on a tie, even. */
  lemma RoundHalfEvenUnique(x: real, m: int)
    requires -0.5 <= m as real - x <= 0.5
    requires (m as real - x == 0.5 || x - m as real == 0.5) ==> m % 2 == 0
    ensures m == RoundHalfEven(x)
  {
    var n := RoundHalfEven(x);
    assert -1.0 <= m as real - n as real <= 1.0;
  }

  /** `int(round(2.5)) == 2` and `int(round(3.5)) == 4`. */
  lemma RoundingExamples()
    ensures RoundHalfEven(2.5) == 2 && RoundHalfEven(3.5) == 4 && RoundHalfEven(3.4) == 3
  {
    RoundHalfEvenUnique(2.5, 2);
    RoundHalfEvenUnique(3.5, 4);
    RoundHalfEvenUnique(3.4, 3);
  }

  /** `max(1, min(5, int(round(score))))`. */
  function FinalScore(score: real): (n: int)
    ensures 1 <= n <= 5
    ensures 1 <= RoundHalfEven(score) <= 5 ==> n == RoundHalfEven(score)
  {
    var r := RoundHalfEven(score);
    if r < 1 then 1 else if r > 5 then 5 else r
  }

  // ---------------------------------------------------------------------------
  // Per-criterion synthesis and the report

  /** A judge line of a criterion block; the placeholder when no opinion was captured. */
  datatype JudgeLine = RecordLine(record: JudgeRecord) | NoOpinionLine

  datatype CriterionBlock = CriterionBlock(
    criterionId: string,
    criterionName: string,
    finalScore: int,
    contested: bool,
    dissent: Option<DissentSummary>,
    lines: seq<JudgeLine>)

  /** One entry of the synthesis payload handed to the summary call. */
  datatype PayloadEntry = PayloadEntry(
    criterionId: string,
    criterionName: string,
    finalScore: int,
    contested: bool,
    dissent: Option<DissentSummary>,
    judges: seq<JudgeRecord>)

  datatype CriterionOutcome = CriterionOutcome(block: CriterionBlock, entry: PayloadEntry)

  /** `by_criterion.get(criterion_id, [])`: the opinions for one criterion, in arrival order. */
  function OpinionsFor(opinions: seq<JudicialOpinion>, criterionId: string): (r: seq<JudicialOpinion>)
    ensures forall o :: o in r ==> o.criterionId == criterionId && o in opinions
    ensures forall o :: o in opinions && o.criterionId == criterionId ==> o in r
    ensures |r| <= |opinions|
    ensures (forall o :: o in opinions ==> o.criterionId != criterionId) ==> r == []
  {
    if |opinions| == 0 then []
    else
      var rest := OpinionsFor(opinions[1..], criterionId);
      assert forall o :: o in opinions ==> o == opinions[0] || o in opinions[1..];
      if opinions[0].criterionId == criterionId then [opinions[0]] + rest else rest
  }

  /** `OpinionsFor` is the order-keeping filter of the grouping loop: it distributes over
      concatenation and keeps a single opinion exactly when it is for that criterion. */
  lemma OpinionsForAppend(a: seq<JudicialOpinion>, b: seq<JudicialOpinion>, o: JudicialOpinion, criterionId: string)
    ensures OpinionsFor(a + b, criterionId) == OpinionsFor(a, criterionId) + OpinionsFor(b, criterionId)
    ensures OpinionsFor([o], criterionId) == if o.criterionId == criterionId then [o] else []
    ensures OpinionsFor([], criterionId) == []
  {
    OpinionsForConcat(a, b, criterionId);
    OpinionsForUnfold([o], criterionId);
    assert [o][1..] == [];
  }

  lemma {:induction false} OpinionsForConcat(a: seq<JudicialOpinion>, b: seq<JudicialOpinion>, criterionId: string)
    ensures OpinionsFor(a + b, criterionId) == OpinionsFor(a, criterionId) + OpinionsFor(b, criterionId)
  {
    if |a| == 0 {
      assert a + b == b;
    } else {
      OpinionsForConcat(a[1..], b, criterionId);
      OpinionsForConcatStep(a, b, criterionId);
    }
  }

  lemma OpinionsForConcatStep(a: seq<JudicialOpinion>, b: seq<JudicialOpinion>, criterionId: string)
    requires |a| > 0
    requires OpinionsFor(a[1..] + b, criterionId) == OpinionsFor(a[1..], criterionId) + OpinionsFor(b, criterionId)
    ensures OpinionsFor(a + b, criterionId) == OpinionsFor(a, criterionId) + OpinionsFor(b, criterionId)
  {
    var h := if a[0].criterionId == criterionId then [a[0]] else [];
    OpinionsForConsConcat(a, b, criterionId);
    OpinionsForUnfold(a, criterionId);
    ConcatAssoc(h, OpinionsFor(a[1..], criterionId), OpinionsFor(b, criterionId));
  }

  lemma OpinionsForConsConcat(a: seq<JudicialOpinion>, b: seq<JudicialOpinion>, criterionId: string)
    requires |a| > 0
    ensures OpinionsFor(a + b, criterionId)
            == (if a[0].criterionId == criterionId then [a[0]] else []) + OpinionsFor(a[1..] + b, criterionId)
  {
    assert (a + b)[0] == a[0] && (a + b)[1..] == a[1..] + b;
    OpinionsForUnfold(a + b, criterionId);
  }

  /** One step of the filter. */
  lemma OpinionsForUnfold(opinions: seq<JudicialOpinion>, criterionId: string)
    requires |opinions| > 0
    ensures OpinionsFor(opinions, criterionId)
            == (if opinions[0].criterionId == criterionId then [opinions[0]] else []) + OpinionsFor(opinions[1..], criterionId)
  {
  }

  function RecordsFor(opinions: seq<JudicialOpinion>, catalog: set<string>): (r: seq<JudgeRecord>)
    ensures |r| == |opinions|
    ensures forall i :: 0 <= i < |opinions| ==> r[i] == ApplyEvidenceRule(opinions[i], catalog)
  {
    seq(|opinions|, i requires 0 <= i < |opinions| => ApplyEvidenceRule(opinions[i], catalog))
  }

  function JudgeLines(records: seq<JudgeRecord>): seq<JudgeLine> {
    if |records| == 0 then [NoOpinionLine]
    else seq(|records|, i requires 0 <= i < |records| => RecordLine(records[i]))
  }

  /** One iteration of the dimension loop of `chief_justice_node`. */
  function AdjudicateDimension(dim: RubricDimension, opinions: seq<JudicialOpinion>,
                               catalog: set<string>): (out: CriterionOutcome)
    ensures out.block.criterionId == DimensionId(dim) == out.entry.criterionId
    ensures out.block.criterionName == DimensionName(dim) == out.entry.criterionName
    ensures 1 <= out.block.finalScore <= 5 && out.entry.finalScore == out.block.finalScore
    ensures out.block.contested <==> out.block.dissent.Some?
    ensures out.entry.contested == out.block.contested && out.entry.dissent == out.block.dissent
    ensures |out.block.lines| >= 1
  {
    var cid := DimensionId(dim);
    var records := RecordsFor(OpinionsFor(opinions, cid), catalog);
    var base := CriterionBaseScore(cid, records);
    var capped := SecurityCap(records, base);
    var rounded := FinalScore(capped);
    var dissent := BuildDissent(records);
    CriterionOutcome(
      CriterionBlock(cid, DimensionName(dim), rounded, dissent.Some?, dissent, JudgeLines(records)),
      PayloadEntry(cid, DimensionName(dim), rounded, dissent.Some?, dissent, records))
  }

  /** A criterion nobody judged still gets a block: score 1, uncontested, the placeholder line. */
  lemma UnjudgedDimension(dim: RubricDimension, opinions: seq<JudicialOpinion>, catalog: set<string>)
    requires forall o :: o in opinions ==> o.criterionId != DimensionId(dim)
    ensures AdjudicateDimension(dim, opinions, catalog).block.finalScore == 1
    ensures !AdjudicateDimension(dim, opinions, catalog).block.contested
    ensures AdjudicateDimension(dim, opinions, catalog).block.lines == [NoOpinionLine]
    ensures AdjudicateDimension(dim, opinions, catalog).entry.judges == []
  {
    assert OpinionsFor(opinions, DimensionId(dim)) == [];
    assert RoundHalfEven(1.0) == 1 by { RoundHalfEvenUnique(1.0, 1); }
  }

  /** Only opinions on this criterion contribute, and each keeps its own discounting. */
  lemma DimensionUsesOnlyItsOpinions(dim: RubricDimension, opinions: seq<JudicialOpinion>,
                                     catalog: set<string>)
    ensures forall r :: r in AdjudicateDimension(dim, opinions, catalog).entry.judges ==>
              exists o :: o in opinions && o.criterionId == DimensionId(dim)
                          && r == ApplyEvidenceRule(o, catalog)
  {
    var ops := OpinionsFor(opinions, DimensionId(dim));
    var records := RecordsFor(ops, catalog);
    forall r | r in records
      ensures exists o :: o in opinions && o.criterionId == DimensionId(dim)
                          && r == ApplyEvidenceRule(o, catalog)
    {
      var i :| 0 <= i < |records| && records[i] == r;
      assert ops[i] in ops;
    }
  }

  /** With well-formed opinions the clamp never bites: the final score is the rounded,
      capped base score, and the base lies within [1, 5]. */
  lemma ClampIsNoOpForValidOpinions(dim: RubricDimension, opinions: seq<JudicialOpinion>,
                                    catalog: set<string>)
    requires forall o :: o in opinions ==> ValidOpinion(o)
    ensures var cid := DimensionId(dim);
            var records := RecordsFor(OpinionsFor(opinions, cid), catalog);
            var capped := SecurityCap(records, CriterionBaseScore(cid, records));
            && 1.0 <= CriterionBaseScore(cid, records) <= 5.0
            && AdjudicateDimension(dim, opinions, catalog).block.finalScore == RoundHalfEven(capped)
  {
    var cid := DimensionId(dim);
    var ops := OpinionsFor(opinions, cid);
    var records := RecordsFor(ops, catalog);
    var base := CriterionBaseScore(cid, records);
    if |records| > 0 {
      BaseScoreWithinEffectives(cid, records);
      var xs := Effectives(records);
      assert ops[0] in ops;
      forall i | 0 <= i < |records| ensures 1.0 <= xs[i] <= 5.0 {
        assert ops[i] in ops;
      }
      assert SeqMin(xs) in xs && SeqMax(xs) in xs;
    }
    var capped := SecurityCap(records, base);
    assert 1.0 <= capped <= 5.0;
    assert 1 <= RoundHalfEven(capped) <= 5;
  }

  datatype Grade = MasterThinker | CompetentOrchestrator | VibeCoder

  /** The grade band of an overall score. */
  function GradeFor(overall: real): (g: Grade)
    ensures g == MasterThinker <==> overall >= 4.5
    ensures g == CompetentOrchestrator <==> 3.0 <= overall < 4.5
    ensures g == VibeCoder <==> overall < 3.0
  {
    if overall >= 4.5 then MasterThinker
    else if overall >= 3.0 then CompetentOrchestrator
    else VibeCoder
  }

  function IntsAsReals(ns: seq<int>): (xs: seq<real>)
    ensures |xs| == |ns|
    ensures forall i :: 0 <= i < |ns| ==> xs[i] == ns[i] as real
  {
    seq(|ns|, i requires 0 <= i < |ns| => ns[i] as real)
  }

  /** `sum` of a list of integers. */
  function IntSum(ns: seq<int>): int {
    if |ns| == 0 then 0 else ns[0] + IntSum(ns[1..])
  }

  lemma {:induction false} SumOfIntsAsReals(ns: seq<int>)
    ensures Sum(IntsAsReals(ns)) == IntSum(ns) as real
  {
    if |ns| > 0 {
      SumOfIntsAsReals(ns[1..]);
      assert IntsAsReals(ns)[1..] == IntsAsReals(ns[1..]);
    }
  }

  /** The mean of the rounded criterion scores, or 1.0 when there are none: times the number
      of criteria it gives back their integer sum. */
  function OverallScore(scores: seq<int>): (r: real)
    ensures |scores| == 0 ==> r == 1.0
    ensures |scores| > 0 ==> r * (|scores| as real) == IntSum(scores) as real
    ensures (forall i :: 0 <= i < |scores| ==> 1 <= scores[i] <= 5) ==> 1.0 <= r <= 5.0
  {
    if |scores| == 0 then 1.0
    else
      SumOfIntsAsReals(scores);
      MeanOfScoresBounds(scores);
      Mean(IntsAsReals(scores))
  }

  lemma MeanOfScoresBounds(scores: seq<int>)
    requires |scores| > 0
    ensures (forall i :: 0 <= i < |scores| ==> 1 <= scores[i] <= 5) ==> 1.0 <= Mean(IntsAsReals(scores)) <= 5.0
  {
    var xs := IntsAsReals(scores);
    if forall i :: 0 <= i < |scores| ==> 1 <= scores[i] <= 5 {
      SumBounds(xs, 1.0, 5.0);
      DivBounds(Sum(xs), |xs| as real, 1.0, 5.0);
    }
  }

  /** Criteria that all scored `c` average to exactly `c`. */
  lemma OverallOfEqualScores(scores: seq<int>, c: int)
    requires |scores| > 0 && forall i :: 0 <= i < |scores| ==> scores[i] == c
    ensures OverallScore(scores) == c as real
  {
    IntSumConstant(scores, c);
    ProductAsReal(c, |scores|);
    CancelPositive(OverallScore(scores), c as real, |scores| as real);
  }

  /** Casting a product of integers to `real` multiplies the casts. */
  lemma {:induction false} ProductAsReal(c: int, k: nat)
    ensures (c * k) as real == (c as real) * (k as real)
  {
    if k > 0 {
      ProductAsReal(c, k - 1);
      assert c * k == c * (k - 1) + c;
      assert (c as real) * (k as real) == (c as real) * ((k - 1) as real) + c as real;
    }
  }

  /** A positive factor cancels. */
  lemma CancelPositive(x: real, y: real, n: real)
    requires n > 0.0 && x * n == y * n
    ensures x == y
  {
    assert (x - y) * n == 0.0;
  }

  lemma {:induction false} IntSumConstant(ns: seq<int>, c: int)
    requires forall i :: 0 <= i < |ns| ==> ns[i] == c
    ensures IntSum(ns) == c * |ns|
  {
    if |ns| > 0 {
      IntSumConstant(ns[1..], c);
    }
  }

  /** What the summary call returned: a text, or an exception. */
  datatype SummaryResponse = SummaryText(text: string) | SummaryCallFailed

  const SummaryMarker := "EXECUTIVE_SUMMARY:"
  const PlanMarker := "REMEDIATION_PLAN:"
  const DefaultPlan := "- Review contested criteria and align evidence citations."
  const CannedSummary := "The audit identifies mixed compliance with several high-risk gaps that require immediate remediation."
  const CannedPlan := "- Resolve security-sensitive tool usage and enforce safe execution patterns.\n- Tighten structured-output guarantees and citation validity checks.\n- Stabilize graph orchestration, especially fan-out/fan-in and synthesis logic."

  /** `text.split(marker, 1)` when the marker occurs: the parts before and after its first occurrence. */
  function SplitOnce(text: string, marker: string): Option<(string, string)>
  {
    match FindFirst(text, marker)
    case None => None
    case Some(i) => Some((text[..i], text[i + |marker|..]))
  }

  /** `text.split(sm, 1)[1].split(pm, 1)` unpacked into two parts: None when the second split
      finds no plan marker (the unpacking raises). */
  function SectionsAfter(text: string, sm: string, pm: string): Option<(string, string)>
    requires Contains(text, sm)
  {
    SplitOnce(SplitOnce(text, sm).value.1, pm)
  }

  /** `_llm_summary_and_plan` after the call: section parsing, default plan, canned fallback. */
  function SummaryAndPlan(response: SummaryResponse): (r: (string, string))
    ensures response.SummaryCallFailed? ==> r == (CannedSummary, CannedPlan)
    ensures response.SummaryText? && !(Contains(response.text, PlanMarker) && Contains(response.text, SummaryMarker))
            ==> r == (Strip(response.text), DefaultPlan)
  {
    match response
    case SummaryCallFailed => (CannedSummary, CannedPlan)
    case SummaryText(text) =>
      if Contains(text, PlanMarker) && Contains(text, SummaryMarker) then
        match SectionsAfter(text, SummaryMarker, PlanMarker)
        case Some((summary, plan)) => (Strip(summary), Strip(plan))
        case None => (CannedSummary, CannedPlan)
      else (Strip(text), DefaultPlan)
  }

  /** Splitting at the first occurrence of a marker. */
  lemma SplitOnceAt(text: string, marker: string, i: nat)
    requires FindFirst(text, marker) == Some(i)
    ensures SplitOnce(text, marker) == Some((text[..i], text[i + |marker|..]))
  {
  }

  /** A marker that occurs somewhere is found, no later than that occurrence. */
  lemma FindFirstFinds(h: string, n: string, j: nat)
    requires OccursAt(h, n, j)
    ensures FindFirst(h, n).Some? && FindFirst(h, n).value <= j
  {
  }

  /** When a plan marker follows the first summary marker, both sections are found: the
      summary is the text between them, the plan everything after the plan marker. */
  lemma SectionsFound(text: string, sm: string, pm: string, i: nat, j: nat)
    requires FindFirst(text, sm) == Some(i)
    requires OccursAt(text, pm, j) && j >= i + |sm|
    ensures Contains(text, pm)
    ensures var after := text[i + |sm|..];
            var k := FindFirst(after, pm);
            && k.Some?
            && SectionsAfter(text, sm, pm) == Some((after[..k.value], after[k.value + |pm|..]))
  {
    var after := text[i + |sm|..];
    var off := j - (i + |sm|);
    assert after[off..off + |pm|] == text[j..j + |pm|];
    FindFirstFinds(after, pm, off);
    FindFirstFinds(text, pm, j);
    SplitOnceAt(text, sm, i);
    var k := FindFirst(after, pm).value;
    SplitOnceAt(after, pm, k);
  }

  /** A well-formed response is split into its two stripped sections. */
  lemma SummarySectionsParsed(text: string, i: nat, j: nat)
    requires FindFirst(text, SummaryMarker) == Some(i)
    requires OccursAt(text, PlanMarker, j) && j >= i + |SummaryMarker|
    ensures var after := text[i + |SummaryMarker|..];
            var k := FindFirst(after, PlanMarker);
            && k.Some?
            && SummaryAndPlan(SummaryText(text)) == (Strip(after[..k.value]), Strip(after[k.value + |PlanMarker|..]))
  {
    SectionsFound(text, SummaryMarker, PlanMarker, i, j);
  }

  datatype AuditReport = AuditReport(
    grade: Grade,
    overallScore: real,
    executiveSummary: string,
    criteria: seq<CriterionBlock>,
    remediationPlan: string)

  /** What `chief_justice_node` produces: the report written (if any), the payload, its update. */
  datatype ChiefOutcome = ChiefOutcome(report: Option<AuditReport>, payload: seq<PayloadEntry>, update: Update)

  /** The per-dimension loop: one outcome per configured dimension, in configured order. */
  function AdjudicateAll(dims: seq<RubricDimension>, opinions: seq<JudicialOpinion>,
                         catalog: set<string>): (outs: seq<CriterionOutcome>)
    ensures |outs| == |dims|
    ensures forall i :: 0 <= i < |dims| ==> outs[i] == AdjudicateDimension(dims[i], opinions, catalog)
  {
    seq(|dims|, i requires 0 <= i < |dims| => AdjudicateDimension(dims[i], opinions, catalog))
  }

  function Blocks(outs: seq<CriterionOutcome>): (bs: seq<CriterionBlock>)
    ensures |bs| == |outs| && forall i :: 0 <= i < |outs| ==> bs[i] == outs[i].block
  {
    seq(|outs|, i requires 0 <= i < |outs| => outs[i].block)
  }

  function Entries(outs: seq<CriterionOutcome>): (es: seq<PayloadEntry>)
    ensures |es| == |outs| && forall i :: 0 <= i < |outs| ==> es[i] == outs[i].entry
  {
    seq(|outs|, i requires 0 <= i < |outs| => outs[i].entry)
  }

  function Scores(outs: seq<CriterionOutcome>): (ns: seq<int>)
    ensures |ns| == |outs| && forall i :: 0 <= i < |outs| ==> ns[i] == outs[i].block.finalScore
  {
    seq(|outs|, i requires 0 <= i < |outs| => outs[i].block.finalScore)
  }

  /** `chief_justice_node`: `rubric` is None when `rubric.json` cannot be loaded and
      `writeSucceeds` says whether the report file could be written. */
  function ChiefJustice(state: AgentState, rubric: Option<seq<RubricDimension>>,
                        response: SummaryResponse, writeSucceeds: bool): (out: ChiefOutcome)
    ensures out.update.evidences == [] && out.update.opinions == [] && |out.update.messages| == 1
    ensures out.update.repoPath.None? && out.update.pdfPath.None?
    ensures out.report.Some? <==> rubric.Some? && writeSucceeds
    ensures out.report.Some? <==> out.update.messages == [SynthesisComplete]
    ensures out.report.Some? ==> |out.report.value.criteria| == |rubric.value|
                                 && |out.payload| == |rubric.value|
    ensures out.report.Some? ==> 1.0 <= out.report.value.overallScore <= 5.0
    ensures out.report.Some? ==> out.report.value.grade == GradeFor(out.report.value.overallScore)
    ensures rubric.None? ==> out.payload == [] && out.update.messages == [SynthesisFailed("rubric.json could not be loaded")]
    ensures rubric.Some? ==>
              var outs := AdjudicateAll(rubric.value, state.opinions, CollectEvidenceCatalog(state.evidences));
              && out.payload == Entries(outs)
              && (out.report.Some? ==> out.report.value.criteria == Blocks(outs)
                                       && out.report.value.overallScore == OverallScore(Scores(outs)))
    ensures out.report.Some? ==>
              (out.report.value.executiveSummary, out.report.value.remediationPlan) == SummaryAndPlan(response)
  {
    match rubric
    case None => ChiefOutcome(None, [], Update(None, None, None, [], [], [SynthesisFailed("rubric.json could not be loaded")]))
    case Some(dims) =>
      var catalog := CollectEvidenceCatalog(state.evidences);
      var outs := AdjudicateAll(dims, state.opinions, catalog);
      var overall := OverallScore(Scores(outs));
      var grade := GradeFor(overall);
      var (summary, plan) := SummaryAndPlan(response);
      if writeSucceeds then
        ChiefOutcome(Some(AuditReport(grade, overall, summary, Blocks(outs), plan)), Entries(outs),
                     Update(None, None, None, [], [], [SynthesisComplete]))
      else
        ChiefOutcome(None, Entries(outs), Update(None, None, None, [], [], [SynthesisFailed("report could not be written")]))
  }

  /** The report and payload are the per-dimension verdicts, in configured order: entry `i`
      and criterion block `i` are dimension `i`'s adjudication, and the scores averaged into
      the overall score are the blocks' final scores. */
  lemma ChiefJusticeReportsVerdicts(state: AgentState, dims: seq<RubricDimension>,
                                    response: SummaryResponse, writeSucceeds: bool)
    ensures var out := ChiefJustice(state, Some(dims), response, writeSucceeds);
            var catalog := CollectEvidenceCatalog(state.evidences);
            && |out.payload| == |dims|
            && (forall i :: 0 <= i < |dims| ==>
                  out.payload[i] == AdjudicateDimension(dims[i], state.opinions, catalog).entry)
            && (out.report.Some? ==>
                  && |out.report.value.criteria| == |dims|
                  && (forall i :: 0 <= i < |dims| ==>
                        out.report.value.criteria[i] == AdjudicateDimension(dims[i], state.opinions, catalog).block)
                  && |Scores(AdjudicateAll(dims, state.opinions, catalog))| == |dims|
                  && forall i :: 0 <= i < |dims| ==>
                       Scores(AdjudicateAll(dims, state.opinions, catalog))[i] == out.report.value.criteria[i].finalScore)
  {
    var catalog := CollectEvidenceCatalog(state.evidences);
    var outs := AdjudicateAll(dims, state.opinions, catalog);
    var out := ChiefJustice(state, Some(dims), response, writeSucceeds);
    assert out.payload == Entries(outs);
    if out.report.Some? {
      assert out.report.value.criteria == Blocks(outs);
    }
  }

  /** With no evidence and no opinions at all the report still lists every configured
      criterion, in order, each with score 1 and the placeholder line. */
  lemma TotalFailureStillReports(state: AgentState, dims: seq<RubricDimension>, response: SummaryResponse)
    requires state.opinions == [] && state.evidences == []
    ensures var out := ChiefJustice(state, Some(dims), response, true);
            && out.report.Some?
            && |out.report.value.criteria| == |dims|
            && forall i :: 0 <= i < |dims| ==>
                 && out.report.value.criteria[i].criterionId == DimensionId(dims[i])
                 && out.report.value.criteria[i].finalScore == 1
                 && out.report.value.criteria[i].lines == [NoOpinionLine]
  {
    var catalog := CollectEvidenceCatalog(state.evidences);
    forall i | 0 <= i < |dims|
      ensures AdjudicateDimension(dims[i], [], catalog).block.finalScore == 1
      ensures AdjudicateDimension(dims[i], [], catalog).block.lines == [NoOpinionLine]
    {
      UnjudgedDimension(dims[i], [], catalog);
    }
  }
}

=== FILE: odict.dfy ===
/**
 Python's `dict` as an insertion-ordered association list. Iteration order is
 observable in the auditor (which evidence strings fit under the limit, which
 lower-cased source a fuzzy citation resolves to), so a Dafny `map` would lose it.
 */
module OrderedDict {
  import opened Common

  type Dict<K, V> = seq<(K, V)>

  function Keys<K, V>(d: Dict<K, V>): (ks: seq<K>)
    ensures |ks| == |d|
  {
    if |d| == 0 then [] else [d[0].0] + Keys(d[1..])
  }

  lemma {:induction false} KeysAt<K, V>(d: Dict<K, V>, i: nat)
    requires i < |d|
    ensures Keys(d)[i] == d[i].0
  {
    if i > 0 { KeysAt(d[1..], i - 1); }
  }

  lemma {:induction false} KeysAppend<K, V>(a: Dict<K, V>, b: Dict<K, V>)
    ensures Keys(a + b) == Keys(a) + Keys(b)
  {
    if |a| > 0 {
      assert (a + b)[0] == a[0];
      assert (a + b)[1..] == a[1..] + b;
      KeysAppend(a[1..], b);
      assert Keys(a + b) == [a[0].0] + Keys(a[1..] + b);
      assert Keys(a) == [a[0].0] + Keys(a[1..]);
      assert [a[0].0] + (Keys(a[1..]) + Keys(b)) == ([a[0].0] + Keys(a[1..])) + Keys(b);
    } else {
      assert a + b == b;
    }
  }

  /** Every key appears once, as in a real Python dict. */
  ghost predicate DistinctKeys<K, V>(d: Dict<K, V>) {
    Distinct(Keys(d))
  }

  ghost predicate Distinct<T>(s: seq<T>) {
    forall i, j :: 0 <= i < j < |s| ==> s[i] != s[j]
  }

  lemma DistinctCons<T>(x: T, t: seq<T>)
    ensures Distinct([x] + t) <==> x !in t && Distinct(t)
  {
    var s := [x] + t;
    if Distinct(s) {
      forall j | 0 <= j < |t| ensures t[j] != x {
        assert s[j + 1] == t[j] && s[0] != s[j + 1];
      }
      forall i, j | 0 <= i < j < |t| ensures t[i] != t[j] {
        assert s[i + 1] != s[j + 1];
      }
    }
    if x !in t && Distinct(t) {
      forall i, j | 0 <= i < j < |s| ensures s[i] != s[j] {
        if i > 0 { assert s[i] == t[i - 1] && s[j] == t[j - 1]; }
        else { assert s[j] == t[j - 1]; }
      }
    }
  }

  lemma DistinctSnoc<T>(s: seq<T>, x: T)
    requires Distinct(s) && x !in s
    ensures Distinct(s + [x])
  {
    var r := s + [x];
    forall i, j | 0 <= i < j < |r| ensures r[i] != r[j] {
      assert r[i] == s[i];
      if j == |s| { assert r[j] == x; } else { assert r[j] == s[j]; }
    }
  }

  /** `d.get(k)`. */
  function Get<K(==), V>(d: Dict<K, V>, k: K): Option<V>
  {
    if |d| == 0 then None
    else if d[0].0 == k then Some(d[0].1)
    else Get(d[1..], k)
  }

  /** A lookup succeeds exactly for the keys present. */
  lemma {:induction false} GetSomeIff<K, V>(d: Dict<K, V>, k: K)
    ensures Get(d, k).Some? <==> k in Keys(d)
  {
    if |d| > 0 {
      assert Keys(d) == [d[0].0] + Keys(d[1..]);
      GetSomeIff(d[1..], k);
    }
  }

  /** `d[k] = v`: an existing key keeps its position, a new key goes last. */
  function Set<K(==,!new), V>(d: Dict<K, V>, k: K, v: V): (r: Dict<K, V>)
    ensures Get(r, k) == Some(v)
    ensures forall k' :: k' != k ==> Get(r, k') == Get(d, k')
  {
    if |d| == 0 then [(k, v)]
    else if d[0].0 == k then
      var r := [(k, v)] + d[1..];
      assert r[1..] == d[1..];
      r
    else
      var rest := Set(d[1..], k, v);
      var r := [d[0]] + rest;
      assert r[1..] == rest;
      r
  }

  /** Setting a present key keeps the key order; a new key is appended. */
  lemma {:induction false} SetKeys<K(!new), V>(d: Dict<K, V>, k: K, v: V)
    ensures Keys(Set(d, k, v)) == if k in Keys(d) then Keys(d) else Keys(d) + [k]
  {
    if |d| > 0 {
      assert Keys(d) == [d[0].0] + Keys(d[1..]);
      if d[0].0 != k {
        SetKeys(d[1..], k, v);
        assert Set(d, k, v)[1..] == Set(d[1..], k, v);
      } else {
        assert Set(d, k, v)[1..] == d[1..];
      }
    }
  }

  lemma SetKeepsDistinct<K(!new), V>(d: Dict<K, V>, k: K, v: V)
    requires DistinctKeys(d)
    ensures DistinctKeys(Set(d, k, v))
  {
    SetKeys(d, k, v);
    if k !in Keys(d) {
      DistinctSnoc(Keys(d), k);
    }
  }

  /** `d |= u` (`dict.update`): the entries of `u` are set one by one, in order. */
  function Update<K(==,!new), V>(d: Dict<K, V>, u: Dict<K, V>): (r: Dict<K, V>)
    ensures Keys(d) <= Keys(r)
    ensures forall k :: k in Keys(r) <==> k in Keys(d) || k in Keys(u)
    ensures DistinctKeys(d) ==> DistinctKeys(r)
    decreases |u|
  {
    if |u| == 0 then d
    else
      assert Keys(u) == [u[0].0] + Keys(u[1..]);
      var d' := Set(d, u[0].0, u[0].1);
      SetKeys(d, u[0].0, u[0].1);
      assert DistinctKeys(d) ==> DistinctKeys(d') by {
        if DistinctKeys(d) { SetKeepsDistinct(d, u[0].0, u[0].1); }
      }
      Update(d', u[1..])
  }

  /** After `d |= u`, a key of `u` maps to `u`'s value and every other key keeps `d`'s. */
  lemma {:induction false} UpdateGet<K(!new), V>(d: Dict<K, V>, u: Dict<K, V>, k: K)
    requires DistinctKeys(u)
    ensures Get(Update(d, u), k) == if k in Keys(u) then Get(u, k) else Get(d, k)
    decreases |u|
  {
    if |u| > 0 {
      var d' := Set(d, u[0].0, u[0].1);
      SetKeys(d, u[0].0, u[0].1);
      assert Keys(u) == [u[0].0] + Keys(u[1..]);
      DistinctCons(u[0].0, Keys(u[1..]));
      UpdateGet(d', u[1..], k);
      GetSomeIff(u[1..], k);
    }
  }

  /** With disjoint keys, `d |= u` overwrites nothing: it is `d` followed by `u`. */
  lemma {:induction false} UpdateDisjointAppends<K(!new), V>(d: Dict<K, V>, u: Dict<K, V>)
    requires DistinctKeys(u)
    requires forall k :: k in Keys(u) ==> k !in Keys(d)
    ensures Update(d, u) == d + u
    decreases |u|
  {
    if |u| > 0 {
      DisjointHeadStep(d, u);
      UpdateDisjointAppends(d + [u[0]], u[1..]);
      HeadTailAppend(d, u);
    }
  }

  lemma HeadTailAppend<T>(d: seq<T>, u: seq<T>)
    requires |u| > 0
    ensures d + [u[0]] + u[1..] == d + u
  {
  }

  /** One step of a disjoint update: the head is appended, and the rest stays disjoint. */
  lemma DisjointHeadStep<K(!new), V>(d: Dict<K, V>, u: Dict<K, V>)
    requires |u| > 0 && DistinctKeys(u)
    requires forall k :: k in Keys(u) ==> k !in Keys(d)
    ensures Update(d, u) == Update(d + [u[0]], u[1..])
    ensures DistinctKeys(u[1..])
    ensures forall k :: k in Keys(u[1..]) ==> k !in Keys(d + [u[0]])
  {
    assert Keys(u) == [u[0].0] + Keys(u[1..]);
    DistinctCons(u[0].0, Keys(u[1..]));
    SetAbsentAppends(d, u[0].0, u[0].1);
    KeysAppend(d, [u[0]]);
    assert Keys([u[0]]) == [u[0].0];
  }

  lemma {:induction false} SetAbsentAppends<K(!new), V>(d: Dict<K, V>, k: K, v: V)
    requires k !in Keys(d)
    ensures Set(d, k, v) == d + [(k, v)]
  {
    if |d| > 0 {
      assert Keys(d) == [d[0].0] + Keys(d[1..]);
      SetAbsentAppends(d[1..], k, v);
      assert [d[0]] + (d[1..] + [(k, v)]) == d + [(k, v)];
    }
  }

  /** Lookups after `(a |= b) |= c` and `a |= (b |= c)` agree: the merge is associative. */
  lemma UpdateAssociativeGet<K(!new), V>(a: Dict<K, V>, b: Dict<K, V>, c: Dict<K, V>, k: K)
    requires DistinctKeys(b) && DistinctKeys(c)
    ensures Get(Update(Update(a, b), c), k) == Get(Update(a, Update(b, c)), k)
  {
    UpdateGet(Update(a, b), c, k);
    UpdateGet(a, b, k);
    UpdateGet(b, c, k);
    UpdateGet(a, Update(b, c), k);
  }

  /** With disjoint keys the merge is commutative up to iteration order. */
  lemma UpdateDisjointCommutesGet<K(!new), V>(d: Dict<K, V>, a: Dict<K, V>, b: Dict<K, V>, k: K)
    requires DistinctKeys(a) && DistinctKeys(b)
    requires forall x :: x in Keys(a) ==> x !in Keys(b)
    ensures Get(Update(Update(d, a), b), k) == Get(Update(Update(d, b), a), k)
  {
    UpdateGet(Update(d, a), b, k);
    UpdateGet(d, a, k);
    UpdateGet(Update(d, b), a, k);
    UpdateGet(d, b, k);
  }
}

=== FILE: repo_tools.dfy ===
/**
 The pure slices of the repository tool: the URL guards and clone-error mapping,
 the file-tree filter and sort over a directory listing, the summary of a graph
 scan built from per-file scan results, the ignore-pattern default, and the key
 priority of the summary-text extraction. Cloning, the AST visitor and the
 summary service are oracles whose results are inputs.
 */
module RepoTools {
  import opened Common
  import opened Strings
  import OrderedDict

  datatype RepoError =
    | EmptyUrl
    | AuthenticationFailed
    | CloneFailed(detail: string)
    | UnexpectedCloneError(detail: string)
    | PathMissing
    | IngestNotInstalled
    | SummaryFailed(detail: string)

  // ---------------------------------------------------------------------------
  // `clone_repo`

  /** What `Repo.clone_from` did. */
  datatype CloneOutcome = Cloned | GitFailed(message: string) | CloneRaised(message: string)

  /** The two phrases that mark a git failure as an authentication problem. */
  predicate AuthenticationMessage(message: string) {
    var m := Lower(message);
    Contains(m, "authentication") || Contains(m, "could not read")
  }

  /** `clone_repo`: a blank URL is refused before anything runs; a git failure is reported as
      an authentication problem when its lowered text names one. */
  function CloneRepo(repoUrl: string, destination: string, outcome: CloneOutcome): (r: Result<string, RepoError>)
    ensures IsBlank(repoUrl) ==> r == Err(EmptyUrl)
    ensures !IsBlank(repoUrl) ==> (r.Ok? <==> outcome.Cloned?)
    ensures r.Ok? ==> r.value == destination
    ensures !IsBlank(repoUrl) && outcome.GitFailed? ==>
              (r == Err(AuthenticationFailed) <==> AuthenticationMessage(outcome.message))
    ensures !IsBlank(repoUrl) && outcome.GitFailed? && !AuthenticationMessage(outcome.message) ==>
              r == Err(CloneFailed(outcome.message))
    ensures !IsBlank(repoUrl) && outcome.CloneRaised? ==> r == Err(UnexpectedCloneError(outcome.message))
  {
    if IsBlank(repoUrl) then Err(EmptyUrl)
    else
      match outcome
      case Cloned => Ok(destination)
      case GitFailed(message) =>
        if AuthenticationMessage(message) then Err(AuthenticationFailed) else Err(CloneFailed(message))
      case CloneRaised(message) => Err(UnexpectedCloneError(message))
  }

  /** The matching is case-insensitive: a message and its upper-cased form map alike. */
  lemma AuthenticationIgnoresCase(message: string)
    ensures AuthenticationMessage(message) <==> AuthenticationMessage(Upper(message))
  {
    assert Lower(message) == Lower(Upper(message)) by {
      forall i | 0 <= i < |message| ensures Lower(message)[i] == Lower(Upper(message))[i] {
        assert Upper(message)[i] == UpperChar(message[i]);
      }
    }
  }

  // ---------------------------------------------------------------------------
  // `get_file_tree`

  /** One entry of the recursive listing: its path components below the base, and its kind. */
  datatype Entry = Entry(parts: seq<string>, isDir: bool)

  /** Kept: not a directory, and no component of the full path is `.git` or `__pycache__`. */
  predicate Listed(baseParts: seq<string>, e: Entry) {
    !e.isDir && ".git" !in baseParts + e.parts && "__pycache__" !in baseParts + e.parts
  }

  /** The relative path as `str` writes it. */
  function RelativePath(e: Entry): string {
    Join("/", e.parts)
  }

  function KeptPaths(baseParts: seq<string>, listing: seq<Entry>): (ps: seq<string>)
    ensures |ps| <= |listing|
    ensures forall p :: p in ps <==> exists e :: e in listing && Listed(baseParts, e) && RelativePath(e) == p
  {
    if |listing| == 0 then []
    else
      var rest := KeptPaths(baseParts, listing[1..]);
      assert forall e :: e in listing <==> e == listing[0] || e in listing[1..];
      if Listed(baseParts, listing[0]) then [RelativePath(listing[0])] + rest else rest
  }

  /** Python's ascending `list.sort()` on strings. */
  predicate Sorted(s: seq<string>) {
    forall i, j :: 0 <= i < j < |s| ==> LexLe(s[i], s[j])
  }

  function Insert(x: string, s: seq<string>): (r: seq<string>)
    requires Sorted(s)
    ensures Sorted(r)
    ensures multiset(r) == multiset(s) + multiset{x}
    ensures forall y :: y in r ==> y == x || y in s
  {
    if |s| == 0 then [x]
    else if LexLe(x, s[0]) then
      BelowHeadBelowAll(x, s);
      ConsSorted(x, s);
      [x] + s
    else
      SortedTail(s);
      var rest := Insert(x, s[1..]);
      InsertAfterHead(x, s, rest);
      [s[0]] + rest
  }

  lemma SortedTail(s: seq<string>)
    requires Sorted(s) && |s| > 0
    ensures Sorted(s[1..])
  {
    forall i, j | 0 <= i < j < |s[1..]| ensures LexLe(s[1..][i], s[1..][j]) {
      assert s[1..][i] == s[i + 1] && s[1..][j] == s[j + 1];
    }
  }

  /** A string below every element of a sorted list can go in front of it. */
  lemma ConsSorted(h: string, t: seq<string>)
    requires Sorted(t) && forall k :: 0 <= k < |t| ==> LexLe(h, t[k])
    ensures Sorted([h] + t)
  {
    var r := [h] + t;
    forall i, j | 0 <= i < j < |r| ensures LexLe(r[i], r[j]) {
      if i == 0 {
        assert r[j] == t[j - 1];
      } else {
        assert r[i] == t[i - 1] && r[j] == t[j - 1];
      }
    }
  }

  lemma BelowHeadBelowAll(x: string, s: seq<string>)
    requires Sorted(s) && |s| > 0 && LexLe(x, s[0])
    ensures forall k :: 0 <= k < |s| ==> LexLe(x, s[k])
  {
    forall k | 0 < k < |s| ensures LexLe(x, s[k]) {
      LexLeTrans(x, s[0], s[k]);
    }
  }

  /** The recursive case of `Insert`: the head stays in front of the tail with `x` inserted. */
  lemma InsertAfterHead(x: string, s: seq<string>, rest: seq<string>)
    requires Sorted(s) && |s| > 0 && !LexLe(x, s[0])
    requires Sorted(rest) && multiset(rest) == multiset(s[1..]) + multiset{x}
    requires forall y :: y in rest ==> y == x || y in s[1..]
    ensures Sorted([s[0]] + rest)
    ensures multiset([s[0]] + rest) == multiset(s) + multiset{x}
    ensures forall y :: y in [s[0]] + rest ==> y == x || y in s
  {
    LexLeTotal(x, s[0]);
    forall k | 0 <= k < |rest| ensures LexLe(s[0], rest[k]) {
      assert rest[k] in rest;
      if rest[k] != x {
        var m :| 0 <= m < |s[1..]| && s[1..][m] == rest[k];
        assert s[m + 1] == rest[k];
      }
    }
    ConsSorted(s[0], rest);
    assert s == [s[0]] + s[1..];
  }

  /** Insertion sort: the sorted permutation of `s`. */
  function Sort(s: seq<string>): (r: seq<string>)
    ensures Sorted(r)
    ensures multiset(r) == multiset(s)
  {
    if |s| == 0 then []
    else
      assert s == [s[0]] + s[1..];
      Insert(s[0], Sort(s[1..]))
  }

  /** Sorting is determined by content: two sorted arrangements of the same strings are equal. */
  lemma {:induction false} SortedUnique(a: seq<string>, b: seq<string>)
    requires Sorted(a) && Sorted(b) && multiset(a) == multiset(b)
    ensures a == b
    decreases |a|
  {
    if |a| > 0 {
      SameHead(a, b);
      SameTailMultiset(a, b);
      SortedTail(a);
      SortedTail(b);
      SortedUnique(a[1..], b[1..]);
      assert a == [a[0]] + a[1..] && b == [b[0]] + b[1..];
    } else {
      assert |b| == |multiset(b)|;
    }
  }

  /** Two sorted arrangements of one multiset start with the same least element. */
  lemma SameHead(a: seq<string>, b: seq<string>)
    requires Sorted(a) && Sorted(b) && multiset(a) == multiset(b) && |a| > 0
    ensures |b| > 0 && a[0] == b[0]
  {
    assert a[0] in multiset(b);
    assert b[0] in multiset(a);
    var i :| 0 <= i < |b| && b[i] == a[0];
    var j :| 0 <= j < |a| && a[j] == b[0];
    LexLeTotal(a[0], a[0]);
    assert LexLe(a[0], b[0]);
    assert LexLe(b[0], a[0]);
    LexLeAntisym(a[0], b[0]);
  }

  lemma SameTailMultiset(a: seq<string>, b: seq<string>)
    requires |a| > 0 && |b| > 0 && a[0] == b[0] && multiset(a) == multiset(b)
    ensures multiset(a[1..]) == multiset(b[1..])
  {
    assert a == [a[0]] + a[1..] && b == [b[0]] + b[1..];
    assert multiset(a) == multiset{a[0]} + multiset(a[1..]);
    assert multiset(b) == multiset{b[0]} + multiset(b[1..]);
    assert multiset(a[1..]) == multiset(a) - multiset{a[0]};
    assert multiset(b[1..]) == multiset(b) - multiset{b[0]};
  }

  /** `get_file_tree`: the kept relative paths in sorted order. */
  function FileTree(pathExists: bool, baseParts: seq<string>, listing: seq<Entry>): (r: Result<seq<string>, RepoError>)
    ensures r.Err? <==> !pathExists
    ensures r.Err? ==> r.error == PathMissing
    ensures r.Ok? ==> Sorted(r.value) && multiset(r.value) == multiset(KeptPaths(baseParts, listing))
    ensures r.Ok? ==> forall p :: p in r.value <==>
                        exists e :: e in listing && Listed(baseParts, e) && RelativePath(e) == p
  {
    if !pathExists then Err(PathMissing)
    else
      var kept := KeptPaths(baseParts, listing);
      var t := Sort(kept);
      assert forall p :: p in t <==> p in multiset(t);
      assert forall p :: p in kept <==> p in multiset(kept);
      Ok(t)
  }

  /** The tree is the one sorted arrangement of the kept paths. */
  lemma FileTreeIsTheSortedListing(baseParts: seq<string>, listing: seq<Entry>, s: seq<string>)
    requires Sorted(s) && multiset(s) == multiset(KeptPaths(baseParts, listing))
    ensures FileTree(true, baseParts, listing) == Ok(s)
  {
    SortedUnique(FileTree(true, baseParts, listing).value, s);
  }

  /** A base path inside a `.git` directory hides every file. */
  lemma {:induction false} BaseInsideGitHidesAll(baseParts: seq<string>, listing: seq<Entry>)
    requires ".git" in baseParts
    ensures KeptPaths(baseParts, listing) == []
    ensures FileTree(true, baseParts, listing) == Ok([])
  {
    if |listing| > 0 {
      assert !Listed(baseParts, listing[0]);
      BaseInsideGitHidesAll(baseParts, listing[1..]);
    }
  }

  // ---------------------------------------------------------------------------
  // `analyze_graph_structure`

  /** What parsing and visiting one Python file yielded. */
  datatype ScanResult =
    | Scanned(classNames: seq<string>, functionNames: seq<string>, stategraphs: nat, addNodeCalls: nat,
              addEdgeCalls: nat, conditionalEdgeCalls: nat)
    | ScanFailed(message: string)

  datatype ParseError = ParseError(file: string, message: string)

  /** The `summary` dict of the analysis. */
  datatype GraphSummary = GraphSummary(pythonFilesScanned: nat, classesFound: nat, functionsFound: nat,
                                       stategraphDetected: bool, nodeDefinitionsDetected: bool)

  datatype GraphAnalysis = GraphAnalysis(summary: GraphSummary,
                                         classes: OrderedDict.Dict<string, seq<string>>,
                                         functions: OrderedDict.Dict<string, seq<string>>,
                                         errors: seq<ParseError>)

  function PythonFiles(tree: seq<string>): (ps: seq<string>)
    ensures |ps| <= |tree|
    ensures forall p :: p in ps <==> p in tree && EndsWith(p, ".py")
  {
    if |tree| == 0 then []
    else
      var rest := PythonFiles(tree[1..]);
      assert forall p :: p in tree <==> p == tree[0] || p in tree[1..];
      if EndsWith(tree[0], ".py") then [tree[0]] + rest else rest
  }

  /** The accumulators of the scan loop. */
  datatype Scan = Scan(classes: OrderedDict.Dict<string, seq<string>>,
                       functions: OrderedDict.Dict<string, seq<string>>,
                       stategraphs: nat, addNodeCalls: nat, errors: seq<ParseError>)

  /** The failing files, in order. */
  function FailedFiles(files: seq<string>, scan: string -> ScanResult): seq<string> {
    if |files| == 0 then []
    else (if scan(files[0]).ScanFailed? then [files[0]] else []) + FailedFiles(files[1..], scan)
  }

  /** One iteration of the loop: a parsed file records its lists and counts, a failing one
      its error. */
  function ScanOne(acc: Scan, f: string, res: ScanResult): Scan {
    match res
    case Scanned(cs, fs, sg, an, _, _) =>
      Scan(OrderedDict.Set(acc.classes, f, cs), OrderedDict.Set(acc.functions, f, fs),
           acc.stategraphs + sg, acc.addNodeCalls + an, acc.errors)
    case ScanFailed(message) =>
      Scan(acc.classes, acc.functions, acc.stategraphs, acc.addNodeCalls,
           acc.errors + [ParseError(f, message)])
  }

  /** The loop over the Python files, from the given accumulators. */
  function ScanFiles(files: seq<string>, scan: string -> ScanResult, acc: Scan): (r: Scan)
    ensures |r.errors| == |acc.errors| + |FailedFiles(files, scan)|
    ensures r.errors[..|acc.errors|] == acc.errors
    ensures forall k :: 0 <= k < |FailedFiles(files, scan)| ==>
              r.errors[|acc.errors| + k].file == FailedFiles(files, scan)[k]
  {
    if |files| == 0 then acc
    else
      var next := ScanOne(acc, files[0], scan(files[0]));
      var r := ScanFiles(files[1..], scan, next);
      assert r.errors[..|next.errors|] == next.errors;
      assert r.errors[..|acc.errors|] == next.errors[..|acc.errors|];
      r
  }

  /** `sum(len(v) for v in d.values())`. */
  function SumLengths(d: OrderedDict.Dict<string, seq<string>>): nat {
    if |d| == 0 then 0 else |d[0].1| + SumLengths(d[1..])
  }

  /** `analyze_graph_structure` over the file tree and the per-file scan oracle. */
  function AnalyzeGraphStructure(pathExists: bool, tree: seq<string>, scan: string -> ScanResult)
    : (r: Result<GraphAnalysis, RepoError>)
    ensures r.Err? <==> !pathExists
    ensures r.Err? ==> r.error == PathMissing
    ensures r.Ok? ==> r.value.summary.pythonFilesScanned == |PythonFiles(tree)|
    ensures r.Ok? ==> |r.value.errors| == |FailedFiles(PythonFiles(tree), scan)|
    ensures r.Ok? ==> forall k :: 0 <= k < |r.value.errors| ==>
                        r.value.errors[k].file == FailedFiles(PythonFiles(tree), scan)[k]
    ensures r.Ok? ==> r.value.summary.classesFound == SumLengths(r.value.classes)
    ensures r.Ok? ==> r.value.summary.functionsFound == SumLengths(r.value.functions)
    ensures r.Ok? ==> forall f :: f in OrderedDict.Keys(r.value.classes)
                                  <==> f in PythonFiles(tree) && scan(f).Scanned?
    ensures r.Ok? ==> forall f :: f in OrderedDict.Keys(r.value.functions)
                                  <==> f in PythonFiles(tree) && scan(f).Scanned?
  {
    if !pathExists then Err(PathMissing)
    else
      var files := PythonFiles(tree);
      var s := ScanFiles(files, scan, Scan([], [], 0, 0, []));
      ScanKeys(files, scan, Scan([], [], 0, 0, []), ClassTable);
      ScanKeys(files, scan, Scan([], [], 0, 0, []), FunctionTable);
      Ok(GraphAnalysis(GraphSummary(|files|, SumLengths(s.classes), SumLengths(s.functions),
                                    s.stategraphs > 0, s.addNodeCalls > 0),
                       s.classes, s.functions, s.errors))
  }

  /** Total of a per-file count over the files that parsed. */
  function ParsedTotal(files: seq<string>, scan: string -> ScanResult, count: ScanResult -> nat): nat {
    if |files| == 0 then 0
    else (if scan(files[0]).Scanned? then count(scan(files[0])) else 0) + ParsedTotal(files[1..], scan, count)
  }

  /** The scan loop adds each parsed file's counts, and a failing file adds only its error. */
  lemma {:induction false} ScanCounts(files: seq<string>, scan: string -> ScanResult, acc: Scan)
    ensures ScanFiles(files, scan, acc).stategraphs
            == acc.stategraphs + ParsedTotal(files, scan, (x: ScanResult) => if x.Scanned? then x.stategraphs else 0)
    ensures ScanFiles(files, scan, acc).addNodeCalls
            == acc.addNodeCalls + ParsedTotal(files, scan, (x: ScanResult) => if x.Scanned? then x.addNodeCalls else 0)
  {
    if |files| > 0 {
      ScanCounts(files[1..], scan, ScanOne(acc, files[0], scan(files[0])));
    }
  }

  /** The detection flags are non-emptiness tests over all parsed files. */
  lemma DetectionFlags(tree: seq<string>, scan: string -> ScanResult)
    ensures var r := AnalyzeGraphStructure(true, tree, scan).value.summary;
            var files := PythonFiles(tree);
            && (r.stategraphDetected <==>
                  ParsedTotal(files, scan, (x: ScanResult) => if x.Scanned? then x.stategraphs else 0) > 0)
            && (r.nodeDefinitionsDetected <==>
                  ParsedTotal(files, scan, (x: ScanResult) => if x.Scanned? then x.addNodeCalls else 0) > 0)
  {
    ScanCounts(PythonFiles(tree), scan, Scan([], [], 0, 0, []));
  }

  /** The two per-file tables of the analysis: `classes` and `functions`. */
  datatype Table = ClassTable | FunctionTable

  function TableOf(acc: Scan, t: Table): OrderedDict.Dict<string, seq<string>> {
    if t.ClassTable? then acc.classes else acc.functions
  }

  /** The names a parsed file contributes to a table. */
  function NamesOf(x: ScanResult, t: Table): seq<string>
    requires x.Scanned?
  {
    if t.ClassTable? then x.classNames else x.functionNames
  }

  /** Number of names the parsed files contribute to a table. */
  function ParsedNames(files: seq<string>, scan: string -> ScanResult, t: Table): nat {
    if |files| == 0 then 0
    else (if scan(files[0]).Scanned? then |NamesOf(scan(files[0]), t)| else 0) + ParsedNames(files[1..], scan, t)
  }

  /** A table gains an entry for each parsed file and none for a failing one. */
  lemma {:induction false} ScanKeys(files: seq<string>, scan: string -> ScanResult, acc: Scan, t: Table)
    ensures forall f :: f in OrderedDict.Keys(TableOf(ScanFiles(files, scan, acc), t))
                        <==> f in OrderedDict.Keys(TableOf(acc, t)) || (f in files && scan(f).Scanned?)
  {
    if |files| > 0 {
      var next := ScanOne(acc, files[0], scan(files[0]));
      ScanKeys(files[1..], scan, next, t);
      if scan(files[0]).Scanned? {
        OrderedDict.SetKeys(TableOf(acc, t), files[0], NamesOf(scan(files[0]), t));
      }
      assert forall f :: f in files <==> f == files[0] || f in files[1..];
    }
  }

  /** With distinct file names (as a directory listing has), each parsed file's list is
      counted once: the table's total is the total over the parsed files. */
  lemma {:induction false} FoundIsTotal(files: seq<string>, scan: string -> ScanResult, acc: Scan, t: Table)
    requires OrderedDict.Distinct(files)
    requires forall f :: f in files ==> f !in OrderedDict.Keys(TableOf(acc, t))
    ensures SumLengths(TableOf(ScanFiles(files, scan, acc), t))
            == SumLengths(TableOf(acc, t)) + ParsedNames(files, scan, t)
  {
    if |files| > 0 {
      FoundStep(files, scan, acc, t);
      FoundIsTotal(files[1..], scan, ScanOne(acc, files[0], scan(files[0])), t);
    }
  }

  /** One iteration adds the parsed file's count and keeps the later files unrecorded. */
  lemma FoundStep(files: seq<string>, scan: string -> ScanResult, acc: Scan, t: Table)
    requires |files| > 0
    requires OrderedDict.Distinct(files)
    requires forall f :: f in files ==> f !in OrderedDict.Keys(TableOf(acc, t))
    ensures var next := ScanOne(acc, files[0], scan(files[0]));
            && SumLengths(TableOf(next, t))
               == SumLengths(TableOf(acc, t)) + (if scan(files[0]).Scanned? then |NamesOf(scan(files[0]), t)| else 0)
            && (forall g :: g in files[1..] ==> g !in OrderedDict.Keys(TableOf(next, t)))
            && OrderedDict.Distinct(files[1..])
  {
    var f := files[0];
    assert files == [f] + files[1..];
    OrderedDict.DistinctCons(f, files[1..]);
    if scan(f).Scanned? {
      var d, ns := TableOf(acc, t), NamesOf(scan(f), t);
      OrderedDict.SetAbsentAppends(d, f, ns);
      SumLengthsAppend(d, [(f, ns)]);
      OrderedDict.KeysAppend(d, [(f, ns)]);
      OrderedDict.KeysAt([(f, ns)], 0);
    }
  }

  /** Filtering keeps the file names distinct. */
  lemma {:induction false} PythonFilesDistinct(tree: seq<string>)
    requires OrderedDict.Distinct(tree)
    ensures OrderedDict.Distinct(PythonFiles(tree))
  {
    if |tree| > 0 {
      assert tree == [tree[0]] + tree[1..];
      OrderedDict.DistinctCons(tree[0], tree[1..]);
      PythonFilesDistinct(tree[1..]);
      if EndsWith(tree[0], ".py") {
        OrderedDict.DistinctCons(tree[0], PythonFiles(tree[1..]));
      }
    }
  }

  /** The summary's totals over a tree of distinct paths: `classes_found` and
      `functions_found` count the names of every parsed file once. */
  lemma GraphTotals(tree: seq<string>, scan: string -> ScanResult)
    requires OrderedDict.Distinct(tree)
    ensures var r := AnalyzeGraphStructure(true, tree, scan).value.summary;
            && r.classesFound == ParsedNames(PythonFiles(tree), scan, ClassTable)
            && r.functionsFound == ParsedNames(PythonFiles(tree), scan, FunctionTable)
  {
    PythonFilesDistinct(tree);
    FoundIsTotal(PythonFiles(tree), scan, Scan([], [], 0, 0, []), ClassTable);
    FoundIsTotal(PythonFiles(tree), scan, Scan([], [], 0, 0, []), FunctionTable);
  }

  lemma {:induction false} SumLengthsAppend(a: OrderedDict.Dict<string, seq<string>>, b: OrderedDict.Dict<string, seq<string>>)
    ensures SumLengths(a + b) == SumLengths(a) + SumLengths(b)
    decreases |a|
  {
    if |a| > 0 {
      assert (a + b)[0] == a[0];
      assert (a + b)[1..] == a[1..] + b;
      SumLengthsAppend(a[1..], b);
    } else {
      assert a + b == b;
    }
  }

  // ---------------------------------------------------------------------------
  // `get_repo_summary` and `_extract_summary_text`

  const DefaultIgnorePatterns: seq<string> :=
    [".git", "node_modules", "dist", "build", "coverage", "__pycache__", ".venv", ".mypy_cache", ".pytest_cache"]

  /** `ignore_patterns or [...]`: a missing or empty list falls back to the defaults. */
  function EffectivePatterns(ignorePatterns: Option<seq<string>>): (ps: seq<string>)
    ensures |ps| > 0
    ensures ignorePatterns.Some? && |ignorePatterns.value| > 0 ==> ps == ignorePatterns.value
    ensures ignorePatterns.None? || |ignorePatterns.value| == 0 ==> ps == DefaultIgnorePatterns
  {
    match ignorePatterns
    case Some(ps) => if |ps| > 0 then ps else DefaultIgnorePatterns
    case None => DefaultIgnorePatterns
  }

  /** A value held in the summary result: a string, or anything else. */
  datatype Value = Str(s: string) | NonStr

  /** What the summary service returned: a string, a dict, or another object (by attribute);
      `repr` is its `str()`. */
  datatype SummaryResult =
    | TextResult(text: string)
    | DictResult(entries: OrderedDict.Dict<string, Value>, repr: string)
    | ObjectResult(attributes: OrderedDict.Dict<string, Value>, repr: string)

  const SummaryKeys: seq<string> := ["summary", "content", "text", "report", "result", "output"]

  /** The value of the first key, in the given priority order, that holds a string. */
  function FirstStringValue(entries: OrderedDict.Dict<string, Value>, keys: seq<string>): (r: Option<string>)
    ensures r.Some? <==> exists i :: 0 <= i < |keys| && OrderedDict.Get(entries, keys[i]).Some?
                                     && OrderedDict.Get(entries, keys[i]).value.Str?
    ensures r.Some? ==> exists i :: 0 <= i < |keys|
                          && OrderedDict.Get(entries, keys[i]) == Some(Str(r.value))
                          && forall j :: 0 <= j < i ==> !(OrderedDict.Get(entries, keys[j]).Some?
                                                           && OrderedDict.Get(entries, keys[j]).value.Str?)
  {
    if |keys| == 0 then None
    else
      var v := OrderedDict.Get(entries, keys[0]);
      if v.Some? && v.value.Str? then Some(v.value.s)
      else
        var rest := FirstStringValue(entries, keys[1..]);
        assert forall i :: 1 <= i < |keys| ==> keys[i] == keys[1..][i - 1];
        if rest.Some? then
          assert exists i :: 0 <= i < |keys|
                   && OrderedDict.Get(entries, keys[i]) == Some(Str(rest.value))
                   && forall j :: 0 <= j < i ==> !(OrderedDict.Get(entries, keys[j]).Some?
                                                    && OrderedDict.Get(entries, keys[j]).value.Str?) by {
            var i :| 0 <= i < |keys| - 1
                     && OrderedDict.Get(entries, keys[1..][i]) == Some(Str(rest.value))
                     && forall j :: 0 <= j < i ==> !(OrderedDict.Get(entries, keys[1..][j]).Some?
                                                      && OrderedDict.Get(entries, keys[1..][j]).value.Str?);
            assert forall j :: 1 <= j < i + 1 ==> keys[j] == keys[1..][j - 1];
          }
          rest
        else rest
  }

  /** `_extract_summary_text`. */
  function ExtractSummaryText(result: SummaryResult): (t: string)
    ensures result.TextResult? ==> t == result.text
    ensures result.DictResult? ==>
              t == FirstStringValue(result.entries, SummaryKeys).GetOr(result.repr)
    ensures result.ObjectResult? ==>
              t == FirstStringValue(result.attributes, SummaryKeys).GetOr(result.repr)
  {
    match result
    case TextResult(text) => text
    case DictResult(entries, repr) => FirstStringValue(entries, SummaryKeys).GetOr(repr)
    case ObjectResult(attributes, repr) => FirstStringValue(attributes, SummaryKeys).GetOr(repr)
  }

  /** A dict whose `summary` entry is a string yields exactly that string, whatever else it holds. */
  lemma SummaryKeyWins(entries: OrderedDict.Dict<string, Value>, repr: string, s: string)
    requires OrderedDict.Get(entries, "summary") == Some(Str(s))
    ensures ExtractSummaryText(DictResult(entries, repr)) == s
  {
  }

  /** A dict with no string under any of the keys yields its `str()`. */
  lemma NoKnownKeyFallsBack(entries: OrderedDict.Dict<string, Value>, repr: string)
    requires forall i :: 0 <= i < |SummaryKeys| ==> OrderedDict.Get(entries, SummaryKeys[i]).None?
    ensures ExtractSummaryText(DictResult(entries, repr)) == repr
  {
  }

  /** What the summary service did. */
  datatype IngestOutcome = NotInstalled | IngestRaised(message: string) | Ingested(result: SummaryResult)

  const EmptySummaryMessage := "gitingest returned an empty summary."

  /** `get_repo_summary`: the URL guard, the import guard, then the extracted text, which must
      not be blank; a failure of the service or a blank text is wrapped as a summary failure. */
  function GetRepoSummary(repoUrl: string, outcome: IngestOutcome): (r: Result<string, RepoError>)
    ensures IsBlank(repoUrl) ==> r == Err(EmptyUrl)
    ensures !IsBlank(repoUrl) && outcome.NotInstalled? ==> r == Err(IngestNotInstalled)
    ensures !IsBlank(repoUrl) && outcome.IngestRaised? ==> r == Err(SummaryFailed(outcome.message))
    ensures r.Ok? ==> outcome.Ingested? && r.value == ExtractSummaryText(outcome.result) && !IsBlank(r.value)
    ensures !IsBlank(repoUrl) && outcome.Ingested? && IsBlank(ExtractSummaryText(outcome.result)) ==>
              r == Err(SummaryFailed(EmptySummaryMessage))
    ensures !IsBlank(repoUrl) && outcome.Ingested? && !IsBlank(ExtractSummaryText(outcome.result)) ==> r.Ok?
  {
    if IsBlank(repoUrl) then Err(EmptyUrl)
    else
      match outcome
      case NotInstalled => Err(IngestNotInstalled)
      case IngestRaised(message) => Err(SummaryFailed(message))
      case Ingested(result) =>
        var text := ExtractSummaryText(result);
        if IsBlank(text) then Err(SummaryFailed(EmptySummaryMessage)) else Ok(text)
  }
}

=== FILE: state.dfy ===
/**
 The shared state of the audit graph (`AgentState`) and the records stored in it:
 detective `Evidence`, judge `JudicialOpinion`, and the chief justice's
 `CriterionResult`. Each record's range constraints are a predicate plus a
 validating constructor that fails the way the schema's validation does.
 Partial updates returned by nodes are merged field by field: `evidences` by
 `dict |=` (right-biased, ordered), `opinions` and `messages` by list
 concatenation, scalar fields by last writer.
 */
module State {
  import opened Common
  import OrderedDict

  datatype Judge = Prosecutor | Defense | TechLead

  function JudgeLabel(j: Judge): string {
    match j
    case Prosecutor => "Prosecutor"
    case Defense => "Defense"
    case TechLead => "TechLead"
  }

  /** The `Literal["Prosecutor", "Defense", "TechLead"]` check of the schema. */
  function ParseJudge(s: string): (r: Option<Judge>)
    ensures r.Some? ==> JudgeLabel(r.value) == s
  {
    if s == "Prosecutor" then Some(Prosecutor)
    else if s == "Defense" then Some(Defense)
    else if s == "TechLead" then Some(TechLead)
    else None
  }

  /** Labels and judges are in one-to-one correspondence. */
  lemma ParseJudgeLabel(j: Judge, s: string)
    ensures ParseJudge(JudgeLabel(j)) == Some(j)
    ensures ParseJudge(s).Some? <==> s in {"Prosecutor", "Defense", "TechLead"}
  {
  }

  /** `Evidence.content` is `Optional[Any]`; only string contents are ever read back. */
  datatype Content = NoContent | TextContent(text: string) | OtherContent

  datatype Evidence = Evidence(
    goal: string,
    found: bool,
    content: Content,
    location: string,
    rationale: string,
    confidence: real)

  predicate ValidEvidence(e: Evidence) {
    0.0 <= e.confidence <= 1.0
  }

  /** The name of the field whose constraint a construction violated. */
  datatype ValidationError = ValidationError(field: string)

  /** `Evidence(...)`: refuses a confidence outside [0, 1]. */
  function MakeEvidence(goal: string, found: bool, content: Content, location: string,
                        rationale: string, confidence: real): (r: Result<Evidence, ValidationError>)
    ensures r.Ok? <==> 0.0 <= confidence <= 1.0
    ensures r.Ok? ==> ValidEvidence(r.value)
    ensures r.Ok? ==> r.value == Evidence(goal, found, content, location, rationale, confidence)
  {
    if 0.0 <= confidence <= 1.0 then Ok(Evidence(goal, found, content, location, rationale, confidence))
    else Err(ValidationError("confidence"))
  }

  datatype JudicialOpinion = JudicialOpinion(
    judge: Judge,
    criterionId: string,
    score: int,
    argument: string,
    citedEvidence: seq<string>)

  predicate ValidOpinion(o: JudicialOpinion) {
    1 <= o.score <= 5
  }

  /** An opinion that passed the schema's validation; the structured-output call and
      `model_validate_json` only ever deliver these. */
  type ValidJudicialOpinion = o: JudicialOpinion | ValidOpinion(o)
    witness JudicialOpinion(Prosecutor, "", 1, "", [])

  /** `JudicialOpinion(...)`: refuses an unknown judge label or a score outside [1, 5]. */
  function MakeOpinion(judgeLabel: string, criterionId: string, score: int, argument: string,
                       citedEvidence: seq<string>): (r: Result<JudicialOpinion, ValidationError>)
    ensures r.Ok? <==> ParseJudge(judgeLabel).Some? && 1 <= score <= 5
    ensures r.Ok? ==> ValidOpinion(r.value) && JudgeLabel(r.value.judge) == judgeLabel
    ensures r.Ok? ==> r.value.criterionId == criterionId && r.value.score == score
                      && r.value.argument == argument && r.value.citedEvidence == citedEvidence
  {
    match ParseJudge(judgeLabel)
    case None => Err(ValidationError("judge"))
    case Some(j) =>
      if 1 <= score <= 5 then Ok(JudicialOpinion(j, criterionId, score, argument, citedEvidence))
      else Err(ValidationError("score"))
  }

  datatype CriterionResult = CriterionResult(
    dimensionId: string,
    dimensionName: string,
    finalScore: int,
    judgeOpinions: seq<JudicialOpinion>,
    dissentSummary: Option<string>,
    remediation: string)

  predicate ValidCriterionResult(c: CriterionResult) {
    1 <= c.finalScore <= 5
  }

  /** `CriterionResult(...)`: refuses a final score outside [1, 5]. */
  function MakeCriterionResult(dimensionId: string, dimensionName: string, finalScore: int,
                               judgeOpinions: seq<JudicialOpinion>, dissentSummary: Option<string>,
                               remediation: string): (r: Result<CriterionResult, ValidationError>)
    ensures r.Ok? <==> 1 <= finalScore <= 5
    ensures r.Ok? ==> ValidCriterionResult(r.value) && r.value.finalScore == finalScore
  {
    if 1 <= finalScore <= 5 then
      Ok(CriterionResult(dimensionId, dimensionName, finalScore, judgeOpinions, dissentSummary, remediation))
    else Err(ValidationError("final_score"))
  }

  /** One rubric dimension as read from `rubric.json` (prompt texts are not modelled). */
  datatype RubricDimension = RubricDimension(
    id: Option<string>,
    name: Option<string>,
    targetArtifact: Option<string>)

  /** `str(dimension.get("id", "unknown_criterion"))`. */
  function DimensionId(d: RubricDimension): string {
    d.id.GetOr("unknown_criterion")
  }

  /** `str(dimension.get("name", criterion_id))`. */
  function DimensionName(d: RubricDimension): string {
    d.name.GetOr(DimensionId(d))
  }

  /** What the document analyst stores under `rubric_dimensions`; free text is kept abstract. */
  datatype RequirementsPayload = RequirementsPayload(
    sourcePdf: string,
    searchPatterns: seq<string>,
    objectives: string,
    deliverables: string,
    constraints: string,
    markdownLength: nat,
    refinedRequirements: string)

  /** The audit trail entries the nodes append to `messages`; error texts are kept abstract. */
  datatype Message =
    | DetectiveCompleted(node: string, detail: string)
    | DetectiveFailed(node: string, error: string)
    | AggregationGaps(missing: seq<string>)
    | AggregationSynchronized
    | JudgeCompleted(judge: Judge, reviews: nat)
    | JudgeFailed(judge: Judge, error: string)
    | SynthesisComplete
    | SynthesisFailed(error: string)

  type EvidenceDict = OrderedDict.Dict<string, seq<Evidence>>

  /** `AgentState`; a field a node never wrote reads as its default ("" or empty). */
  datatype AgentState = AgentState(
    repoUrl: string,
    repoPath: string,
    pdfPath: string,
    rubricDimensions: seq<RequirementsPayload>,
    evidences: EvidenceDict,
    opinions: seq<JudicialOpinion>,
    messages: seq<Message>)

  /** The dict a node returns: absent scalar keys are None, absent merged keys are empty. */
  datatype Update = Update(
    repoPath: Option<string>,
    pdfPath: Option<string>,
    rubricDimensions: Option<seq<RequirementsPayload>>,
    evidences: EvidenceDict,
    opinions: seq<JudicialOpinion>,
    messages: seq<Message>)

  function NoUpdate(): Update {
    Update(None, None, None, [], [], [])
  }

  /** The `operator.ior` reducer of `evidences`. */
  function MergeEvidences(current: EvidenceDict, update: EvidenceDict): EvidenceDict {
    OrderedDict.Update(current, update)
  }

  /** The `operator.add` reducer of `opinions` and `messages`. */
  function MergeList<T>(current: seq<T>, update: seq<T>): seq<T> {
    current + update
  }

  /** Applies one node's partial update to the state, field by field. */
  function Apply(s: AgentState, u: Update): AgentState {
    AgentState(
      s.repoUrl,
      u.repoPath.GetOr(s.repoPath),
      u.pdfPath.GetOr(s.pdfPath),
      u.rubricDimensions.GetOr(s.rubricDimensions),
      MergeEvidences(s.evidences, u.evidences),
      MergeList(s.opinions, u.opinions),
      MergeList(s.messages, u.messages))
  }

  /** The merged `evidences` hold every key of both sides; the update wins on a collision. */
  lemma MergeEvidencesSemantics(current: EvidenceDict, update: EvidenceDict, k: string)
    requires OrderedDict.DistinctKeys(update)
    ensures k in OrderedDict.Keys(MergeEvidences(current, update))
            <==> k in OrderedDict.Keys(current) || k in OrderedDict.Keys(update)
    ensures OrderedDict.Get(MergeEvidences(current, update), k)
            == if k in OrderedDict.Keys(update) then OrderedDict.Get(update, k)
               else OrderedDict.Get(current, k)
  {
    OrderedDict.UpdateGet(current, update, k);
  }

  /** With disjoint keys nothing is overwritten: the merge appends the update's entries. */
  lemma MergeEvidencesDisjoint(current: EvidenceDict, update: EvidenceDict)
    requires OrderedDict.DistinctKeys(update)
    requires forall k :: k in OrderedDict.Keys(update) ==> k !in OrderedDict.Keys(current)
    ensures MergeEvidences(current, update) == current + update
    ensures forall k :: k in OrderedDict.Keys(current) ==>
              OrderedDict.Get(MergeEvidences(current, update), k) == OrderedDict.Get(current, k)
  {
    OrderedDict.UpdateDisjointAppends(current, update);
    forall k | k in OrderedDict.Keys(current)
      ensures OrderedDict.Get(MergeEvidences(current, update), k) == OrderedDict.Get(current, k)
    {
      OrderedDict.UpdateGet(current, update, k);
    }
  }

  /** The list reducer keeps the old list as a prefix, then the update in its own order. */
  lemma MergeListAppends<T>(current: seq<T>, update: seq<T>)
    ensures |MergeList(current, update)| == |current| + |update|
    ensures MergeList(current, update)[..|current|] == current
    ensures MergeList(current, update)[|current|..] == update
  {
  }

  /** Two sibling updates whose evidence keys are disjoint give the same lookups in either order. */
  lemma ApplyCommutesOnEvidences(s: AgentState, a: Update, b: Update, k: string)
    requires OrderedDict.DistinctKeys(a.evidences) && OrderedDict.DistinctKeys(b.evidences)
    requires forall x :: x in OrderedDict.Keys(a.evidences) ==> x !in OrderedDict.Keys(b.evidences)
    ensures OrderedDict.Get(Apply(Apply(s, a), b).evidences, k)
            == OrderedDict.Get(Apply(Apply(s, b), a).evidences, k)
  {
    OrderedDict.UpdateDisjointCommutesGet(s.evidences, a.evidences, b.evidences, k);
  }

  /** A scalar field changes only when the update carries it. */
  lemma ApplyScalars(s: AgentState, u: Update)
    ensures u.repoPath.None? ==> Apply(s, u).repoPath == s.repoPath
    ensures u.pdfPath.None? ==> Apply(s, u).pdfPath == s.pdfPath
    ensures u.repoPath.Some? ==> Apply(s, u).repoPath == u.repoPath.value
    ensures u.pdfPath.Some? ==> Apply(s, u).pdfPath == u.pdfPath.value
  {
  }
}

=== FILE: strings.dfy ===
/**
 Text primitives the auditor relies on, stated over `string` (= `seq<char>`):
 Python's whitespace test and `strip`, ASCII case mapping, substring search
 (`in`, `find`, `count`), Python slicing, `join`, and code-point ordering of strings.
 */
module Strings {
  import opened Common

  /** Python's `str.isspace` for a single code point (also what `\s` matches in `re`). */
  predicate IsSpace(c: char) {
    || ('\U{0009}' <= c <= '\U{000D}')
    || ('\U{001C}' <= c <= '\U{0020}')
    || c == '\U{0085}' || c == '\U{00A0}' || c == '\U{1680}'
    || ('\U{2000}' <= c <= '\U{200A}')
    || c == '\U{2028}' || c == '\U{2029}' || c == '\U{202F}' || c == '\U{205F}' || c == '\U{3000}'
  }

  /** `not s.strip()`: the text is empty or whitespace only. */
  predicate IsBlank(s: string) {
    forall i :: 0 <= i < |s| ==> IsSpace(s[i])
  }

  /** Index of the first non-whitespace character (|s| if there is none). */
  function FirstNonSpace(s: string): (k: nat)
    ensures k <= |s|
    ensures forall i :: 0 <= i < k ==> IsSpace(s[i])
    ensures k < |s| ==> !IsSpace(s[k])
  {
    if |s| > 0 && IsSpace(s[0]) then 1 + FirstNonSpace(s[1..]) else 0
  }

  /** One past the index of the last non-whitespace character (0 if there is none). */
  function EndNonSpace(s: string): (k: nat)
    ensures k <= |s|
    ensures forall i :: k <= i < |s| ==> IsSpace(s[i])
    ensures k > 0 ==> !IsSpace(s[k - 1])
  {
    if |s| > 0 && IsSpace(s[|s| - 1]) then EndNonSpace(s[..|s| - 1]) else |s|
  }

  /** Python's `s.rstrip()`. */
  function RStrip(s: string): (r: string)
    ensures r <= s
    ensures |r| > 0 ==> !IsSpace(r[|r| - 1])
    ensures forall i :: |r| <= i < |s| ==> IsSpace(s[i])
  {
    s[..EndNonSpace(s)]
  }

  /** Python's `s.strip()`: the slice between the first and last non-whitespace characters. */
  function Strip(s: string): (r: string)
    ensures |r| <= |s|
    ensures FirstNonSpace(s) + |r| <= |s| && r == s[FirstNonSpace(s)..FirstNonSpace(s) + |r|]
    ensures |r| > 0 ==> !IsSpace(r[0]) && !IsSpace(r[|r| - 1])
    ensures r == [] <==> IsBlank(s)
  {
    var k := FirstNonSpace(s);
    var t := s[k..];
    var r := RStrip(t);
    assert r == s[k..k + |r|];
    assert |r| > 0 ==> r[0] == s[k];
    assert r == [] ==> k == |s|;
    r
  }

  /** What `rstrip` drops is whitespace. */
  lemma RStripDropsBlank(t: string)
    ensures t == RStrip(t) + t[|RStrip(t)|..] && IsBlank(t[|RStrip(t)|..])
  {
    var r := RStrip(t);
    var tail := t[|r|..];
    forall j | 0 <= j < |tail| ensures IsSpace(tail[j]) {
      assert tail[j] == t[|r| + j];
    }
  }

  /** `s` is its stripped text surrounded by whitespace on both sides. */
  lemma StripSurroundings(s: string)
    ensures IsBlank(s[..FirstNonSpace(s)])
    ensures IsBlank(s[FirstNonSpace(s) + |Strip(s)|..])
  {
    var k := FirstNonSpace(s);
    var t := s[k..];
    RStripDropsBlank(t);
    assert Strip(s) == RStrip(t);
    assert s[k + |Strip(s)|..] == t[|RStrip(t)|..];
    assert IsBlank(s[..k]) by {
      forall j | 0 <= j < k ensures IsSpace(s[..k][j]) {
        assert s[..k][j] == s[j];
      }
    }
  }

  /** Stripping twice is stripping once. */
  lemma StripIdempotent(s: string)
    ensures Strip(Strip(s)) == Strip(s)
  {
    var r := Strip(s);
    if |r| > 0 {
      assert FirstNonSpace(r) == 0;
      assert EndNonSpace(r) == |r|;
      assert r[0..][..|r|] == r;
    }
  }

  /** Two texts with whitespace at the same places strip to the same positions. */
  lemma SameShapeStrip(s: string, t: string)
    requires |s| == |t| && forall i :: 0 <= i < |s| ==> (IsSpace(s[i]) <==> IsSpace(t[i]))
    ensures FirstNonSpace(s) == FirstNonSpace(t)
    ensures |Strip(s)| == |Strip(t)|
  {
    SameShapeFirst(s, t);
    var k := FirstNonSpace(s);
    SameShapeEnd(s[k..], t[k..]);
  }

  lemma SameShapeFirst(s: string, t: string)
    requires |s| == |t| && forall i :: 0 <= i < |s| ==> (IsSpace(s[i]) <==> IsSpace(t[i]))
    ensures FirstNonSpace(s) == FirstNonSpace(t)
  {
    var a, b := FirstNonSpace(s), FirstNonSpace(t);
    forall i | 0 <= i < b ensures IsSpace(s[i]) { }
    forall i | 0 <= i < a ensures IsSpace(t[i]) { }
  }

  lemma SameShapeEnd(s: string, t: string)
    requires |s| == |t| && forall i :: 0 <= i < |s| ==> (IsSpace(s[i]) <==> IsSpace(t[i]))
    ensures EndNonSpace(s) == EndNonSpace(t)
  {
    var a, b := EndNonSpace(s), EndNonSpace(t);
    forall i | b <= i < |s| ensures IsSpace(s[i]) { }
    forall i | a <= i < |t| ensures IsSpace(t[i]) { }
  }

  /** A text with no surrounding whitespace is its own strip. */
  lemma StripOfTrimmed(s: string)
    requires |s| > 0 ==> !IsSpace(s[0]) && !IsSpace(s[|s| - 1])
    ensures Strip(s) == s
  {
    if |s| > 0 {
      assert FirstNonSpace(s) == 0;
      assert EndNonSpace(s) == |s|;
      assert s[0..][..|s|] == s;
    }
  }

  /** A prefix's substrings are substrings of the whole. */
  lemma ContainsInPrefix(p: string, rest: string, n: string)
    requires Contains(p, n)
    ensures Contains(p + rest, n)
  {
    ContainsIff(p, n);
    var i :| OccursAt(p, n, i);
    assert (p + rest)[i..i + |n|] == p[i..i + |n|];
    assert OccursAt(p + rest, n, i);
    ContainsIff(p + rest, n);
  }

  /** Python's `str.lower()` restricted to ASCII letters. */
  function LowerChar(c: char): char {
    if 'A' <= c <= 'Z' then (c as int + 32) as char else c
  }

  /** Python's `str.upper()` restricted to ASCII letters. */
  function UpperChar(c: char): char {
    if 'a' <= c <= 'z' then (c as int - 32) as char else c
  }

  function Lower(s: string): (r: string)
    ensures |r| == |s|
    ensures forall i :: 0 <= i < |s| ==> r[i] == LowerChar(s[i])
  {
    seq(|s|, i requires 0 <= i < |s| => LowerChar(s[i]))
  }

  function Upper(s: string): (r: string)
    ensures |r| == |s|
    ensures forall i :: 0 <= i < |s| ==> r[i] == UpperChar(s[i])
  {
    seq(|s|, i requires 0 <= i < |s| => UpperChar(s[i]))
  }

  /** `n` occurs in `h` starting at index `i`. */
  predicate OccursAt(h: string, n: string, i: int) {
    0 <= i && i + |n| <= |h| && h[i..i + |n|] == n
  }

  lemma OccursAtTail(h: string, n: string, i: int)
    requires |h| > 0 && i >= 1
    ensures OccursAt(h, n, i) <==> OccursAt(h[1..], n, i - 1)
  {
    if i + |n| <= |h| {
      assert h[i..i + |n|] == h[1..][i - 1..i - 1 + |n|];
    }
  }

  /** Python's `h.find(n)`: the lowest index where `n` occurs, or None. */
  function FindFirst(h: string, n: string): (r: Option<nat>)
    ensures r.Some? ==> OccursAt(h, n, r.value)
    ensures r.Some? ==> forall j :: 0 <= j < r.value ==> !OccursAt(h, n, j)
    ensures r.None? ==> forall j :: !OccursAt(h, n, j)
    decreases |h|
  {
    if n <= h then
      assert h[0..|n|] == n;
      Some(0)
    else if |h| == 0 then
      None
    else
      var rest := FindFirst(h[1..], n);
      assert !OccursAt(h, n, 0);
      assert forall j :: j >= 1 ==> (OccursAt(h, n, j) <==> OccursAt(h[1..], n, j - 1)) by {
        forall j | j >= 1 { OccursAtTail(h, n, j); }
      }
      match rest
      case Some(i) => Some(i + 1)
      case None => None
  }

  /** Python's `n in h` for strings (the empty string occurs everywhere). */
  predicate Contains(h: string, n: string) {
    FindFirst(h, n).Some?
  }

  lemma ContainsIff(h: string, n: string)
    ensures Contains(h, n) <==> exists i :: OccursAt(h, n, i)
  {
    if Contains(h, n) {
      assert OccursAt(h, n, FindFirst(h, n).value);
    }
  }

  /** Every string contains itself, so an exact match is also a substring match. */
  lemma ContainsSelf(s: string)
    ensures Contains(s, s)
  {
    assert OccursAt(s, s, 0);
    ContainsIff(s, s);
  }

  /** Python's `h.count(n)` for a non-empty needle: non-overlapping, left to right. */
  function CountOccurrences(h: string, n: string): nat
    requires |n| > 0
    decreases |h|
  {
    if |h| < |n| then 0
    else if n <= h then 1 + CountOccurrences(h[|n|..], n)
    else CountOccurrences(h[1..], n)
  }

  /** A needle is counted at least once exactly when it occurs. */
  lemma {:induction false} CountPositiveIffContains(h: string, n: string)
    requires |n| > 0
    ensures CountOccurrences(h, n) > 0 <==> Contains(h, n)
    decreases |h|
  {
    ContainsIff(h, n);
    if |h| < |n| {
      assert forall i :: !OccursAt(h, n, i);
    } else if n <= h {
      assert OccursAt(h, n, 0);
    } else {
      CountPositiveIffContains(h[1..], n);
      ContainsIff(h[1..], n);
      assert !OccursAt(h, n, 0);
      forall i | OccursAt(h, n, i) ensures OccursAt(h[1..], n, i - 1) {
        OccursAtTail(h, n, i);
      }
      forall i | OccursAt(h[1..], n, i) ensures OccursAt(h, n, i + 1) {
        OccursAtTail(h, n, i + 1);
      }
    }
  }

  /** Python's `s.endswith(suffix)`. */
  predicate EndsWith<T(==)>(s: seq<T>, suffix: seq<T>) {
    |suffix| <= |s| && s[|s| - |suffix|..] == suffix
  }

  /** Python's `s[:n]` for `n >= 0`. */
  function Take<T>(s: seq<T>, n: nat): (r: seq<T>)
    ensures |r| == if n <= |s| then n else |s|
    ensures r <= s
  {
    if n <= |s| then s[..n] else s
  }

  /** Python's `s[-n:]` for `n > 0`. */
  function TakeLast<T(==)>(s: seq<T>, n: nat): (r: seq<T>)
    ensures |r| == if n <= |s| then n else |s|
    ensures EndsWith(s, r)
  {
    if n <= |s| then s[|s| - n..] else s
  }

  /** Python's `s.replace(a, b)` for single characters. */
  function ReplaceChar(s: string, a: char, b: char): (r: string)
    ensures |r| == |s|
    ensures forall i :: 0 <= i < |s| ==> r[i] == (if s[i] == a then b else s[i])
  {
    seq(|s|, i requires 0 <= i < |s| => if s[i] == a then b else s[i])
  }

  /** Python's `sep.join(parts)`. */
  function Join(sep: string, parts: seq<string>): string
  {
    if |parts| == 0 then ""
    else if |parts| == 1 then parts[0]
    else parts[0] + sep + Join(sep, parts[1..])
  }

  /** The first part is a prefix of the joined text. */
  lemma JoinHeadPrefix(sep: string, parts: seq<string>)
    requires |parts| > 0
    ensures parts[0] <= Join(sep, parts)
  {
  }

  /** Case mapping commutes with concatenation. */
  lemma LowerAppend(a: string, b: string)
    ensures Lower(a + b) == Lower(a) + Lower(b)
  {
  }

  /** Code-point order on strings, as Python compares `str` values. */
  predicate LexLe(a: string, b: string)
    decreases |a|
  {
    if |a| == 0 then true
    else if |b| == 0 then false
    else if a[0] != b[0] then a[0] < b[0]
    else LexLe(a[1..], b[1..])
  }

  lemma {:induction false} LexLeTotal(a: string, b: string)
    ensures LexLe(a, b) || LexLe(b, a)
    decreases |a|
  {
    if |a| > 0 && |b| > 0 && a[0] == b[0] {
      LexLeTotal(a[1..], b[1..]);
    }
  }

  lemma {:induction false} LexLeTrans(a: string, b: string, c: string)
    requires LexLe(a, b) && LexLe(b, c)
    ensures LexLe(a, c)
    decreases |a|
  {
    if |a| > 0 && |b| > 0 && |c| > 0 && a[0] == b[0] && b[0] == c[0] {
      LexLeTrans(a[1..], b[1..], c[1..]);
    }
  }

  lemma {:induction false} LexLeAntisym(a: string, b: string)
    requires LexLe(a, b) && LexLe(b, a)
    ensures a == b
    decreases |a|
  {
    if |a| > 0 && |b| > 0 {
      LexLeAntisym(a[1..], b[1..]);
      assert a == [a[0]] + a[1..];
      assert b == [b[0]] + b[1..];
    }
  }
}
